=== FILE: README.md ===
# Slotly booking core in Dafny

Slotly is a scheduling service. A host creates an event with a time window and availability rules. The service cuts the window into fixed-length slots. Guests book a slot with a name and an e-mail and may later cancel it. This project models that core as pure functions over an immutable store and proves properties of the model.

What is modelled, module by module:

- `Domain`: users (as hosts), rules, events, slots, the typed errors, and the published notices. Times are integer minutes on the event's wall clock. `Clock` supplies "now": the zoned reading per time zone, the JVM-local reading and the epoch milliseconds.
- `Store`: the event and slot tables (`Db`), with the repository queries the services call and the table invariant `Valid`. Slots are unique by id and by (event, start time); events are unique by id and by shareable id; every slot's booked name and e-mail are set together.
- `Store.SaveVersioned`: the `@Version` compare-and-swap save.
- `Partition`: both slot-generation loops and their closed form (the grid of cells `[s+i*d, s+(i+1)*d)`).
- `SlotService`: slot generation, booking, cancellation and the slot queries of the feature service, plus the legacy generator. Booking and cancelling are split into a guard phase (`PrepareBooking`, `PrepareCancel`) and the versioned save, so two requests can be interleaved on one snapshot.
- `EventService` and `EventEntity`: event creation (window guards, `@PrePersist` defaults, shareable ids), lookup and deletion. `Variant` selects the feature service (`feature/event`) or its legacy twin (`service/EventService.java` with `model/Event.java`); the two differ in the shareable id and in the slot generator.
- `Slugs`, `Text`, `Numerals` and `NameUtils`: the slug of an event name, Java's `trim` and ASCII `toLowerCase`, decimal rendering, and the display name.
- `Calendar`: the iCalendar file of a booking, with the line reader used to state what a client sees.
- `RateLimit`: `getClientIp` with Java `split` semantics, and the bucket-key prefixes.
- `JwtFilter`: bearer-token extraction (section 2.1 of RFC 6750) and the decision logic of the authentication filter.
- `VerificationTokens`: issuing and redeeming the e-mail verification token.
- `Validation`: the bean-validation constraints of the rules DTO and of the registration and password-reset requests.

Every service operation returns a `Step`: the result, the tables after the call, and the effects in call order (committed repository writes and published notices). A failed call returns the tables unchanged, matching `@Transactional(rollbackOn = Exception.class)`. It also publishes nothing, except in one case. When a booking or cancellation hits the version check at commit, its notice has already been published.

A stale `@Version` on a slot fails the call with an optimistic-lock failure; the model's error is `OptimisticLock`. The HTTP status is not modelled: the exception handler maps `jakarta.persistence.OptimisticLockException` to 409, but the conflict is detected at commit, where Spring's transaction manager reports it as its own `ObjectOptimisticLockingFailureException`, which no handler names; it most likely reaches the catch-all handler and its 500. `save` on the managed row issues no statement; the versioned update runs when the transaction commits, after `publishEvent`. The e-mail listeners are plain `@EventListener @Async` methods, not bound to the transaction. So the loser of two racing bookings of one slot fails with an optimistic-lock error after its booking notice has gone out (see "## Findings").

Edge cases the model takes from the code:

- A slot or event starting exactly now is accepted, because the past checks use a strict "before".
- A token whose expiry is exactly now is accepted, for the same reason.
- A header of commas only, such as `","`, makes `getClientIp` index an empty array. The model returns an error there.

## Model

| member | source | states |
|---|---|---|
| Domain.HalfBookedSlot | src/main/java/com/example/SlotlyV2/model/Slot.java:54-56 | a slot with exactly one of the two booked fields set is not available, and the booked-count query does not count it either |
| Domain.AvailabilityIgnoresOtherFields | src/main/java/com/example/SlotlyV2/model/Slot.java:39-56 | two slots with the same booked name and e-mail agree on availability, whatever their times, event, version or booking time |
| Store.FindByEventIdAndStartTime | src/main/java/com/example/SlotlyV2/repository/SlotRepository.java:29 | a found slot is a row of that event starting at that time; nothing found means no row has that key |
| Store.FindByKeyUnique | src/main/java/com/example/SlotlyV2/repository/SlotRepository.java:29 | in a valid store, looking up a row by its own (event, start time) key returns that row |
| Store.FindSlotById | src/main/java/com/example/SlotlyV2/repository/SlotRepository.java:24 | a found slot is a row with that id; nothing found means no row has that id |
| Store.SlotsOf | src/main/java/com/example/SlotlyV2/repository/SlotRepository.java:19 | the result holds exactly the rows of the event |
| Store.AvailableSlotsOf | src/main/java/com/example/SlotlyV2/repository/SlotRepository.java:22 | the result holds exactly the event's rows whose booked e-mail and name are both null |
| Store.SlotsBookedBy | src/main/java/com/example/SlotlyV2/repository/SlotRepository.java:27 | the result holds exactly the rows booked under that e-mail |
| Store.CountBooked | src/main/java/com/example/SlotlyV2/repository/SlotRepository.java:31 | the count is the number of the event's rows with both booked fields set, zero exactly when there is none |
| Seqs.FilterLength | src/main/java/com/example/SlotlyV2/repository/SlotRepository.java:19-31 | a filtered query keeps each matching row exactly once: its length is the number of matching rows |
| Store.SaveAllUnbookedKeepsCount | src/main/java/com/example/SlotlyV2/repository/SlotRepository.java:31 | inserting rows none of which is booked leaves every event's booked count unchanged |
| Store.SaveVersioned | src/main/java/com/example/SlotlyV2/model/Slot.java:32-33 | a save fails with the optimistic-lock error exactly when no row has the id or the stored version differs from the one read; on success the version goes up by one and only that row is replaced |
| Store.SaveOfFreshReadSucceeds | src/main/java/com/example/SlotlyV2/model/Slot.java:32-33 | saving a row whose version was just read from a valid store succeeds and replaces that row |
| Store.SaveVersionedKeepsValid | src/main/java/com/example/SlotlyV2/model/Slot.java:32-33 | a save that keeps the row's event and start time and leaves its booked fields paired keeps the table invariant |
| Store.ReplaceKeepsValid | src/main/java/com/example/SlotlyV2/repository/SlotRepository.java:29 | replacing one row by a paired row with the same id and key keeps the table invariant |
| Store.SaveAll | src/main/java/com/example/SlotlyV2/feature/slot/SlotService.java:65 | the new rows get consecutive ids from the identity counter and version 0, and are appended |
| Store.SaveAllKeepsValid | src/main/java/com/example/SlotlyV2/feature/slot/SlotService.java:53-65 | inserting the rows of an event that has none yet, with distinct start times, keeps the table invariant |
| Store.FindEventById | src/main/java/com/example/SlotlyV2/feature/event/EventService.java:83-84 | a found event has that id; nothing found means no event row has it |
| Store.FindEventByShareableId | src/main/java/com/example/SlotlyV2/feature/event/EventService.java:114-115 | a found event has that shareable id; nothing found means no event row has it |
| Store.SaveEvent | src/main/java/com/example/SlotlyV2/feature/event/Event.java:63-64 | the insert fails with a duplicate-key error exactly when another row has the same shareable id; otherwise the event gets the next id and is appended |
| Store.SaveEventKeepsValid | src/main/java/com/example/SlotlyV2/feature/event/Event.java:63-64 | a successful insert keeps the table invariant, and no existing slot belongs to the new id |
| Store.DeleteEvent | src/main/java/com/example/SlotlyV2/feature/event/Event.java:66-67 | the event row and exactly its slot rows are removed (cascade and orphan removal); every other row stays |
| Store.DeleteEventKeepsValid | src/main/java/com/example/SlotlyV2/feature/event/Event.java:66-67 | deletion keeps the table invariant |
| Partition.FeatureSpansClosedForm | src/main/java/com/example/SlotlyV2/feature/slot/SlotService.java:53-63 | the loop yields exactly the first FeatureCount cells [s+i*d, s+(i+1)*d) of the grid from the start |
| Partition.LegacySpansClosedForm | src/main/java/com/example/SlotlyV2/service/SlotService.java:23-33 | the legacy loop yields exactly the first LegacyCount cells of the same grid |
| Partition.FeatureCountBounds | src/main/java/com/example/SlotlyV2/feature/slot/SlotService.java:53 | for e >= s the count n is the floor: s+n*d <= e < s+(n+1)*d |
| Partition.LegacyCountBounds | src/main/java/com/example/SlotlyV2/service/SlotService.java:23 | for e > s the legacy count n is the ceiling: s+(n-1)*d < e <= s+n*d |
| Partition.FeatureSpansShape | src/main/java/com/example/SlotlyV2/feature/slot/SlotService.java:53-63 | every slot is d long and lies inside [s, e]; consecutive slots touch; the first starts at s; there is at least one when s <= e-d |
| Partition.FeatureSpansDisjoint | src/main/java/com/example/SlotlyV2/feature/slot/SlotService.java:53-63 | no two slots overlap |
| Partition.FeatureSpansEmpty | src/main/java/com/example/SlotlyV2/feature/slot/SlotService.java:53 | there are no slots exactly when the window is shorter than one duration |
| Partition.LegacySpansShape | src/main/java/com/example/SlotlyV2/service/SlotService.java:20-32 | every legacy slot is d long, starts inside [s, e), and starts where the previous one ended |
| Partition.LegacyLastCell | src/main/java/com/example/SlotlyV2/service/SlotService.java:23-27 | when d does not divide e-s the legacy loop makes one cell more than the feature loop, and that cell straddles the end |
| Partition.CountsAgree | src/main/java/com/example/SlotlyV2/service/SlotService.java:23 | when the window is empty or d divides it, both loops make the same number of slots |
| Partition.LegacyVersusFeature | src/main/java/com/example/SlotlyV2/service/SlotService.java:23-33 | both partitioners agree when d divides the window; otherwise the legacy one adds exactly one overrunning cell |
| Partition.ExampleTwoHoursHalfHours | src/main/java/com/example/SlotlyV2/feature/slot/SlotService.java:53-63 | two hours in half hours give four back-to-back slots, the last ending exactly at the end |
| Partition.ExampleTooShort | src/main/java/com/example/SlotlyV2/feature/slot/SlotService.java:53 | a window shorter than the duration gives no slot |
| Partition.LegacyRoundsStop | src/main/java/com/example/SlotlyV2/service/SlotService.java:23-33 | with a positive duration and enough rounds the legacy loop stops with exactly the rows of its recursion |
| Partition.NonPositiveDurationNeverStops | src/main/java/com/example/SlotlyV2/service/SlotService.java:23-33 | with a duration of zero or less and a non-empty window, every bound on the rounds is used up, the rows being the cells s+i*d |
| Partition.ZeroDurationRepeatsStart | src/main/java/com/example/SlotlyV2/service/SlotService.java:23-33 | a zero duration saves the empty interval at the start in every round |
| SlotService.GenerateSlots | src/main/java/com/example/SlotlyV2/feature/slot/SlotService.java:43-66 | a non-positive duration fails with the duration error and saves nothing; otherwise exactly FeatureCount unbooked slots at s+i*d are saved in one batch |
| SlotService.LegacyGenerateSlots | src/main/java/com/example/SlotlyV2/service/SlotService.java:19-34 | exactly LegacyCount unbooked slots at s+i*d, each saved on its own in order |
| SlotService.PrepareBooking | src/main/java/com/example/SlotlyV2/feature/slot/SlotService.java:71-98 | the guards in source order (not found, already booked, past, at capacity), each with its own error; success exactly when all pass, with the attendee and booking time set |
| SlotService.FinishBooking | src/main/java/com/example/SlotlyV2/feature/slot/SlotService.java:101-118 | a conflict at commit fails with the optimistic-lock error and leaves the tables unchanged, yet the booking notice of the prepared slot has gone out; otherwise the version goes up, the row is replaced and the notice follows the save |
| SlotService.BookSlot | src/main/java/com/example/SlotlyV2/feature/slot/SlotService.java:69-121 | a failed guard changes nothing and publishes nothing; a conflict at commit changes nothing but has published the notice; a booking sets the attendee, bumps the version, saves once and then publishes one booking notice with the slot, host and attendee |
| SlotService.FinishBookingOnCommit | src/main/java/com/example/SlotlyV2/feature/slot/SlotService.java:101-118 | as intended: a notice goes out exactly when the update commits, and a conflict leaves no effect |
| SlotService.BookSlotOnCommit | src/main/java/com/example/SlotlyV2/feature/slot/SlotService.java:69-121 | as intended: a failed call changes nothing and publishes nothing; a notice goes out exactly when the booking commits |
| SlotService.PrepareCancel | src/main/java/com/example/SlotlyV2/feature/slot/SlotService.java:126-151 | the guards in source order (not found, cancellations off, past, not booked, other e-mail); success exactly when all pass, with both booked fields cleared |
| SlotService.FinishCancel | src/main/java/com/example/SlotlyV2/feature/slot/SlotService.java:154-170 | a conflict at commit fails with the optimistic-lock error and leaves the tables unchanged, yet the cancellation notice has gone out; otherwise the version goes up and the notice follows the save |
| SlotService.CancelBooking | src/main/java/com/example/SlotlyV2/feature/slot/SlotService.java:124-173 | a failed guard changes nothing; a conflict at commit changes nothing but has published the notice; a cancellation clears name and e-mail, keeps the booking time, saves once, then publishes the former attendee |
| SlotService.FinishCancelOnCommit | src/main/java/com/example/SlotlyV2/feature/slot/SlotService.java:154-170 | as intended: a notice goes out exactly when the update commits, and a conflict leaves no effect |
| SlotService.CancelBookingOnCommit | src/main/java/com/example/SlotlyV2/feature/slot/SlotService.java:124-173 | as intended: a failed call changes nothing and publishes nothing; a notice goes out exactly when the cancellation commits |
| SlotService.GetAvailableSlotsByShareableId | src/main/java/com/example/SlotlyV2/feature/slot/SlotService.java:183-193 | unknown id and private event fail with their errors; otherwise exactly the event's slots with both booked fields null |
| SlotService.GetSlotById | src/main/java/com/example/SlotlyV2/feature/slot/SlotService.java:195-199 | the slot with that id, or the not-found error exactly when there is none |
| SlotService.GetSlots | src/main/java/com/example/SlotlyV2/feature/slot/SlotService.java:175-177 | exactly the slots of the event |
| SlotService.GetBookedSlots | src/main/java/com/example/SlotlyV2/feature/slot/SlotService.java:179-181 | exactly the slots booked under the user's e-mail |
| BookingProperties.BookSlotCommits | src/main/java/com/example/SlotlyV2/feature/slot/SlotService.java:96-101 | run alone, a booking whose guards pass always commits, keeps the store valid and changes only the found row |
| BookingProperties.CancelBookingCommits | src/main/java/com/example/SlotlyV2/feature/slot/SlotService.java:146-154 | run alone, a cancellation whose guards pass always commits, keeps the store valid and changes only the found row |
| BookingProperties.CancelNeverDereferencesNull | src/main/java/com/example/SlotlyV2/feature/slot/SlotService.java:142 | in a valid store the e-mail comparison never meets a null booked e-mail |
| BookingProperties.BookingCountsOne | src/main/java/com/example/SlotlyV2/feature/slot/SlotService.java:88-101 | a committed booking adds one to its own event's booked count and leaves other events' counts alone |
| BookingProperties.CancelCountsOne | src/main/java/com/example/SlotlyV2/feature/slot/SlotService.java:146-154 | a committed cancellation removes one from its own event's booked count and leaves the others alone |
| BookingProperties.BookingRespectsCapacity | src/main/java/com/example/SlotlyV2/feature/slot/SlotService.java:86-93 | after a committed booking the count does not exceed a configured capacity |
| BookingProperties.RepeatBookingFails | src/main/java/com/example/SlotlyV2/feature/slot/SlotService.java:75-77 | booking the same slot again fails as already booked |
| BookingProperties.BookThenCancelRestores | src/main/java/com/example/SlotlyV2/feature/slot/SlotService.java:96-154 | booking then cancelling with the same e-mail leaves the slot available again, differing only in version and booking time |
| BookingProperties.WrongEmailCannotCancel | src/main/java/com/example/SlotlyV2/feature/slot/SlotService.java:142-144 | a cancellation with another e-mail fails as unauthorized and changes nothing |
| BookingProperties.BookKeepsInvariants | src/main/java/com/example/SlotlyV2/feature/slot/SlotService.java:71-101 | one booking keeps the store valid, the event's capacity uniform and its count within capacity |
| BookingProperties.CancelKeepsInvariants | src/main/java/com/example/SlotlyV2/feature/slot/SlotService.java:126-154 | one cancellation keeps the same three invariants |
| BookingProperties.OpKeepsInvariants | src/main/java/com/example/SlotlyV2/feature/slot/SlotService.java:86-93 | one booking or cancellation, served alone, keeps the store valid and the count within capacity |
| BookingProperties.SequentialCapacityBound | src/main/java/com/example/SlotlyV2/feature/slot/SlotService.java:86-93 | any sequence of bookings and cancellations served one at a time keeps the store valid and the count within capacity |
| BookingProperties.SameSlotRace | src/main/java/com/example/SlotlyV2/feature/slot/SlotService.java:101-118 | two bookings of one slot prepared on the same snapshot: the first commits; the second fails at commit with the optimistic-lock error after publishing a booking notice naming its own attendee, while the slot keeps the first attendee; bound to the commit it would publish nothing |
| BookingProperties.OnCommitAgrees | src/main/java/com/example/SlotlyV2/feature/slot/SlotService.java:69-173 | the commit-bound booking and cancellation return the same result and leave the same tables as the source's, with the same effects whenever the call succeeds |
| BookingProperties.CapacityRace | src/main/java/com/example/SlotlyV2/feature/slot/SlotService.java:86-93 | two bookings of different slots prepared on the same snapshot with one place left both commit, leaving the count one above capacity |
| EventService.CopyRules | src/main/java/com/example/SlotlyV2/feature/event/EventService.java:62-66 | the copied rules never carry a capacity |
| EventService.Generate | src/main/java/com/example/SlotlyV2/feature/event/EventService.java:72 | the generator of each service: the feature one fails exactly on a non-positive duration; both append grid slots, in one batch or one save each |
| EventService.Persist | src/main/java/com/example/SlotlyV2/feature/event/EventService.java:70-72 | save, then generate: fails exactly on a duplicate shareable id or a feature non-positive duration, changing nothing; otherwise the event is appended with the next id, then its slots, saved before they are |
| EventService.PersistOk | src/main/java/com/example/SlotlyV2/feature/event/EventService.java:70-74 | a successful save and generation together give the persisted tables and effects |
| EventService.CreateEvent | src/main/java/com/example/SlotlyV2/feature/event/EventService.java:37-75 | end not after start and start in the past fail, in that order, changing nothing; success exactly when both pass and the save and generation succeed; the event copies the request fields and host |
| EventService.OwnedEvent | src/main/java/com/example/SlotlyV2/feature/event/EventService.java:83-88 | not found, then other host, each with its error; otherwise the stored event |
| EventService.GetEventById | src/main/java/com/example/SlotlyV2/feature/event/EventService.java:82-91 | the stored event with that id is returned exactly when it exists and belongs to the current user; not found exactly when no row has the id, unauthorized otherwise |
| EventService.AttendeeEmails | src/main/java/com/example/SlotlyV2/feature/event/EventService.java:105-107 | one booked e-mail per slot, in slot order, None for an unbooked slot |
| EventService.DeleteEventById | src/main/java/com/example/SlotlyV2/feature/event/EventService.java:94-111 | a failed lookup or ownership check changes nothing; otherwise the event and its slots go, then one notice lists one booked e-mail per slot in order |
| EventService.GetEventByShareableId | src/main/java/com/example/SlotlyV2/feature/event/EventService.java:113-122 | unknown id, then private event, each with its error; otherwise the stored public event |
| EventEntity.OnCreate | src/main/java/com/example/SlotlyV2/feature/event/Event.java:69-80 | createdAt is always restamped; the shareable id and the rules are filled only when missing |
| EventEntity.PersistAgainKeepsIdAndRules | src/main/java/com/example/SlotlyV2/feature/event/Event.java:70-79 | running the hook again changes only createdAt |
| EventEntity.FeatureShareableIdShape | src/main/java/com/example/SlotlyV2/feature/event/Event.java:82-87 | the id starts with "event-" and ends in a slug |
| EventEntity.FeatureShareableIdInjective | src/main/java/com/example/SlotlyV2/feature/event/Event.java:82-87 | equal ids come from equal timestamps and equal slugs |
| EventEntity.FeatureShareableIdCollision | src/main/java/com/example/SlotlyV2/feature/event/Event.java:84-86 | two names that differ only in letter case give the same id at the same millisecond |
| EventEntity.CaseOnlyNames | src/main/java/com/example/SlotlyV2/feature/event/Event.java:84 | such names exist |
| EventEntity.LegacyShareableIdInjective | src/main/java/com/example/SlotlyV2/model/Event.java:71-73 | with no "/" in user names, equal ids come from the same user name and event name |
| EventEntity.LegacyShareableIdCollision | src/main/java/com/example/SlotlyV2/model/Event.java:71-73 | a "/" in a user name lets two different hosts produce the same id; the username pattern `^[a-zA-Z0-9_]+$` of a validated user forbids "/", so no validated user can trigger it and the injectivity hypothesis always holds for them |
| EventProperties.CreateEventKeepsValid | src/main/java/com/example/SlotlyV2/feature/event/EventService.java:70-72 | creating an event keeps the table invariant |
| EventProperties.CreateThenLookup | src/main/java/com/example/SlotlyV2/feature/event/EventService.java:82-122 | right after creation the host finds the event by id, and anyone finds it by shareable id exactly when it is public |
| EventProperties.FeatureSlotsInsideWindow | src/main/java/com/example/SlotlyV2/feature/slot/SlotService.java:53-63 | after feature creation every new slot lies inside the window, is d long, and the slots are back to back |
| EventProperties.LegacyLastSlotOverruns | src/main/java/com/example/SlotlyV2/service/SlotService.java:23-27 | after legacy creation, when d does not divide the window, the last slot starts before the end and ends after it |
| EventProperties.LegacyNameReuseFails | src/main/java/com/example/SlotlyV2/model/Event.java:71-73 | a host reusing an event name in the legacy service fails on the duplicate shareable id |
| EventProperties.DeleteForgetsEvent | src/main/java/com/example/SlotlyV2/feature/event/EventService.java:109 | after a delete neither lookup finds the event |
| EventProperties.DeleteRemovesOnlyItsSlots | src/main/java/com/example/SlotlyV2/feature/event/Event.java:66-67 | a delete removes all of the event's slots and leaves every other event's slots as they were |
| Slugs.SlugIsJoinedWords | src/main/java/com/example/SlotlyV2/feature/event/Event.java:84-86 | the slug is the maximal [a-z0-9] runs of the lower-cased name joined by single dashes |
| Slugs.SlugShape | src/main/java/com/example/SlotlyV2/feature/event/Event.java:84-86 | the slug holds only [a-z0-9-], has no "--" and neither starts nor ends with a dash |
| Slugs.SymbolsOnlyGiveEmptySlug | src/main/java/com/example/SlotlyV2/feature/event/Event.java:85-86 | a name without letters or digits gives the empty slug |
| Slugs.SlugIdempotent | src/main/java/com/example/SlotlyV2/feature/event/Event.java:84-86 | slugging a slug gives it back |
| Slugs.WordsOfJoin | src/main/java/com/example/SlotlyV2/feature/event/Event.java:85 | the runs of a dash-joined word list are that list |
| Slugs.SlugIgnoresCase | src/main/java/com/example/SlotlyV2/feature/event/Event.java:84 | names equal up to letter case have the same slug |
| Slugs.SlugOfTwoWords | src/main/java/com/example/SlotlyV2/feature/event/Event.java:84-86 | a name of two words, each followed by a symbol, gives the two words joined by one dash |
| Slugs.ExampleSlug | src/main/java/com/example/SlotlyV2/feature/event/Event.java:84-86 | any name that lower-cases to "team sync!" gives "team-sync" |
| Text.Trim | src/main/java/com/example/SlotlyV2/common/util/NameUtils.java:24 | the result is the input minus its leading and trailing characters at or below U+0020, and has none at its edges |
| Text.TrimIdempotent | src/main/java/com/example/SlotlyV2/common/util/NameUtils.java:24 | trimming twice equals trimming once |
| Text.TrimDropsLeading | src/main/java/com/example/SlotlyV2/common/util/NameUtils.java:24 | a blank prefix does not change the trimmed result |
| Text.NotBlankIsNonEmptyTrim | src/main/java/com/example/SlotlyV2/feature/user/dto/RegisterRequest.java:12 | a string is not blank exactly when it trims to something |
| Text.Utf16Length | src/main/java/com/example/SlotlyV2/feature/user/dto/RegisterRequest.java:20 | the length that `@Size` reads lies between the character count and twice it |
| Text.Utf16LengthIsCharCount | src/main/java/com/example/SlotlyV2/feature/user/dto/RegisterRequest.java:20 | the UTF-16 length equals the character count exactly when no character lies above U+FFFF |
| Text.Lower | src/main/java/com/example/SlotlyV2/feature/event/Event.java:84 | each ASCII capital becomes its small letter; every other character is kept |
| Numerals.ParseLongToString | src/main/java/com/example/SlotlyV2/feature/event/Event.java:83 | the decimal form of a timestamp reads back to the same number |
| Numerals.LongToStringInjective | src/main/java/com/example/SlotlyV2/feature/event/Event.java:83 | different timestamps give different decimal forms |
| Numerals.ParsePadded | src/main/java/com/example/SlotlyV2/feature/calendar/CalendarService.java:22 | a zero-padded field reads back to its value |
| NameUtils.DisplayName | src/main/java/com/example/SlotlyV2/common/util/NameUtils.java:15-25 | the display name never starts or ends with a character at or below U+0020 |
| NameUtils.DisplayNameCases | src/main/java/com/example/SlotlyV2/common/util/NameUtils.java:16-24 | no names give ""; one name gives it trimmed; both give the trimmed "first last" |
| NameUtils.DisplayNameOfCleanNames | src/main/java/com/example/SlotlyV2/common/util/NameUtils.java:17-24 | names without blank outer edges join with exactly one space |
| NameUtils.OverloadsNameTheHost | src/main/java/com/example/SlotlyV2/common/util/NameUtils.java:27-33 | the slot and event overloads give the host's display name |
| Calendar.FormatUtc | src/main/java/com/example/SlotlyV2/feature/calendar/CalendarService.java:22 | sixteen characters: eight digits, "T", six digits, "Z" |
| Calendar.ParseFormatUtc | src/main/java/com/example/SlotlyV2/feature/calendar/CalendarService.java:64-72 | the formatted UTC time reads back to the same date and time |
| Calendar.LinesOfUnlines | src/main/java/com/example/SlotlyV2/feature/calendar/CalendarService.java:44-57 | CRLF-terminated lines without carriage returns read back as the same lines |
| Calendar.CleanLines | src/main/java/com/example/SlotlyV2/feature/calendar/CalendarService.java:44-57 | when the inserted values have no carriage return, no content line has one |
| Calendar.IcsReadsBack | src/main/java/com/example/SlotlyV2/feature/calendar/CalendarService.java:42-61 | with such values a reader sees exactly the fourteen content lines |
| Calendar.IcsFraming | src/main/java/com/example/SlotlyV2/feature/calendar/CalendarService.java:44-57 | the first, fourth, thirteenth and fourteenth lines open and close VCALENDAR and VEVENT, with VEVENT nested inside |
| Calendar.IcsTimes | src/main/java/com/example/SlotlyV2/feature/calendar/CalendarService.java:49-51 | DTSTAMP, DTSTART and DTEND each carry a UTC value that reads back to the stamp, the start and the end |
| Calendar.UidNamesTheSlot | src/main/java/com/example/SlotlyV2/feature/calendar/CalendarService.java:48 | equal UID lines come from the same slot id |
| Calendar.UnbookedAttendeeIsNull | src/main/java/com/example/SlotlyV2/feature/calendar/CalendarService.java:55 | an unbooked slot renders its attendee as the text "null" |
| Calendar.RenameChangesSummaryOnly | src/main/java/com/example/SlotlyV2/feature/calendar/CalendarService.java:52 | renaming the event changes the SUMMARY line only |
| Calendar.CrlfInNameAddsLine | src/main/java/com/example/SlotlyV2/feature/calendar/CalendarService.java:52 | an unescaped CRLF in the event name makes a reader see fifteen lines, the rest of the name standing alone |
| RateLimit.SplitEmptyIffCommas | src/main/java/com/example/SlotlyV2/service/RateLimitService.java:84 | the split of a non-empty header is empty exactly when the header is only commas |
| RateLimit.ClientIp | src/main/java/com/example/SlotlyV2/service/RateLimitService.java:81-87 | an absent or empty header gives the peer address; a header of commas only fails the index; any other header gives its first field, trimmed |
| RateLimit.HeaderAddressIsClean | src/main/java/com/example/SlotlyV2/service/RateLimitService.java:84 | an address taken from the header has no comma and no blank edges |
| RateLimit.FirstHopWins | src/main/java/com/example/SlotlyV2/service/RateLimitService.java:84 | whatever follows the first comma is ignored |
| RateLimit.BlankFirstHop | src/main/java/com/example/SlotlyV2/service/RateLimitService.java:83-84 | a non-empty header wins even when its first field trims to "" |
| RateLimit.BucketKeysApart | src/main/java/com/example/SlotlyV2/service/RateLimitService.java:40-78 | equal bucket keys come from the same limit and the same client |
| JwtFilter.JwtFromHeader | src/main/java/com/example/SlotlyV2/security/JwtAuthenticationFilter.java:70-78 | a token exactly when the header has text and starts with "Bearer " (case-sensitive); then "Bearer " + token is the header |
| JwtFilter.AuthenticatedIff | src/main/java/com/example/SlotlyV2/security/JwtAuthenticationFilter.java:36-59 | the security context is set exactly when the token has text (some character that is not `Character.isWhitespace`), is valid, of type "access" and its user loads, and then to that user |
| JwtFilter.DoFilterAsWritten | src/main/java/com/example/SlotlyV2/security/JwtAuthenticationFilter.java:29-68 | the chain runs twice exactly on the wrong-type path when the chain throws, once otherwise |
| JwtFilter.DoFilter | src/main/java/com/example/SlotlyV2/security/JwtAuthenticationFilter.java:29-68 | the chain runs exactly once on every path |
| JwtFilter.UnicodeSpaceTokenAuthenticatesNobody | src/main/java/com/example/SlotlyV2/security/JwtAuthenticationFilter.java:34-36 | a token made of an ideographic space passes the `trim`-based blank test but not `hasText`, so nobody is authenticated and no oracle is consulted |
| JwtFilter.AsWrittenAgreesWithoutThrow | src/main/java/com/example/SlotlyV2/security/JwtAuthenticationFilter.java:40-44 | both filters agree when the chain does not throw |
| JwtFilter.ChainRunsTwice | src/main/java/com/example/SlotlyV2/security/JwtAuthenticationFilter.java:40-67 | a valid refresh token and a throwing chain make the filter as written run the chain twice |
| JwtFilter.BareBearerAuthenticatesNobody | src/main/java/com/example/SlotlyV2/security/JwtAuthenticationFilter.java:73-74 | "Bearer " alone gives the empty token, nobody is authenticated and the chain runs once |
| JwtFilter.LowerCaseSchemeRejected | src/main/java/com/example/SlotlyV2/security/JwtAuthenticationFilter.java:73 | "bearer " in lower case gives no token |
| VerificationTokens.Generate | src/main/java/com/example/SlotlyV2/service/VerificationTokenService.java:23-31 | the token is stored with an expiry one day after now, replacing any earlier one, and is the one returned; no other row changes |
| VerificationTokens.Verify | src/main/java/com/example/SlotlyV2/service/VerificationTokenService.java:33-53 | a token no row holds is invalid and one held by several rows fails the single-result lookup; for the one holder, already verified, then expired strictly before now, each with its error and no change; success exactly otherwise, verifying the row and clearing both token columns |
| VerificationTokens.TokensApartNeverShared | src/main/java/com/example/SlotlyV2/service/VerificationTokenService.java:36-37 | when no two rows share a token the lookup never meets several rows |
| VerificationTokens.GenerateThenVerify | src/main/java/com/example/SlotlyV2/service/VerificationTokenService.java:23-53 | a fresh token verifies an unverified account up to and including its expiry |
| VerificationTokens.ExpiredTokenRefused | src/main/java/com/example/SlotlyV2/service/VerificationTokenService.java:43-45 | one minute past expiry the token is refused and nothing changes |
| VerificationTokens.VerifyOnlyOnce | src/main/java/com/example/SlotlyV2/service/VerificationTokenService.java:36-49 | a token that verified once is unknown afterwards |
| VerificationTokens.RegenerateRetiresOldToken | src/main/java/com/example/SlotlyV2/service/VerificationTokenService.java:26 | issuing a new token makes the old one unknown |
| Validation.ToRulesRequest | src/main/java/com/example/SlotlyV2/feature/availability/AvailabilityRulesDTO.java:11-19 | a valid DTO carries a duration of at least 5 and a per-user limit of at least 1 |
| Validation.DefaultRulesDtoValid | src/main/java/com/example/SlotlyV2/feature/availability/AvailabilityRulesDTO.java:10-28 | the builder defaults 30, 1, true, true satisfy the constraints |
| Validation.ValidDtoCreation | src/main/java/com/example/SlotlyV2/feature/availability/AvailabilityRulesDTO.java:12-14 | creation from a valid DTO never fails on the duration guard and never sets a capacity |
| Validation.CreateLegacyEventValidated | src/main/java/com/example/SlotlyV2/dto/EventRequest.java:28-29 | as intended: with the nested rules validated, a duration below 5 is refused before the service runs, and a created legacy event gets exactly LegacyCount slot rows |
| Validation.PatternIsPolicy | src/main/java/com/example/SlotlyV2/feature/user/dto/RegisterRequest.java:21 | the password pattern accepts exactly a permitted first character, no line terminator, and one character of each of the four classes |
| Validation.CheckPassword | src/main/java/com/example/SlotlyV2/feature/user/dto/RegisterRequest.java:21 | one left-to-right scan decides that policy |
| Validation.PatternsImplyNotBlank | src/main/java/com/example/SlotlyV2/feature/user/dto/RegisterRequest.java:15-21 | a string matching either pattern is not blank |
| Validation.PasswordLengthBoundary | src/main/java/com/example/SlotlyV2/feature/user/dto/RegisterRequest.java:20 | eight characters are enough and seven are not |
| Validation.SupplementaryPasswordLength | src/main/java/com/example/SlotlyV2/feature/user/dto/RegisterRequest.java:20-21 | a six-character password with two characters above U+FFFF has length eight and is accepted, as Java counts it |
| Validation.PasswordLaterSpaceAccepted | src/main/java/com/example/SlotlyV2/feature/user/dto/RegisterRequest.java:21 | a space after the first character is accepted |
| Validation.PasswordLeadingSpaceRefused | src/main/java/com/example/SlotlyV2/feature/user/dto/RegisterRequest.java:21 | a leading space is refused |
| Validation.PasswordLineTerminatorRefused | src/main/java/com/example/SlotlyV2/feature/user/dto/RegisterRequest.java:21 | a final line feed is refused |
| Validation.ResetMayMismatch | src/main/java/com/example/SlotlyV2/dto/PasswordResetConfirmRequest.java:10-16 | a valid reset request may carry a confirmation that differs from the password |

## Left out

- E-mail delivery, template rendering and the asynchronous listeners are not modelled. Publishing is an entry in the effect log.
- Signature checking, claim parsing and the user lookup of the JWT filter are library code. They come in as oracles, each of which may throw.
- The rate-limit token buckets, their refill and the cache are library code. Only the client key and the key prefixes are modelled.
- Time zones, `atZone` and DST are not modelled. "Now in a zone" is a function of the clock, and the UTC conversion of the calendar is a function parameter.
- Times are whole minutes. Seconds and nanoseconds of `LocalDateTime.now()` are not modelled.
- `ZoneId.of` on an unknown zone id throws. The model treats every zone string as valid.
- The current user (`getCurrentUser`), the random UUID and the clock are parameters.
- HTTP status mapping, controllers and the exception handlers are not modelled, except that the invalid-request error stands for the 400 of bean validation. The optimistic-lock error carries no status: the conflict surfaces at commit as a Spring exception that the handler for `OptimisticLockException` does not name, so the status is most likely the catch-all 500, not 409.
- Real concurrency is not modelled. Two requests interleave only through the explicit two-phase lemmas.
- `maxSlotsPerUser` is stored and copied but no operation reads it, so nothing enforces it.
- `@Email` address syntax is not modelled.
- `EventService.CreateEvent`: for the legacy variant it requires a positive slot duration, because the legacy loop never ends otherwise. Nothing guarantees it: the legacy request's `rules` field has no `@Valid`, so its `@Min(5)` is never checked (see "## Findings"). `Partition.NonPositiveDurationNeverStops` states what the loop does instead.
- `SlotService.LegacyGenerateSlots`: requires a positive slot duration for the same reason.
- `SlotService.PrepareBooking`: assumes the attendee name and e-mail are present. The booking endpoint takes its request without `@Valid`, and the feature request class is not part of this model, so nothing shown rules out a null. A null field would be copied onto the slot as a half-booked row. Such a row escapes the booked-count query, so it bypasses the capacity check. Cancelling a row whose e-mail is null throws a null dereference. Both request fields are modelled as plain strings.
- A null field in the legacy rules DTO (its `@NotNull` is not checked either) is not modelled. Its unboxing in the service would throw.
- `Text.Lower`: maps ASCII capitals only. Locale-dependent and non-ASCII case mapping are library behaviour.
- `Validation.PatternIsPolicy`: covers ASCII character classes only (lengths, in contrast, are counted in UTF-16 units, as `@Size` does). Unicode classes of `java.util.regex` are not modelled.
- `Calendar.FormatUtc`: takes dates with years 1 to 9999. The formatter's output for other years is not modelled.
- `VerificationTokens.Verify`: the verified flag is a non-null boolean. An unboxing failure on a null flag is not modelled; a null expiry is the `NullExpiry` error.
- `VerificationTokens.GenerateThenVerify`: assumes no other row holds the fresh UUID. UUID uniqueness is probabilistic and is not modelled.
- The legacy services call methods the shown classes lack, and the model gives each one the feature classes' meaning:
  - `setBookedBy` on a slot, in `service/SlotService.java`;
  - `getSlots` on an event, in `service/EventService.java`;
  - `setAllowsCancellations`, in `service/EventService.java`, where `model/AvailabilityRules.java` names the field `allowCancellations`;
  - the verification-token getters and setters, in `service/VerificationTokenService.java`, which `model/User.java` does not declare.
- The feature `AvailabilityRules` class is not part of this model. Its defaults are taken as 30, 1, no capacity, true, true.

## Findings

| source | as written | input that shows it | evidently intended | confidence | as-written member | corrected member |
|---|---|---|---|---|---|---|
| src/main/java/com/example/SlotlyV2/security/JwtAuthenticationFilter.java:40-67 | on the wrong-type path the chain is called inside the `try`; if it throws, the `catch` swallows the exception and the chain is called a second time after the `try` | a valid token whose type claim is "refresh", with a downstream filter that throws | the rest of the chain runs exactly once on every path | not executed | JwtFilter.ChainRunsTwice | JwtFilter.DoFilter |
| src/main/java/com/example/SlotlyV2/feature/slot/SlotService.java:101-118 | `save` of the managed row defers the versioned update to the commit, which comes after `publishEvent`; the listeners are not bound to the transaction; the same holds at lines 154-170 for a cancellation | two bookings of one slot that both pass their guards on one snapshot: the second fails at commit with an optimistic-lock error after its booking notice, naming its attendee, has gone out | only a committed booking or cancellation publishes its notice | not executed | BookingProperties.SameSlotRace | SlotService.BookSlotOnCommit |
| src/main/java/com/example/SlotlyV2/dto/EventRequest.java:28-29 | the legacy request's `rules` field has `@NotNull` but no `@Valid`, so the `@Min(5)` of the rules DTO is never checked and `service/SlotService.java:23-33` loops on whatever duration arrives | a legacy create request with a slot duration of 0 and an end after its start: the loop saves the empty interval at the start round after round and never ends | a duration below 5 is refused with HTTP 400 before the service runs | not executed | Partition.NonPositiveDurationNeverStops | Validation.CreateLegacyEventValidated |

=== FILE: booking_properties.dfy ===
/** Properties of booking and cancelling: what a successful call does to the tables and the
    booked count, that the sequential service keeps the capacity bound and the table
    invariant, and what the version check does and does not protect once two requests
    read the same snapshot. */
module BookingProperties {
  import opened Wrappers
  import opened Domain
  import opened Seqs
  import opened Store
  import opened SlotService

  /** The row a lookup by (event, start time) returned. */
  lemma FoundAt(db: Db, eventId: int, startTime: int) returns (k: nat)
    requires FindByEventIdAndStartTime(db, eventId, startTime).Some?
    ensures k < |db.slots| && db.slots[k] == FindByEventIdAndStartTime(db, eventId, startTime).value
  {
    var s := FindByEventIdAndStartTime(db, eventId, startTime).value;
    k :| 0 <= k < |db.slots| && db.slots[k] == s;
  }

  /** In a valid store a slot id names one row. */
  lemma IdNamesOneRow(db: Db, k: nat)
    requires Valid(db) && k < |db.slots|
    ensures forall j :: 0 <= j < |db.slots| && db.slots[j].id == db.slots[k].id ==> j == k
  {
    forall j | 0 <= j < |db.slots| && j != k ensures db.slots[j].id != db.slots[k].id {
      if j < k {
        assert SlotsApart(db.slots[j], db.slots[k]);
      } else if j > k {
        assert SlotsApart(db.slots[k], db.slots[j]);
      }
    }
  }

  /** Saving the value a guard phase derived from row `k` of the same snapshot replaces row `k`. */
  lemma SaveOfPrepared(db: Db, k: nat, slot: Slot)
    requires Valid(db) && k < |db.slots|
    requires slot.id == db.slots[k].id && slot.version == db.slots[k].version
    requires slot.event.id == db.slots[k].event.id && slot.startTime == db.slots[k].startTime && Paired(slot)
    ensures SaveVersioned(db, slot) == Ok((slot.(version := slot.version + 1), db.(slots := db.slots[k := slot.(version := slot.version + 1)])))
    ensures Valid(SaveVersioned(db, slot).value.1)
  {
    SaveOfFreshReadSucceeds(db, k, slot);
    IdNamesOneRow(db, k);
    SaveVersionedKeepsValid(db, slot);
  }

  /** Run sequentially, a booking whose guards pass always commits: the version check
      cannot fail without a concurrent writer. The store stays valid and only the booked
      row changes. */
  lemma BookSlotCommits(db: Db, req: BookingRequest, clock: Clock)
    requires Valid(db) && PrepareBooking(db, req, clock).Ok?
    ensures var st := BookSlot(db, req, clock);
      var k := FirstIndex(db.slots, AtKey(req.eventId, req.startTime)).value;
      && st.result.Ok?
      && Valid(st.db)
      && st.db == db.(slots := db.slots[k := st.result.value])
  {
    var k := FoundAt(db, req.eventId, req.startTime);
    var slot := PrepareBooking(db, req, clock).value;
    SaveOfPrepared(db, k, slot);
    var k0 := FirstIndex(db.slots, AtKey(req.eventId, req.startTime)).value;
    assert db.slots[k0] == db.slots[k];
    IdNamesOneRow(db, k);
  }

  /** Sequentially, a cancellation whose guards pass always commits and keeps the store valid. */
  lemma CancelBookingCommits(db: Db, req: CancelRequest, clock: Clock)
    requires Valid(db) && PrepareCancel(db, req, clock).Ok?
    ensures var st := CancelBooking(db, req, clock);
      var k := FirstIndex(db.slots, AtKey(req.eventId, req.startTime)).value;
      && st.result.Ok?
      && Valid(st.db)
      && st.db == db.(slots := db.slots[k := st.result.value])
  {
    var k := FoundAt(db, req.eventId, req.startTime);
    var slot := PrepareCancel(db, req, clock).value;
    SaveOfPrepared(db, k, slot);
    var k0 := FirstIndex(db.slots, AtKey(req.eventId, req.startTime)).value;
    assert db.slots[k0] == db.slots[k];
    IdNamesOneRow(db, k);
  }

  /** In a valid store no cancellation dereferences a null booked e-mail. */
  lemma CancelNeverDereferencesNull(db: Db, req: CancelRequest, clock: Clock)
    requires Valid(db)
    ensures PrepareCancel(db, req, clock) != Err(NullReference)
  {
    if FindByEventIdAndStartTime(db, req.eventId, req.startTime).Some? {
      var k := FoundAt(db, req.eventId, req.startTime);
      assert Paired(db.slots[k]);
    }
  }

  /** A committed booking adds exactly one to its event's booked count and leaves every
      other event's count alone. */
  lemma BookingCountsOne(db: Db, req: BookingRequest, clock: Clock, eventId: int)
    requires Valid(db) && PrepareBooking(db, req, clock).Ok?
    ensures var found := FindByEventIdAndStartTime(db, req.eventId, req.startTime).value;
      CountBooked(BookSlot(db, req, clock).db, eventId) ==
        CountBooked(db, eventId) + (if eventId == found.event.id then 1 else 0)
  {
    BookSlotCommits(db, req, clock);
    var k := FirstIndex(db.slots, AtKey(req.eventId, req.startTime)).value;
    CountUpdate(db.slots, k, BookSlot(db, req, clock).result.value, BookedOf(eventId));
  }

  /** A committed cancellation in a valid store removes exactly one from its event's booked count. */
  lemma CancelCountsOne(db: Db, req: CancelRequest, clock: Clock, eventId: int)
    requires Valid(db) && PrepareCancel(db, req, clock).Ok?
    ensures var found := FindByEventIdAndStartTime(db, req.eventId, req.startTime).value;
      CountBooked(CancelBooking(db, req, clock).db, eventId) + (if eventId == found.event.id then 1 else 0) ==
        CountBooked(db, eventId)
  {
    CancelBookingCommits(db, req, clock);
    var k := FirstIndex(db.slots, AtKey(req.eventId, req.startTime)).value;
    assert Paired(db.slots[k]);
    CountUpdate(db.slots, k, CancelBooking(db, req, clock).result.value, BookedOf(eventId));
  }

  /** A committed booking never takes the count past a configured capacity. */
  lemma BookingRespectsCapacity(db: Db, req: BookingRequest, clock: Clock)
    requires Valid(db) && BookSlot(db, req, clock).result.Ok?
    ensures var found := FindByEventIdAndStartTime(db, req.eventId, req.startTime).value;
      found.event.rules.maxCapacity.Some? ==>
        CountBooked(BookSlot(db, req, clock).db, found.event.id) <= found.event.rules.maxCapacity.value
  {
    var found := FindByEventIdAndStartTime(db, req.eventId, req.startTime).value;
    BookingCountsOne(db, req, clock, found.event.id);
  }

  /** Booking the same slot again fails with `SlotAlreadyBooked`. */
  lemma RepeatBookingFails(db: Db, first: BookingRequest, second: BookingRequest, c1: Clock, c2: Clock)
    requires Valid(db) && BookSlot(db, first, c1).result.Ok?
    requires second.eventId == first.eventId && second.startTime == first.startTime
    ensures BookSlot(BookSlot(db, first, c1).db, second, c2).result == Err(SlotAlreadyBooked)
  {
    BookSlotCommits(db, first, c1);
    var st := BookSlot(db, first, c1);
    var k := FirstIndex(db.slots, AtKey(first.eventId, first.startTime)).value;
    FindByKeyUnique(st.db, k);
  }

  /** Booking and then cancelling with the same e-mail makes the slot available again; it
      differs from the original only in its version (two saves) and `bookedAt`, which
      cancellation leaves set. */
  lemma BookThenCancelRestores(db: Db, book: BookingRequest, cancel: CancelRequest, c1: Clock, c2: Clock)
    requires Valid(db) && BookSlot(db, book, c1).result.Ok?
    requires cancel == CancelRequest(book.eventId, book.startTime, book.attendeeEmail)
    requires var found := FindByEventIdAndStartTime(db, book.eventId, book.startTime).value;
      found.event.rules.allowsCancellations && !IsPast(found, c2)
    ensures var found := FindByEventIdAndStartTime(db, book.eventId, book.startTime).value;
      var st := CancelBooking(BookSlot(db, book, c1).db, cancel, c2);
      && st.result.Ok?
      && IsAvailable(st.result.value)
      && st.result.value == found.(version := found.version + 2, bookedAt := Some(c1.local))
  {
    BookSlotCommits(db, book, c1);
    var db1 := BookSlot(db, book, c1).db;
    var k := FirstIndex(db.slots, AtKey(book.eventId, book.startTime)).value;
    FindByKeyUnique(db1, k);
    CancelBookingCommits(db1, cancel, c2);
  }

  /** A cancellation attempt with another e-mail fails and changes nothing. */
  lemma WrongEmailCannotCancel(db: Db, req: CancelRequest, clock: Clock)
    requires Valid(db)
    requires var found := FindByEventIdAndStartTime(db, req.eventId, req.startTime);
      found.Some? && found.value.event.rules.allowsCancellations && !IsPast(found.value, clock)
      && !IsAvailable(found.value) && found.value.bookedByEmail != Some(req.attendeeEmail)
    ensures CancelBooking(db, req, clock) == Fail(db, UnauthorizedAccess)
  {
    var k := FoundAt(db, req.eventId, req.startTime);
    assert Paired(db.slots[k]);
  }

  /** A booking or a cancellation, each with the clock it runs at. */
  datatype Op = Book(bookReq: BookingRequest, bookClock: Clock) | Cancel(cancelReq: CancelRequest, cancelClock: Clock)

  /** One request served against the tables; a failed request leaves them as they were. */
  function Step(db: Db, op: Op): Db {
    match op
    case Book(r, c) => BookSlot(db, r, c).db
    case Cancel(r, c) => CancelBooking(db, r, c).db
  }

  /** Requests served one after another. */
  function Run(db: Db, ops: seq<Op>): Db
    decreases |ops|
  {
    if |ops| == 0 then db else Run(Step(db, ops[0]), ops[1..])
  }

  /** Every slot of the event carries capacity `cap`. */
  ghost predicate CapacityIs(db: Db, eventId: int, cap: int) {
    forall j :: 0 <= j < |db.slots| && db.slots[j].event.id == eventId ==> db.slots[j].event.rules.maxCapacity == Some(cap)
  }

  /** Replacing a row by one of the same event keeps the event's capacity uniform. */
  lemma ReplaceKeepsCapacity(db: Db, k: nat, row: Slot, eventId: int, cap: int)
    requires CapacityIs(db, eventId, cap) && k < |db.slots| && row.event == db.slots[k].event
    ensures CapacityIs(db.(slots := db.slots[k := row]), eventId, cap)
  {
    var slots := db.slots[k := row];
    forall j | 0 <= j < |slots| && slots[j].event.id == eventId ensures slots[j].event.rules.maxCapacity == Some(cap) {
      if j != k {
        assert slots[j] == db.slots[j];
      }
    }
  }

  lemma BookKeepsInvariants(db: Db, r: BookingRequest, c: Clock, eventId: int, cap: int)
    requires Valid(db) && CapacityIs(db, eventId, cap) && CountBooked(db, eventId) <= cap
    ensures var db' := BookSlot(db, r, c).db;
      Valid(db') && CapacityIs(db', eventId, cap) && CountBooked(db', eventId) <= cap
  {
    if PrepareBooking(db, r, c).Ok? {
      BookSlotCommits(db, r, c);
      BookingCountsOne(db, r, c, eventId);
      var k := FirstIndex(db.slots, AtKey(r.eventId, r.startTime)).value;
      assert BookSlot(db, r, c).result.value.event == db.slots[k].event;
      ReplaceKeepsCapacity(db, k, BookSlot(db, r, c).result.value, eventId, cap);
    }
  }

  lemma CancelKeepsInvariants(db: Db, r: CancelRequest, c: Clock, eventId: int, cap: int)
    requires Valid(db) && CapacityIs(db, eventId, cap) && CountBooked(db, eventId) <= cap
    ensures var db' := CancelBooking(db, r, c).db;
      Valid(db') && CapacityIs(db', eventId, cap) && CountBooked(db', eventId) <= cap
  {
    if PrepareCancel(db, r, c).Ok? {
      CancelBookingCommits(db, r, c);
      CancelCountsOne(db, r, c, eventId);
      var k := FirstIndex(db.slots, AtKey(r.eventId, r.startTime)).value;
      assert CancelBooking(db, r, c).result.value.event == db.slots[k].event;
      ReplaceKeepsCapacity(db, k, CancelBooking(db, r, c).result.value, eventId, cap);
    }
  }

  lemma {:induction false} OpKeepsInvariants(db: Db, op: Op, eventId: int, cap: int)
    requires Valid(db) && CapacityIs(db, eventId, cap) && CountBooked(db, eventId) <= cap
    ensures var db' := Step(db, op);
      Valid(db') && CapacityIs(db', eventId, cap) && CountBooked(db', eventId) <= cap
  {
    match op
    case Book(r, c) => BookKeepsInvariants(db, r, c, eventId, cap);
    case Cancel(r, c) => CancelKeepsInvariants(db, r, c, eventId, cap);
  }

  /** Served one at a time, no sequence of bookings and cancellations raises an event's
      booked count above its configured capacity, and the store stays valid. */
  lemma {:induction false} SequentialCapacityBound(db: Db, ops: seq<Op>, eventId: int, cap: int)
    requires Valid(db) && CapacityIs(db, eventId, cap) && CountBooked(db, eventId) <= cap
    ensures Valid(Run(db, ops)) && CountBooked(Run(db, ops), eventId) <= cap
    decreases |ops|
  {
    if |ops| > 0 {
      OpKeepsInvariants(db, ops[0], eventId, cap);
      SequentialCapacityBound(Step(db, ops[0]), ops[1..], eventId, cap);
    }
  }

  /** Two bookings of the same slot that both pass their guards against one snapshot: the
      first commits; the second hits the version check at its commit and fails with
      `OptimisticLock`, and the slot keeps the first attendee. The loser's
      `SlotBookedEvent`, naming its own attendee, has already been published; bound to
      the commit, the loser would publish nothing. */
  lemma SameSlotRace(db: Db, r1: BookingRequest, r2: BookingRequest, c1: Clock, c2: Clock)
    requires Valid(db)
    requires r1.eventId == r2.eventId && r1.startTime == r2.startTime
    requires PrepareBooking(db, r1, c1).Ok? && PrepareBooking(db, r2, c2).Ok?
    ensures var s1 := PrepareBooking(db, r1, c1).value;
      var s2 := PrepareBooking(db, r2, c2).value;
      var db1 := FinishBooking(db, s1).db;
      && FinishBooking(db, s1).result == Ok(s1.(version := s1.version + 1))
      && FinishBooking(db1, s2).result == Err(OptimisticLock) && FinishBooking(db1, s2).db == db1
      && FinishBooking(db1, s2).effects == [Published(BookingNotice(s2))]
      && BookingNotice(s2).attendeeEmail == Some(r2.attendeeEmail)
      && FindByEventIdAndStartTime(db1, r1.eventId, r1.startTime) == Some(s1.(version := s1.version + 1))
      && s1.bookedByEmail == Some(r1.attendeeEmail)
      && FinishBookingOnCommit(db1, s2) == Fail(db1, OptimisticLock)
  {
    var k := FoundAt(db, r1.eventId, r1.startTime);
    var s1 := PrepareBooking(db, r1, c1).value;
    var s2 := PrepareBooking(db, r2, c2).value;
    SaveOfPrepared(db, k, s1);
    var db1 := SaveVersioned(db, s1).value.1;
    IdNamesOneRow(db1, k);
    FindByKeyUnique(db1, k);
    assert FindSlotById(db1, s2.id) == Some(db1.slots[k]);
  }

  /** The commit-bound booking and cancellation leave the same tables and return the same
      result as the source's; they differ only in the notice of a call that fails at commit. */
  lemma OnCommitAgrees(db: Db, book: BookingRequest, cancel: CancelRequest, clock: Clock)
    ensures BookSlotOnCommit(db, book, clock).result == BookSlot(db, book, clock).result
    ensures BookSlotOnCommit(db, book, clock).db == BookSlot(db, book, clock).db
    ensures BookSlot(db, book, clock).result.Ok? ==> BookSlotOnCommit(db, book, clock).effects == BookSlot(db, book, clock).effects
    ensures CancelBookingOnCommit(db, cancel, clock).result == CancelBooking(db, cancel, clock).result
    ensures CancelBookingOnCommit(db, cancel, clock).db == CancelBooking(db, cancel, clock).db
    ensures CancelBooking(db, cancel, clock).result.Ok? ==> CancelBookingOnCommit(db, cancel, clock).effects == CancelBooking(db, cancel, clock).effects
  {
  }

  /** Two bookings of different slots of one event, both passing the capacity check
      against one snapshot with a single place left: both saves commit, because the
      version check covers single rows only, and the booked count ends one above capacity. */
  lemma CapacityRace(db: Db, r1: BookingRequest, r2: BookingRequest, c1: Clock, c2: Clock, cap: int)
    requires Valid(db)
    requires r1.eventId == r2.eventId && r1.startTime != r2.startTime
    requires PrepareBooking(db, r1, c1).Ok? && PrepareBooking(db, r2, c2).Ok?
    requires FindByEventIdAndStartTime(db, r1.eventId, r1.startTime).value.event.rules.maxCapacity == Some(cap)
    requires CountBooked(db, r1.eventId) == cap - 1
    ensures var s1 := PrepareBooking(db, r1, c1).value;
      var s2 := PrepareBooking(db, r2, c2).value;
      && SaveVersioned(db, s1).Ok?
      && SaveVersioned(SaveVersioned(db, s1).value.1, s2).Ok?
      && CountBooked(SaveVersioned(SaveVersioned(db, s1).value.1, s2).value.1, r1.eventId) == cap + 1
  {
    var k1 := FoundAt(db, r1.eventId, r1.startTime);
    var k2 := FoundAt(db, r2.eventId, r2.startTime);
    var s1 := PrepareBooking(db, r1, c1).value;
    var s2 := PrepareBooking(db, r2, c2).value;
    assert k1 != k2;
    SaveOfPrepared(db, k1, s1);
    var db1 := SaveVersioned(db, s1).value.1;
    assert db1.slots[k2] == db.slots[k2];
    SaveOfPrepared(db1, k2, s2);
    var db2 := SaveVersioned(db1, s2).value.1;
    TwoBookingsCount(db, k1, s1.(version := s1.version + 1), k2, s2.(version := s2.version + 1), r1.eventId);
  }

  /** Two rows of one event turning from available to booked add two to its booked count. */
  lemma TwoBookingsCount(db: Db, k1: nat, v1: Slot, k2: nat, v2: Slot, eventId: int)
    requires k1 < |db.slots| && k2 < |db.slots| && k1 != k2
    requires !BookedOf(eventId)(db.slots[k1]) && !BookedOf(eventId)(db.slots[k2])
    requires BookedOf(eventId)(v1) && BookedOf(eventId)(v2)
    ensures CountBooked(db.(slots := db.slots[k1 := v1][k2 := v2]), eventId) == CountBooked(db, eventId) + 2
  {
    CountUpdate(db.slots, k1, v1, BookedOf(eventId));
    assert db.slots[k1 := v1][k2] == db.slots[k2];
    CountUpdate(db.slots[k1 := v1], k2, v2, BookedOf(eventId));
  }
}

=== FILE: calendar.dfy ===
/** `CalendarService.generateIcsFile`: the iCalendar text (RFC 5545) attached to a booking.
    The conversion of a local time to UTC is library code and comes in as a function. */
module Calendar {
  import opened Wrappers
  import opened Text
  import opened Numerals
  import opened Domain
  import opened NameUtils

  /** A UTC date-time as the `ZonedDateTime` handed to the formatter holds it. */
  datatype DateTime = DateTime(year: int, month: int, day: int, hour: int, minute: int, second: int)

  predicate InRange(t: DateTime) {
    && 1 <= t.year <= 9999 && 1 <= t.month <= 12 && 1 <= t.day <= 31
    && 0 <= t.hour <= 23 && 0 <= t.minute <= 59 && 0 <= t.second <= 59
  }

  /** The date-times whose year the four-digit pattern field prints without a sign. */
  type UtcTime = t: DateTime | InRange(t) witness DateTime(1970, 1, 1, 0, 0, 0)

  /** Pattern `yyyyMMdd'T'HHmmss'Z'`: the UTC form of a DATE-TIME value (section 3.3.5 of RFC 5545). */
  function FormatUtc(t: UtcTime): (r: string)
    ensures |r| == 16 && r[8] == 'T' && r[15] == 'Z'
    ensures AllDigits(r[..8]) && AllDigits(r[9..15])
  {
    Padded(t.year, 4) + Padded(t.month, 2) + Padded(t.day, 2) + "T"
      + Padded(t.hour, 2) + Padded(t.minute, 2) + Padded(t.second, 2) + "Z"
  }

  /** Reads a UTC DATE-TIME value back. */
  function ParseUtc(s: string): Option<UtcTime> {
    if && |s| == 16 && s[8] == 'T' && s[15] == 'Z'
       && AllDigits(s[0..4]) && AllDigits(s[4..6]) && AllDigits(s[6..8])
       && AllDigits(s[9..11]) && AllDigits(s[11..13]) && AllDigits(s[13..15])
    then
      var t := DateTime(ParseNat(s[0..4]), ParseNat(s[4..6]), ParseNat(s[6..8]),
                        ParseNat(s[9..11]), ParseNat(s[11..13]), ParseNat(s[13..15]));
      if InRange(t) then Some(t) else None
    else None
  }

  /** The formatted value names the instant it was made from. */
  lemma ParseFormatUtc(t: UtcTime)
    ensures ParseUtc(FormatUtc(t)) == Some(t)
  {
    var s := FormatUtc(t);
    var y, mo, d := Padded(t.year, 4), Padded(t.month, 2), Padded(t.day, 2);
    var h, mi, se := Padded(t.hour, 2), Padded(t.minute, 2), Padded(t.second, 2);
    assert s == y + mo + d + "T" + h + mi + se + "Z";
    assert s[0..4] == y && s[4..6] == mo && s[6..8] == d;
    assert s[9..11] == h && s[11..13] == mi && s[13..15] == se;
    ParsePadded(t.year, 4);
    ParsePadded(t.month, 2);
    ParsePadded(t.day, 2);
    ParsePadded(t.hour, 2);
    ParsePadded(t.minute, 2);
    ParsePadded(t.second, 2);
  }

  /** Java string concatenation renders a null reference as "null". */
  function OrNull(s: Option<string>): string {
    if s.Some? then s.value else "null"
  }

  const CRLF: string := "\r\n"

  function UidLine(slot: Slot): string {
    "UID:slot-" + LongToString(slot.id) + "@slotly.com"
  }

  function SummaryLine(slot: Slot): string {
    "SUMMARY:" + slot.event.eventName + " with " + SlotDisplayName(slot)
  }

  function DescriptionLine(slot: Slot): string {
    "DESCRIPTION:Your booking with " + SlotDisplayName(slot)
  }

  function OrganizerLine(slot: Slot): string {
    "ORGANIZER;CN=" + SlotDisplayName(slot) + ":mailto:" + slot.event.host.email
  }

  function AttendeeLine(slot: Slot): string {
    "ATTENDEE;CN=" + OrNull(slot.bookedByName) + ":mailto:" + OrNull(slot.bookedByEmail)
  }

  /** Content line `i` of the fourteen, in the order the builder appends them. `toUtc`
      stands for `convertToUTC` and `stamp` for the current UTC time. */
  function IcsLine(slot: Slot, toUtc: (int, string) -> UtcTime, stamp: UtcTime, i: nat): string
    requires i < 14
  {
    var tz := slot.event.timeZone;
    if i == 0 then "BEGIN:VCALENDAR"
    else if i == 1 then "VERSION:2.0"
    else if i == 2 then "PRODID:-//Slotly//Calendar//EN"
    else if i == 3 then "BEGIN:VEVENT"
    else if i == 4 then UidLine(slot)
    else if i == 5 then "DTSTAMP:" + FormatUtc(stamp)
    else if i == 6 then "DTSTART:" + FormatUtc(toUtc(slot.startTime, tz))
    else if i == 7 then "DTEND:" + FormatUtc(toUtc(slot.endTime, tz))
    else if i == 8 then SummaryLine(slot)
    else if i == 9 then DescriptionLine(slot)
    else if i == 10 then OrganizerLine(slot)
    else if i == 11 then AttendeeLine(slot)
    else if i == 12 then "END:VEVENT"
    else "END:VCALENDAR"
  }

  /** The fourteen content lines. */
  function IcsLines(slot: Slot, toUtc: (int, string) -> UtcTime, stamp: UtcTime): (r: seq<string>)
    ensures |r| == 14
  {
    seq(14, i requires 0 <= i < 14 => IcsLine(slot, toUtc, stamp, i))
  }

  /** Every line terminated by CRLF, concatenated. */
  function Unlines(lines: seq<string>): (r: string)
    ensures |r| >= 2 * |lines|
  {
    if lines == [] then [] else lines[0] + CRLF + Unlines(lines[1..])
  }

  /** `generateIcsFile`. */
  function GenerateIcsFile(slot: Slot, toUtc: (int, string) -> UtcTime, stamp: UtcTime): string {
    Unlines(IcsLines(slot, toUtc, stamp))
  }

  /** The position of the first CRLF in `s`, or `|s|` if there is none. */
  function FirstCrlf(s: string): (k: nat)
    ensures k <= |s|
    ensures k < |s| ==> k + 1 < |s| && s[k] == '\r' && s[k + 1] == '\n'
  {
    if |s| < 2 then |s|
    else if s[0] == '\r' && s[1] == '\n' then 0
    else 1 + FirstCrlf(s[1..])
  }

  /** How a reader splits the text into CRLF-terminated content lines (section 3.1 of RFC 5545,
      without unfolding, which the builder never needs). */
  function Lines(s: string): seq<string>
    decreases |s|
  {
    if s == [] then []
    else
      var k := FirstCrlf(s);
      if k == |s| then [s] else [s[..k]] + Lines(s[k + 2..])
  }

  predicate NoCr(s: string) {
    forall k :: 0 <= k < |s| ==> s[k] != '\r'
  }

  lemma {:induction false} FirstCrlfAfter(a: string, b: string)
    requires NoCr(a)
    ensures FirstCrlf(a + CRLF + b) == |a|
  {
    if |a| > 0 {
      assert (a + CRLF + b)[1..] == a[1..] + CRLF + b;
      FirstCrlfAfter(a[1..], b);
    }
  }

  /** Splitting undoes joining, as long as no line carries a carriage return itself. */
  lemma {:induction false} LinesOfUnlines(lines: seq<string>)
    requires forall i :: 0 <= i < |lines| ==> NoCr(lines[i])
    ensures Lines(Unlines(lines)) == lines
  {
    if lines != [] {
      var s := Unlines(lines);
      var a, rest := lines[0], Unlines(lines[1..]);
      assert s == a + CRLF + rest;
      FirstCrlfAfter(a, rest);
      assert s[..|a|] == a;
      assert s[|a| + 2..] == rest;
      LinesOfUnlines(lines[1..]);
    }
  }

  lemma {:induction false} UnlinesAppend(xs: seq<string>, ys: seq<string>)
    ensures Unlines(xs + ys) == Unlines(xs) + Unlines(ys)
  {
    if xs != [] {
      assert (xs + ys)[1..] == xs[1..] + ys;
      UnlinesAppend(xs[1..], ys);
    } else {
      assert xs + ys == ys;
    }
  }

  /** The text values the builder inserts without escaping. */
  predicate CleanValues(slot: Slot) {
    && NoCr(slot.event.eventName) && NoCr(SlotDisplayName(slot)) && NoCr(slot.event.host.email)
    && NoCr(OrNull(slot.bookedByName)) && NoCr(OrNull(slot.bookedByEmail))
  }

  lemma NoCrAppend(a: string, b: string)
    requires NoCr(a) && NoCr(b)
    ensures NoCr(a + b)
  {
    forall k | 0 <= k < |a + b| ensures (a + b)[k] != '\r' {
      if k >= |a| {
        assert (a + b)[k] == b[k - |a|];
      }
    }
  }

  lemma NoCrOfDigits(s: string)
    requires AllDigits(s)
    ensures NoCr(s)
  {
  }

  lemma NoCrOfLong(i: int)
    ensures NoCr(LongToString(i))
  {
    if i < 0 {
      NoCrOfDigits(NatToString(-i));
      NoCrAppend("-", NatToString(-i));
    } else {
      NoCrOfDigits(NatToString(i));
    }
  }

  lemma NoCrOfTime(t: UtcTime)
    ensures NoCr(FormatUtc(t))
  {
    var r := FormatUtc(t);
    forall k | 0 <= k < 16 ensures r[k] != '\r' {
      if k < 8 {
        assert r[k] == r[..8][k];
      } else if 8 < k < 15 {
        assert r[k] == r[9..15][k - 9];
      }
    }
  }

  lemma NoCrOfJoin3(a: string, b: string, c: string)
    requires NoCr(a) && NoCr(b) && NoCr(c)
    ensures NoCr(a + b + c)
  {
    NoCrAppend(a, b);
    NoCrAppend(a + b, c);
  }

  lemma NoCrOfJoin4(a: string, b: string, c: string, d: string)
    requires NoCr(a) && NoCr(b) && NoCr(c) && NoCr(d)
    ensures NoCr(a + b + c + d)
  {
    NoCrOfJoin3(a, b, c);
    NoCrAppend(a + b + c, d);
  }

  lemma FramingClean()
    ensures NoCr("BEGIN:VCALENDAR") && NoCr("VERSION:2.0") && NoCr("BEGIN:VEVENT")
    ensures NoCr("END:VEVENT") && NoCr("END:VCALENDAR")
  {
  }

  lemma ProductClean()
    ensures NoCr("PRODID:-//Slotly//Calendar//EN")
  {
  }

  lemma UidLineClean(slot: Slot)
    ensures NoCr(UidLine(slot))
  {
    NoCrOfLong(slot.id);
    NoCrOfJoin3("UID:slot-", LongToString(slot.id), "@slotly.com");
  }

  lemma TimeLineClean(name: string, t: UtcTime)
    requires NoCr(name)
    ensures NoCr(name + FormatUtc(t))
  {
    NoCrOfTime(t);
    NoCrAppend(name, FormatUtc(t));
  }

  lemma SummaryLineClean(slot: Slot)
    requires NoCr(slot.event.eventName) && NoCr(SlotDisplayName(slot))
    ensures NoCr(SummaryLine(slot))
  {
    NoCrOfJoin4("SUMMARY:", slot.event.eventName, " with ", SlotDisplayName(slot));
  }

  lemma DescriptionLineClean(slot: Slot)
    requires NoCr(SlotDisplayName(slot))
    ensures NoCr(DescriptionLine(slot))
  {
    NoCrAppend("DESCRIPTION:Your booking with ", SlotDisplayName(slot));
  }

  lemma OrganizerLineClean(slot: Slot)
    requires NoCr(SlotDisplayName(slot)) && NoCr(slot.event.host.email)
    ensures NoCr(OrganizerLine(slot))
  {
    NoCrOfJoin4("ORGANIZER;CN=", SlotDisplayName(slot), ":mailto:", slot.event.host.email);
  }

  lemma AttendeeLineClean(slot: Slot)
    requires NoCr(OrNull(slot.bookedByName)) && NoCr(OrNull(slot.bookedByEmail))
    ensures NoCr(AttendeeLine(slot))
  {
    NoCrOfJoin4("ATTENDEE;CN=", OrNull(slot.bookedByName), ":mailto:", OrNull(slot.bookedByEmail));
  }

  /** With carriage-return-free values no content line holds a carriage return. */
  lemma CleanLines(slot: Slot, toUtc: (int, string) -> UtcTime, stamp: UtcTime)
    requires CleanValues(slot)
    ensures forall i :: 0 <= i < 14 ==> NoCr(IcsLines(slot, toUtc, stamp)[i])
  {
    var lines := IcsLines(slot, toUtc, stamp);
    var tz := slot.event.timeZone;
    forall i | 0 <= i < 14 ensures NoCr(lines[i]) {
      if i == 0 || i == 1 || i == 3 || i == 12 || i == 13 {
        FramingClean();
      } else if i == 2 {
        ProductClean();
      } else if i == 4 {
        UidLineClean(slot);
      } else if i == 5 {
        TimeLineClean("DTSTAMP:", stamp);
      } else if i == 6 {
        TimeLineClean("DTSTART:", toUtc(slot.startTime, tz));
      } else if i == 7 {
        TimeLineClean("DTEND:", toUtc(slot.endTime, tz));
      } else if i == 8 {
        SummaryLineClean(slot);
      } else if i == 9 {
        DescriptionLineClean(slot);
      } else if i == 10 {
        OrganizerLineClean(slot);
      } else {
        AttendeeLineClean(slot);
      }
    }
  }

  /** With carriage-return-free values a reader recovers exactly the fourteen content lines. */
  lemma IcsReadsBack(slot: Slot, toUtc: (int, string) -> UtcTime, stamp: UtcTime)
    requires CleanValues(slot)
    ensures Lines(GenerateIcsFile(slot, toUtc, stamp)) == IcsLines(slot, toUtc, stamp)
  {
    CleanLines(slot, toUtc, stamp);
    LinesOfUnlines(IcsLines(slot, toUtc, stamp));
  }

  /** The calendar component wraps the event component. */
  lemma IcsFraming(slot: Slot, toUtc: (int, string) -> UtcTime, stamp: UtcTime)
    ensures var lines := IcsLines(slot, toUtc, stamp);
      && lines[0] == "BEGIN:VCALENDAR" && lines[3] == "BEGIN:VEVENT"
      && lines[12] == "END:VEVENT" && lines[13] == "END:VCALENDAR"
  {
  }

  /** The three DATE-TIME values read back as the instants they were made from. */
  lemma IcsTimes(slot: Slot, toUtc: (int, string) -> UtcTime, stamp: UtcTime)
    ensures var lines := IcsLines(slot, toUtc, stamp);
      && |lines[5]| == 24 && ParseUtc(lines[5][8..]) == Some(stamp)
      && |lines[6]| == 24 && ParseUtc(lines[6][8..]) == Some(toUtc(slot.startTime, slot.event.timeZone))
      && |lines[7]| == 22 && ParseUtc(lines[7][6..]) == Some(toUtc(slot.endTime, slot.event.timeZone))
  {
    var tz := slot.event.timeZone;
    TimeLineReads("DTSTAMP:", stamp);
    TimeLineReads("DTSTART:", toUtc(slot.startTime, tz));
    TimeLineReads("DTEND:", toUtc(slot.endTime, tz));
  }

  /** A property line with a DATE-TIME value reads back as the instant it was made from. */
  lemma TimeLineReads(name: string, t: UtcTime)
    ensures |name + FormatUtc(t)| == |name| + 16
    ensures ParseUtc((name + FormatUtc(t))[|name|..]) == Some(t)
  {
    assert (name + FormatUtc(t))[|name|..] == FormatUtc(t);
    ParseFormatUtc(t);
  }

  /** Two slots whose files carry the same UID line are the same slot id. */
  lemma UidNamesTheSlot(s1: Slot, s2: Slot, toUtc: (int, string) -> UtcTime, stamp: UtcTime)
    requires IcsLines(s1, toUtc, stamp)[4] == IcsLines(s2, toUtc, stamp)[4]
    ensures s1.id == s2.id
  {
    var a, b := LongToString(s1.id), LongToString(s2.id);
    assert "UID:slot-" + a + "@slotly.com" == "UID:slot-" + b + "@slotly.com";
    assert a == ("UID:slot-" + a + "@slotly.com")[9..9 + |a|];
    assert |a| == |b|;
    assert b == ("UID:slot-" + b + "@slotly.com")[9..9 + |b|];
    LongToStringInjective(s1.id, s2.id);
  }

  /** An unbooked slot names its attendee as the text "null". */
  lemma UnbookedAttendeeIsNull(slot: Slot, toUtc: (int, string) -> UtcTime, stamp: UtcTime)
    requires IsAvailable(slot)
    ensures IcsLines(slot, toUtc, stamp)[11] == "ATTENDEE;CN=null:mailto:null"
  {
  }

  /** Joining a line that holds a CRLF is joining its two halves. */
  lemma UnlinesSplit(xs: seq<string>, x: string, y: string, ys: seq<string>)
    ensures Unlines(xs + [x + CRLF + y] + ys) == Unlines(xs + [x, y] + ys)
  {
    var one, two := [x + CRLF + y], [x, y];
    assert Unlines(two) == x + CRLF + Unlines([y]) by {
      assert two[1..] == [y];
    }
    assert Unlines([y]) == y + CRLF;
    assert Unlines(one) == x + CRLF + y + CRLF;
    assert Unlines(one) == Unlines(two);
    UnlinesAppend(xs + one, ys);
    UnlinesAppend(xs, one);
    UnlinesAppend(xs + two, ys);
    UnlinesAppend(xs, two);
  }

  /** Renaming the event changes the SUMMARY line only. */
  lemma RenameChangesSummaryOnly(slot: Slot, toUtc: (int, string) -> UtcTime, stamp: UtcTime, name: string)
    ensures var renamed := slot.(event := slot.event.(eventName := name));
      var cs := IcsLines(renamed, toUtc, stamp);
      IcsLines(slot, toUtc, stamp) == cs[..8] + [SummaryLine(slot)] + cs[9..]
  {
    var renamed := slot.(event := slot.event.(eventName := name));
    var ls, cs := IcsLines(slot, toUtc, stamp), IcsLines(renamed, toUtc, stamp);
    assert SlotDisplayName(renamed) == SlotDisplayName(slot);
    forall i | 0 <= i < 14 && i != 8 ensures ls[i] == cs[i] {
    }
  }

  /** A CRLF inside the ninth of fourteen clean lines makes a reader see fifteen. */
  lemma ReadSplitLine(cs: seq<string>, x: string, y: string)
    requires |cs| == 14 && forall i :: 0 <= i < 14 ==> NoCr(cs[i])
    requires NoCr(x) && NoCr(y)
    ensures var lines := Lines(Unlines(cs[..8] + [x + CRLF + y] + cs[9..]));
      |lines| == 15 && lines[8] == x && lines[9] == y
  {
    var split := cs[..8] + [x, y] + cs[9..];
    forall i | 0 <= i < |split| ensures NoCr(split[i]) {
      if i < 8 {
        assert split[i] == cs[i];
      } else if i >= 10 {
        assert split[i] == cs[i - 1];
      }
    }
    UnlinesSplit(cs[..8], x, y, cs[9..]);
    LinesOfUnlines(split);
  }

  /** TEXT values are not escaped (section 3.3.11 of RFC 5545): an event name holding a CRLF
      splits the SUMMARY line in two, and a reader sees fifteen content lines, the second
      half of the name standing as a line of its own. */
  lemma CrlfInNameAddsLine(slot: Slot, toUtc: (int, string) -> UtcTime, stamp: UtcTime, a: string, b: string)
    requires slot.event.eventName == a + CRLF + b
    requires NoCr(b) && CleanValues(slot.(event := slot.event.(eventName := a)))
    ensures var lines := Lines(GenerateIcsFile(slot, toUtc, stamp));
      && |lines| == 15
      && lines[8] == "SUMMARY:" + a
      && lines[9] == b + " with " + SlotDisplayName(slot)
  {
    var host := SlotDisplayName(slot);
    var clean := slot.(event := slot.event.(eventName := a));
    var cs := IcsLines(clean, toUtc, stamp);
    var x, y := "SUMMARY:" + a, b + " with " + host;
    assert SummaryLine(slot) == x + CRLF + y;
    RenameChangesSummaryOnly(slot, toUtc, stamp, a);
    CleanLines(clean, toUtc, stamp);
    NoCrAppend("SUMMARY:", a);
    NoCrOfJoin3(b, " with ", host);
    ReadSplitLine(cs, x, y);
  }
}

=== FILE: domain.dfy ===
/** The entities of the booking core: users (as hosts), availability rules, events and
    slots, the typed errors the services throw, and the payloads they publish.
    Times are minutes on the local wall clock of the event's zone. */
module Domain {
  import opened Wrappers

  /** The host of an event; only the fields the core reads. */
  datatype User = User(
    id: int,
    email: string,
    username: string,
    firstName: Option<string>,
    lastName: Option<string>)

  /** The rules embedded in an event; `maxCapacity == None` means unlimited.
      `maxSlotsPerUser` is stored but no operation of the core reads it. */
  datatype Rules = Rules(
    slotDurationMinutes: int,
    maxSlotsPerUser: int,
    maxCapacity: Option<int>,
    allowsCancellations: bool,
    isPublic: bool)

  /** Field initialisers of a freshly constructed rules object. */
  const DefaultRules := Rules(30, 1, None, true, true)

  /** A persisted event (after `@PrePersist` has filled `createdAt` and `shareableId`). */
  datatype Event = Event(
    id: int,
    eventName: string,
    description: Option<string>,
    host: User,
    createdAt: int,
    eventStart: int,
    eventEnd: int,
    timeZone: string,
    rules: Rules,
    shareableId: string)

  /** A slot row. `version` is the optimistic-lock counter; `event` is the owning event. */
  datatype Slot = Slot(
    id: int,
    version: int,
    event: Event,
    startTime: int,
    endTime: int,
    bookedByName: Option<string>,
    bookedByEmail: Option<string>,
    bookedAt: Option<int>)

  /** `Slot.isAvailable`: neither booked field is set. */
  predicate IsAvailable(s: Slot) {
    s.bookedByEmail.None? && s.bookedByName.None?
  }

  /** A slot the booked-count query counts: both booked fields are set. */
  predicate IsBooked(s: Slot) {
    s.bookedByEmail.Some? && s.bookedByName.Some?
  }

  /** The booked fields are either both set or both unset. */
  predicate Paired(s: Slot) {
    IsAvailable(s) || IsBooked(s)
  }

  /** A slot with exactly one booked field set is neither available nor counted as booked. */
  lemma HalfBookedSlot(s: Slot)
    requires s.bookedByEmail.Some? != s.bookedByName.Some?
    ensures !IsAvailable(s) && !IsBooked(s) && !Paired(s)
  {
  }

  /** Availability depends on the two booked fields only: not on `bookedAt`, the times,
      the version or the event. */
  lemma AvailabilityIgnoresOtherFields(s: Slot, t: Slot)
    requires s.bookedByName == t.bookedByName && s.bookedByEmail == t.bookedByEmail
    ensures IsAvailable(s) <==> IsAvailable(t)
  {
  }

  /** Why an `InvalidSlotException` was thrown (its message in the source). */
  datatype SlotCause = NonPositiveDuration | PastSlot | CancellationsDisallowed | NotBooked

  /** Why an `InvalidEventException` was thrown. */
  datatype EventCause = EndNotAfterStart | StartInPast

  /** The typed errors of the event and slot services, plus the persistence failures:
      `OptimisticLock` (a stale version when the update commits),
      `DuplicateShareableId` (the unique column on `shareableId`) and `NullReference` (a
      null field dereferenced); and `InvalidRequest`, a request body that bean validation
      refuses (HTTP 400). */
  datatype Error =
    | SlotNotFound
    | SlotAlreadyBooked
    | InvalidSlot(slotCause: SlotCause)
    | MaxCapacityExceeded
    | UnauthorizedAccess
    | EventNotFound
    | InvalidEvent(eventCause: EventCause)
    | OptimisticLock
    | DuplicateShareableId
    | NullReference
    | InvalidRequest

  /** Published payloads. */
  datatype Notice =
    | SlotBooked(
        attendeeEmail: Option<string>, hostEmail: string, attendeeName: Option<string>,
        eventName: string, startTime: int, endTime: int, timeZone: string,
        hostDisplayName: string, slotId: int)
    | SlotCancelled(
        cSlotId: int, slotStartTime: int, slotEndTime: int,
        bookedByName: Option<string>, bookedByEmail: Option<string>,
        cEventName: string, hostName: string, cHostEmail: string)
    | EventCancelled(eventId: int, eEventName: string, attendeeEmails: seq<Option<string>>)

  /** Observable effects of a service call, in call order: repository writes and publications. */
  datatype Effect =
    | SavedEvent(event: Event)
    | SavedSlots(slots: seq<Slot>)
    | SavedSlot(slot: Slot)
    | DeletedEvent(deletedId: int)
    | Published(notice: Notice)

  /** Current time as the services read it: `ZonedDateTime.now(zone)` as local minutes in
      `zone`, `LocalDateTime.now()` in the JVM's zone, and `System.currentTimeMillis()`. */
  datatype Clock = Clock(zoned: string -> int, local: int, millis: int)
}

=== FILE: event_entity.dfy ===
/** The event entity's `@PrePersist` hook in both generations: `createdAt` is stamped on
    every persist, a missing shareable id is generated, missing rules become the defaults.
    The current generation derives the id from the clock and a slug of the name; the
    legacy one joins the host's username and the event name. */
module EventEntity {
  import opened Wrappers
  import opened Domain
  import opened Seqs
  import opened Text
  import opened Numerals
  import opened Slugs

  /** Which generation of the code: `feature.*` or the legacy `model`/`service` packages. */
  datatype Variant = Feature | Legacy

  /** An event object before `@PrePersist`: the fields the hook may fill are optional. */
  datatype EventDraft = EventDraft(
    eventName: string,
    description: Option<string>,
    host: User,
    eventStart: int,
    eventEnd: int,
    timeZone: string,
    rules: Option<Rules>,
    shareableId: Option<string>)

  /** `generateShareableId` of `feature/event/Event`. */
  function FeatureShareableId(millis: int, eventName: string): string {
    "event-" + LongToString(millis) + "-" + Slug(eventName)
  }

  /** `generateShareableId` of `model/Event`. */
  function LegacyShareableId(host: User, eventName: string): string {
    host.username + "/" + eventName
  }

  function GenerateShareableId(variant: Variant, d: EventDraft, clock: Clock): string {
    match variant
    case Feature => FeatureShareableId(clock.millis, d.eventName)
    case Legacy => LegacyShareableId(d.host, d.eventName)
  }

  /** `onCreate`; the row id is assigned by the insert that follows. */
  function OnCreate(variant: Variant, d: EventDraft, clock: Clock): (e: Event)
    ensures e.createdAt == clock.local
    ensures d.shareableId.Some? ==> e.shareableId == d.shareableId.value
    ensures d.shareableId.None? ==> e.shareableId == GenerateShareableId(variant, d, clock)
    ensures e.rules == d.rules.GetOr(DefaultRules)
    ensures Redraft(e) == d.(rules := Some(e.rules), shareableId := Some(e.shareableId))
  {
    Event(0, d.eventName, d.description, d.host, clock.local, d.eventStart, d.eventEnd, d.timeZone,
          d.rules.GetOr(DefaultRules),
          if d.shareableId.Some? then d.shareableId.value else GenerateShareableId(variant, d, clock))
  }

  /** The object of an already persisted event, as a later persist would see it. */
  function Redraft(e: Event): EventDraft {
    EventDraft(e.eventName, e.description, e.host, e.eventStart, e.eventEnd, e.timeZone, Some(e.rules), Some(e.shareableId))
  }

  /** Persisting again restamps `createdAt` but keeps the shareable id and the rules. */
  lemma PersistAgainKeepsIdAndRules(variant: Variant, d: EventDraft, c1: Clock, c2: Clock)
    ensures var e1 := OnCreate(variant, d, c1);
      var e2 := OnCreate(variant, Redraft(e1), c2);
      e2 == e1.(createdAt := c2.local)
  {
  }

  /** The current id starts with "event-", and its slug part is a slug. */
  lemma FeatureShareableIdShape(millis: int, eventName: string)
    ensures var id := FeatureShareableId(millis, eventName);
      StartsWith(id, "event-") && IsSlug(id[|"event-" + LongToString(millis) + "-"|..])
  {
    SlugShape(eventName);
    var id := FeatureShareableId(millis, eventName);
    assert id == ("event-" + LongToString(millis) + "-") + Slug(eventName);
    assert id[..6] == "event-";
  }

  /** For non-negative clock readings the current id determines the clock reading and the
      slug: two events get the same id exactly when created in the same millisecond with
      names of the same slug. */
  lemma FeatureShareableIdInjective(m1: nat, n1: string, m2: nat, n2: string)
    requires FeatureShareableId(m1, n1) == FeatureShareableId(m2, n2)
    ensures m1 == m2 && Slug(n1) == Slug(n2)
  {
    var d1, d2 := NatToString(m1), NatToString(m2);
    var x1, x2 := d1 + ['-'] + Slug(n1), d2 + ['-'] + Slug(n2);
    FeatureIdParts(m1, n1);
    FeatureIdParts(m2, n2);
    assert x1 == x2 by {
      assert x1 == ("event-" + x1)[6..];
      assert x2 == ("event-" + x2)[6..];
    }
    NoDashInDigits(d1);
    NoDashInDigits(d2);
    SplitAtSeparator(d1, Slug(n1), d2, Slug(n2), '-');
    LongToStringInjective(m1, m2);
  }

  lemma FeatureIdParts(m: nat, n: string)
    ensures FeatureShareableId(m, n) == "event-" + (NatToString(m) + ['-'] + Slug(n))
  {
  }

  lemma NoDashInDigits(d: string)
    requires AllDigits(d)
    ensures '-' !in d
  {
    assert forall k :: 0 <= k < |d| ==> IsDigit(d[k]);
  }

  /** Names that differ only in letter case get the same id in the same millisecond. */
  lemma FeatureShareableIdCollision(millis: int, n1: string, n2: string)
    requires Lower(n1) == Lower(n2)
    ensures FeatureShareableId(millis, n1) == FeatureShareableId(millis, n2)
  {
    SlugIgnoresCase(n1, n2);
  }

  /** Such names exist: "Team Sync" and "team sync". */
  lemma CaseOnlyNames()
    ensures "Team Sync" != "team sync" && Lower("Team Sync") == Lower("team sync")
  {
    assert "Team Sync"[0] != "team sync"[0];
  }

  /** When usernames contain no '/', the legacy id determines the host's username and the
      event name, so only the same host reusing a name collides. */
  lemma LegacyShareableIdInjective(h1: User, n1: string, h2: User, n2: string)
    requires '/' !in h1.username && '/' !in h2.username
    requires LegacyShareableId(h1, n1) == LegacyShareableId(h2, n2)
    ensures h1.username == h2.username && n1 == n2
  {
    assert LegacyShareableId(h1, n1) == h1.username + ['/'] + n1;
    assert LegacyShareableId(h2, n2) == h2.username + ['/'] + n2;
    SplitAtSeparator(h1.username, n1, h2.username, n2, '/');
  }

  /** A '/' in a username lets two different hosts' ids collide. */
  lemma LegacyShareableIdCollision(h1: User, h2: User)
    requires h1.username == "ann/x" && h2.username == "ann"
    ensures LegacyShareableId(h1, "y") == LegacyShareableId(h2, "x/y")
  {
  }
}

=== FILE: event_properties.dfy ===
/** Properties of event creation and deletion: the store invariant is kept, a created
    event can be found again by its host and (when public) by its shareable id, its slots
    tile the window (current) or overrun it (legacy), and a deleted event disappears
    together with its slots. */
module EventProperties {
  import opened Wrappers
  import opened Domain
  import opened Seqs
  import opened Store
  import opened Partition
  import opened SlotService
  import opened EventEntity
  import opened EventService

  lemma StartsIncrease(s: int, d: int, i: int, j: int)
    requires d > 0 && i < j
    ensures s + i * d < s + j * d
  {
    assert j * d - i * d == (j - i) * d;
  }

  /** A successful creation keeps the store invariant. */
  lemma CreateEventKeepsValid(db: Db, variant: Variant, req: EventRequest, host: User, clock: Clock)
    requires variant == Legacy ==> req.rules.slotDurationMinutes > 0
    requires Valid(db) && CreateEvent(db, variant, req, host, clock).result.Ok?
    ensures Valid(CreateEvent(db, variant, req, host, clock).db)
  {
    var st := CreateEvent(db, variant, req, host, clock);
    var event := OnCreate(variant, NewDraft(req, host), clock);
    var (saved, db1) := SaveEvent(db, event).value;
    SaveEventKeepsValid(db, event);
    var added := st.db.slots[|db.slots|..];
    var d := req.rules.slotDurationMinutes;
    assert db1.slots == db.slots;
    forall i, j | 0 <= i < j < |added| ensures added[i].startTime != added[j].startTime {
      StartsIncrease(saved.eventStart, d, i, j);
    }
    var (savedSlots, db2) := SaveAll(db1, added);
    assert savedSlots == added;
    SaveAllKeepsValid(db1, added, saved.id);
    assert st.db.slots == db.slots + added;
    assert st.db == db2;
  }

  /** Right after creation the host finds the event by id, and anyone finds it by its
      shareable id exactly when it is public. */
  lemma CreateThenLookup(db: Db, variant: Variant, req: EventRequest, host: User, clock: Clock)
    requires variant == Legacy ==> req.rules.slotDurationMinutes > 0
    requires Valid(db) && CreateEvent(db, variant, req, host, clock).result.Ok?
    ensures var st := CreateEvent(db, variant, req, host, clock);
      var e := st.result.value;
      && GetEventById(st.db, e.id, host) == Ok(e)
      && GetEventByShareableId(st.db, e.shareableId) == (if e.rules.isPublic then Ok(e) else Err(UnauthorizedAccess))
  {
    var st := CreateEvent(db, variant, req, host, clock);
    var e := st.result.value;
    var n := |db.events|;
    assert st.db.events[n] == e;
    FirstIndexUnique(st.db.events, (x: Event) => x.id == e.id, n);
    FirstIndexUnique(st.db.events, (x: Event) => x.shareableId == e.shareableId, n);
  }

  /** The current generator's slots lie inside the event window, each `d` long, back to back. */
  lemma FeatureSlotsInsideWindow(db: Db, req: EventRequest, host: User, clock: Clock)
    requires CreateEvent(db, Feature, req, host, clock).result.Ok?
    ensures var st := CreateEvent(db, Feature, req, host, clock);
      var added := st.db.slots[|db.slots|..];
      && (forall i :: 0 <= i < |added| ==>
            req.eventStart <= added[i].startTime && added[i].endTime <= req.eventEnd
            && added[i].endTime - added[i].startTime == req.rules.slotDurationMinutes)
      && (forall i :: 0 <= i < |added| - 1 ==> added[i].endTime == added[i + 1].startTime)
  {
    var st := CreateEvent(db, Feature, req, host, clock);
    var s, e, d := req.eventStart, req.eventEnd, req.rules.slotDurationMinutes;
    FeatureSpansShape(s, e, d);
    FeatureSpansClosedForm(s, e, d);
    var added := st.db.slots[|db.slots|..];
    forall i | 0 <= i < |added| ensures added[i].endTime <= e && s <= added[i].startTime {
      assert FeatureSpans(s, e, d)[i] == Cell(s, d, i);
    }
  }

  /** When the duration does not divide the window, the legacy generator's last slot ends
      after the event does. */
  lemma LegacyLastSlotOverruns(db: Db, req: EventRequest, host: User, clock: Clock)
    requires req.rules.slotDurationMinutes > 0
    requires CreateEvent(db, Legacy, req, host, clock).result.Ok?
    requires (req.eventEnd - req.eventStart) % req.rules.slotDurationMinutes != 0
    ensures var st := CreateEvent(db, Legacy, req, host, clock);
      var added := st.db.slots[|db.slots|..];
      |added| > 0 && added[|added| - 1].startTime < req.eventEnd < added[|added| - 1].endTime
  {
    var s, e, d := req.eventStart, req.eventEnd, req.rules.slotDurationMinutes;
    LegacyLastCell(s, e, d);
    var st := CreateEvent(db, Legacy, req, host, clock);
    var event := OnCreate(Legacy, NewDraft(req, host), clock);
    assert Persisted(db, Legacy, event, st);
    assert event.eventStart == s && event.eventEnd == e && event.rules.slotDurationMinutes == d;
  }

  /** Reusing an event name under the same host makes the legacy creation fail on the
      unique shareable-id column, and the store is unchanged. */
  lemma LegacyNameReuseFails(db: Db, r1: EventRequest, r2: EventRequest, host: User, c1: Clock, c2: Clock)
    requires r1.rules.slotDurationMinutes > 0 && r2.rules.slotDurationMinutes > 0
    requires CreateEvent(db, Legacy, r1, host, c1).result.Ok?
    requires r2.eventName == r1.eventName
    requires r2.eventEnd > r2.eventStart && !(r2.eventStart < c2.zoned(r2.timeZone))
    ensures var db1 := CreateEvent(db, Legacy, r1, host, c1).db;
      CreateEvent(db1, Legacy, r2, host, c2) == Fail(db1, DuplicateShareableId)
  {
    var st := CreateEvent(db, Legacy, r1, host, c1);
    var n := |db.events|;
    assert st.db.events[n] == st.result.value;
  }

  /** After a deletion neither lookup finds the event any more. */
  lemma DeleteForgetsEvent(db: Db, id: int, user: User)
    requires Valid(db) && DeleteEventById(db, id, user).result.Ok?
    ensures var st := DeleteEventById(db, id, user);
      var e := FindEventById(db, id).value;
      && GetEventById(st.db, id, user) == Err(EventNotFound)
      && GetEventByShareableId(st.db, e.shareableId) == Err(EventNotFound)
  {
    var db' := DeleteEvent(db, id);
    var e := FindEventById(db, id).value;
    var k :| 0 <= k < |db.events| && db.events[k] == e;
    NoOtherHasShareableId(db, k);
    GoneShareableId(db, id, e.shareableId);
  }

  /** Under the invariant, no other row shares the shareable id of row `k`. */
  lemma NoOtherHasShareableId(db: Db, k: nat)
    requires Valid(db) && k < |db.events|
    ensures forall i :: 0 <= i < |db.events| && db.events[i].id != db.events[k].id ==> db.events[i].shareableId != db.events[k].shareableId
  {
    forall i | 0 <= i < |db.events| && db.events[i].id != db.events[k].id
      ensures db.events[i].shareableId != db.events[k].shareableId
    {
      if i < k {
        assert EventsApart(db.events[i], db.events[k]);
      } else {
        assert EventsApart(db.events[k], db.events[i]);
      }
    }
  }

  /** When only rows with id `id` carry the shareable id, deleting them leaves none. */
  lemma GoneShareableId(db: Db, id: int, sid: string)
    requires forall i :: 0 <= i < |db.events| && db.events[i].id != id ==> db.events[i].shareableId != sid
    ensures FindEventByShareableId(DeleteEvent(db, id), sid).None?
  {
    var db' := DeleteEvent(db, id);
    forall j | 0 <= j < |db'.events| ensures db'.events[j].shareableId != sid {
      var i :| 0 <= i < |db.events| && db.events[i] == db'.events[j];
    }
  }

  /** Deleting an event keeps the invariant and removes exactly its slots: every other
      event keeps its slots, in order. */
  lemma DeleteRemovesOnlyItsSlots(db: Db, id: int, user: User, other: int)
    requires Valid(db) && DeleteEventById(db, id, user).result.Ok?
    requires other != id
    ensures var db' := DeleteEventById(db, id, user).db;
      && Valid(db')
      && SlotsOf(db', id) == []
      && SlotsOf(db', other) == SlotsOf(db, other)
  {
    var db' := DeleteEventById(db, id, user).db;
    DeleteEventKeepsValid(db, id);
    FilterNarrow(db.slots, (s: Slot) => s.event.id != id, OfEvent(other));
    FilterNone(db'.slots, OfEvent(id));
  }
}

=== FILE: event_service.dfy ===
/** The event service, current and legacy: creation (window guards, one insert, then slot
    generation), host-only lookup and deletion, and lookup by shareable id. Both
    generations share these operations; only creation differs, through the entity hook and
    the slot generator. */
module EventService {
  import opened Wrappers
  import opened Domain
  import opened Seqs
  import opened Store
  import opened Partition
  import opened SlotService
  import opened EventEntity

  /** The rules part of a create request: the four fields of the rules DTO, non-null once
      the request has passed bean validation. There is no capacity field. */
  datatype RulesRequest = RulesRequest(slotDurationMinutes: int, maxSlotsPerUser: int, allowsCancellations: bool, isPublic: bool)

  datatype EventRequest = EventRequest(
    eventName: string,
    description: Option<string>,
    eventStart: int,
    eventEnd: int,
    timeZone: string,
    rules: RulesRequest)

  /** A new rules object with the four request fields copied onto it. */
  function CopyRules(r: RulesRequest): (rules: Rules)
    ensures rules.maxCapacity == DefaultRules.maxCapacity == None
  {
    DefaultRules.(slotDurationMinutes := r.slotDurationMinutes, maxSlotsPerUser := r.maxSlotsPerUser,
                  allowsCancellations := r.allowsCancellations, isPublic := r.isPublic)
  }

  /** The event object `createEvent` builds before saving it. */
  function NewDraft(req: EventRequest, host: User): EventDraft {
    EventDraft(req.eventName, req.description, host, req.eventStart, req.eventEnd, req.timeZone,
               Some(CopyRules(req.rules)), None)
  }

  /** The generator of each generation. */
  function Generate(variant: Variant, db: Db, event: Event): (st: Step<seq<Slot>>)
    requires variant == Legacy ==> event.rules.slotDurationMinutes > 0
    ensures st.result.Err? <==> variant == Feature && event.rules.slotDurationMinutes <= 0
    ensures st.result.Err? ==> st == Fail(db, InvalidSlot(NonPositiveDuration))
    ensures st.result.Ok? ==>
      var d := event.rules.slotDurationMinutes;
      var slots := st.result.value;
      && (forall i :: 0 <= i < |slots| ==>
            slots[i] == Slot(db.nextSlotId + i, 0, event, event.eventStart + i * d, event.eventStart + (i + 1) * d, None, None, None))
      && st.db == db.(slots := db.slots + slots, nextSlotId := db.nextSlotId + |slots|)
      && (variant == Feature ==> |slots| == FeatureCount(event.eventStart, event.eventEnd, d) && st.effects == [SavedSlots(slots)])
      && (variant == Legacy ==> |slots| == LegacyCount(event.eventStart, event.eventEnd, d) && st.effects == EachSaved(slots))
  {
    match variant
    case Feature => GenerateSlots(db, event)
    case Legacy => LegacyGenerateSlots(db, event)
  }

  /** What a successful `Persist` did: the event got the next id and was appended; then its
      slots were appended with consecutive ids, one duration each from the event's start,
      unbooked, and saved in one batch (current) or one at a time (legacy). */
  predicate Persisted(db: Db, variant: Variant, event: Event, st: Step<Event>)
    requires st.result.Ok?
  {
    PersistedRows(db, event, st) && PersistedEffects(db, variant, event, st)
  }

  predicate PersistedRows(db: Db, event: Event, st: Step<Event>)
    requires st.result.Ok?
  {
    var e := st.result.value;
    var d := event.rules.slotDurationMinutes;
    && |db.slots| <= |st.db.slots| && st.db.slots[..|db.slots|] == db.slots
    && var added := st.db.slots[|db.slots|..];
    && e == event.(id := db.nextEventId)
    && st.db.events == db.events + [e] && st.db.nextEventId == db.nextEventId + 1
    && st.db.nextSlotId == db.nextSlotId + |added|
    && (forall i :: 0 <= i < |added| ==>
          added[i] == Slot(db.nextSlotId + i, 0, e, e.eventStart + i * d, e.eventStart + (i + 1) * d, None, None, None))
  }

  predicate PersistedEffects(db: Db, variant: Variant, event: Event, st: Step<Event>)
    requires st.result.Ok? && |db.slots| <= |st.db.slots|
  {
    var e := st.result.value;
    var d := event.rules.slotDurationMinutes;
    var added := st.db.slots[|db.slots|..];
    && |st.effects| >= 1 && st.effects[0] == SavedEvent(e)
    && (variant == Feature ==> d > 0 && |added| == FeatureCount(e.eventStart, e.eventEnd, d) && st.effects == [SavedEvent(e), SavedSlots(added)])
    && (variant == Legacy ==> d > 0 && |added| == LegacyCount(e.eventStart, e.eventEnd, d) && st.effects == [SavedEvent(e)] + EachSaved(added))
  }

  /** The part of `createEvent` after the guards: insert the event (`onCreate` has run),
      then generate its slots; any failure rolls the whole call back. */
  function Persist(db: Db, variant: Variant, event: Event): (st: Step<Event>)
    requires variant == Legacy ==> event.rules.slotDurationMinutes > 0
    ensures st.result.Err? ==> st.db == db && st.effects == []
    ensures st.result.Err? ==> st.result.error == DuplicateShareableId || st.result.error == InvalidSlot(NonPositiveDuration)
    ensures st.result.Ok? <==>
      && (forall j :: 0 <= j < |db.events| ==> db.events[j].shareableId != event.shareableId)
      && (variant == Feature ==> event.rules.slotDurationMinutes > 0)
    ensures st.result.Ok? ==> Persisted(db, variant, event, st)
  {
    match SaveEvent(db, event)
    case Err(e) => Fail(db, e)
    case Ok((saved, db1)) =>
      var gen := Generate(variant, db1, saved);
      match gen.result
      case Err(e) => Fail(db, e)
      case Ok(slots) =>
        var st := Step(Ok(saved), gen.db, [SavedEvent(saved)] + gen.effects);
        PersistOk(db, variant, event, saved, db1, gen, st);
        st
  }

  lemma PersistOk(db: Db, variant: Variant, event: Event, saved: Event, db1: Db, gen: Step<seq<Slot>>, st: Step<Event>)
    requires variant == Legacy ==> event.rules.slotDurationMinutes > 0
    requires SaveEvent(db, event) == Ok((saved, db1))
    requires gen == Generate(variant, db1, saved) && gen.result.Ok?
    requires st == Step(Ok(saved), gen.db, [SavedEvent(saved)] + gen.effects)
    ensures Persisted(db, variant, event, st)
  {
    var slots := gen.result.value;
    PersistOkRows(db, event, saved, db1, slots, st);
    PersistOkEffects(db, variant, event, saved, db1, gen, st);
  }

  lemma PersistOkRows(db: Db, event: Event, saved: Event, db1: Db, slots: seq<Slot>, st: Step<Event>)
    requires saved == event.(id := db.nextEventId)
    requires db1 == db.(events := db.events + [saved], nextEventId := db.nextEventId + 1)
    requires st.result == Ok(saved)
    requires st.db == db1.(slots := db1.slots + slots, nextSlotId := db1.nextSlotId + |slots|)
    requires var d := saved.rules.slotDurationMinutes;
      forall i :: 0 <= i < |slots| ==>
        slots[i] == Slot(db1.nextSlotId + i, 0, saved, saved.eventStart + i * d, saved.eventStart + (i + 1) * d, None, None, None)
    ensures PersistedRows(db, event, st)
  {
    assert st.db.slots[|db.slots|..] == slots;
    assert st.db.slots[..|db.slots|] == db.slots;
  }

  lemma PersistOkEffects(db: Db, variant: Variant, event: Event, saved: Event, db1: Db, gen: Step<seq<Slot>>, st: Step<Event>)
    requires variant == Legacy ==> event.rules.slotDurationMinutes > 0
    requires SaveEvent(db, event) == Ok((saved, db1))
    requires gen == Generate(variant, db1, saved) && gen.result.Ok?
    requires st == Step(Ok(saved), gen.db, [SavedEvent(saved)] + gen.effects)
    requires |db.slots| <= |st.db.slots| && st.db.slots[|db.slots|..] == gen.result.value
    ensures PersistedEffects(db, variant, event, st)
  {
  }

  /** `createEvent`: the end must be strictly after the start, the start must not be before
      now in the request's zone; then the event is inserted once and its slots generated
      once. The legacy generator does not terminate for a non-positive duration, and
      nothing guarantees a positive one: the legacy `rules` field has no `@Valid` (see the
      findings in the README). */
  function CreateEvent(db: Db, variant: Variant, req: EventRequest, host: User, clock: Clock): (st: Step<Event>)
    requires variant == Legacy ==> req.rules.slotDurationMinutes > 0
    ensures !(req.eventEnd > req.eventStart) ==> st == Fail(db, InvalidEvent(EndNotAfterStart))
    ensures req.eventEnd > req.eventStart && req.eventStart < clock.zoned(req.timeZone) ==>
      st == Fail(db, InvalidEvent(StartInPast))
    ensures st.result.Err? ==> st.db == db && st.effects == []
    ensures st.result.Ok? <==>
      && req.eventEnd > req.eventStart && !(req.eventStart < clock.zoned(req.timeZone))
      && (forall j :: 0 <= j < |db.events| ==> db.events[j].shareableId != GenerateShareableId(variant, NewDraft(req, host), clock))
      && (variant == Feature ==> req.rules.slotDurationMinutes > 0)
    ensures st.result.Ok? ==> st == Persist(db, variant, OnCreate(variant, NewDraft(req, host), clock))
    ensures st.result.Ok? ==>
      var e := st.result.value;
      && e.id == db.nextEventId
      && e.eventName == req.eventName && e.description == req.description && e.host == host
      && e.eventStart == req.eventStart && e.eventEnd == req.eventEnd && e.timeZone == req.timeZone
      && e.rules == CopyRules(req.rules) && e.createdAt == clock.local
      && e.shareableId == GenerateShareableId(variant, NewDraft(req, host), clock)
  {
    if !(req.eventEnd > req.eventStart) then Fail(db, InvalidEvent(EndNotAfterStart))
    else if req.eventStart < clock.zoned(req.timeZone) then Fail(db, InvalidEvent(StartInPast))
    else Persist(db, variant, OnCreate(variant, NewDraft(req, host), clock))
  }

  /** Host-only lookup by id, shared by `getEventById` and `deleteEventById`. */
  function OwnedEvent(db: Db, id: int, currentUser: User): (r: Result<Event, Error>)
    ensures FindEventById(db, id).None? ==> r == Err(EventNotFound)
    ensures FindEventById(db, id).Some? && FindEventById(db, id).value.host.id != currentUser.id ==> r == Err(UnauthorizedAccess)
    ensures r.Ok? <==> FindEventById(db, id).Some? && FindEventById(db, id).value.host.id == currentUser.id
    ensures r.Ok? ==> r.value == FindEventById(db, id).value
  {
    match FindEventById(db, id)
    case None => Err(EventNotFound)
    case Some(event) => if event.host.id != currentUser.id then Err(UnauthorizedAccess) else Ok(event)
  }

  /** `getEventById`. */
  function GetEventById(db: Db, id: int, currentUser: User): (r: Result<Event, Error>)
    ensures r.Ok? ==> r.value in db.events && r.value.id == id && r.value.host.id == currentUser.id
    ensures r.Err? ==> r.error == EventNotFound || r.error == UnauthorizedAccess
    ensures r.Err? && r.error == EventNotFound <==> forall j :: 0 <= j < |db.events| ==> db.events[j].id != id
    ensures r.Ok? <==> FindEventById(db, id).Some? && FindEventById(db, id).value.host.id == currentUser.id
    ensures r.Ok? ==> r.value == FindEventById(db, id).value
  {
    OwnedEvent(db, id, currentUser)
  }

  /** One entry per slot of the event, in slot order: the booked e-mail, null if unbooked. */
  function AttendeeEmails(slots: seq<Slot>): (r: seq<Option<string>>)
    ensures |r| == |slots|
    ensures forall i :: 0 <= i < |slots| ==> r[i] == slots[i].bookedByEmail
  {
    seq(|slots|, i requires 0 <= i < |slots| => slots[i].bookedByEmail)
  }

  /** `deleteEventById`: the guards, then the delete (cascading to the slots), then one
      publication listing the slots' attendees as read before the delete. */
  function DeleteEventById(db: Db, id: int, currentUser: User): (st: Step<()>)
    ensures OwnedEvent(db, id, currentUser).Err? ==> st == Fail(db, OwnedEvent(db, id, currentUser).error)
    ensures st.result.Ok? <==> OwnedEvent(db, id, currentUser).Ok?
    ensures st.result.Ok? ==>
      var e := FindEventById(db, id).value;
      var slots := SlotsOf(db, id);
      && st.db == DeleteEvent(db, id)
      && |st.effects| == 2 && st.effects[0] == DeletedEvent(id)
      && st.effects[1].Published? && st.effects[1].notice.EventCancelled?
      && st.effects[1].notice.eventId == id && st.effects[1].notice.eEventName == e.eventName
      && |st.effects[1].notice.attendeeEmails| == |slots|
      && (forall i :: 0 <= i < |slots| ==> st.effects[1].notice.attendeeEmails[i] == slots[i].bookedByEmail)
  {
    match OwnedEvent(db, id, currentUser)
    case Err(e) => Fail(db, e)
    case Ok(event) =>
      var payload := EventCancelled(event.id, event.eventName, AttendeeEmails(SlotsOf(db, id)));
      Step(Ok(()), DeleteEvent(db, id), [DeletedEvent(id), Published(payload)])
  }

  /** `getEventByShareableId`: only public events are visible. */
  function GetEventByShareableId(db: Db, shareableId: string): (r: Result<Event, Error>)
    ensures var e := FindEventByShareableId(db, shareableId);
      && (e.None? ==> r == Err(EventNotFound))
      && (e.Some? && !e.value.rules.isPublic ==> r == Err(UnauthorizedAccess))
      && (r.Ok? <==> e.Some? && e.value.rules.isPublic)
      && (r.Ok? ==> r.value == e.value && r.value.shareableId == shareableId)
  {
    match FindEventByShareableId(db, shareableId)
    case None => Err(EventNotFound)
    case Some(event) => if !event.rules.isPublic then Err(UnauthorizedAccess) else Ok(event)
  }
}

=== FILE: jwt_filter.dfy ===
/** `JwtAuthenticationFilter`: bearer-token extraction from the Authorization header
    (section 2.1 of RFC 6750) and the decision of `doFilterInternal`. Signature checking,
    claim parsing and the user lookup are library code and come in as oracles; every
    oracle may also throw. */
module JwtFilter {
  import opened Wrappers
  import opened Text

  const BearerPrefix: string := "Bearer "

  /** `getJwtFromRequest`: the header minus its first seven characters, when it has text and
      starts with "Bearer " exactly (case-sensitive, one space); null otherwise. */
  function JwtFromHeader(header: Option<string>): (r: Option<string>)
    ensures r.Some? <==> header.Some? && HasText(header.value) && StartsWith(header.value, BearerPrefix)
    ensures r.Some? ==> BearerPrefix + r.value == header.value
  {
    if header.Some? && HasText(header.value) && StartsWith(header.value, BearerPrefix) then
      var t := header.value[7..];
      assert BearerPrefix + t == header.value;
      Some(t)
    else None
  }

  /** A call that returns a value or throws. */
  datatype Call<T> = Returns(value: T) | Throws

  /** `validateToken`, `getTokenType` (null when the claim is absent), `getEmailFromToken`
      and `loadUserByUsername` (the principal it loads). */
  datatype Oracles = Oracles(
    validate: string -> Call<bool>,
    tokenType: string -> Call<Option<string>>,
    email: string -> Call<string>,
    loadUser: string -> Call<string>)

  /** What one pass of the filter did: how often it invoked the rest of the chain, which
      principal it put into the security context, and whether an exception left it. */
  datatype Run = Run(chainCalls: nat, principal: Option<string>, escaped: bool)

  /** The principal the try block establishes, when every step returns and the token is an
      access token; `None` when a guard fails or a step throws (the catch swallows it). */
  function Principal(jwt: string, o: Oracles): Option<string> {
    if o.validate(jwt) != Returns(true) then None
    else if o.tokenType(jwt) != Returns(Some("access")) then None
    else match o.email(jwt)
      case Throws => None
      case Returns(email) =>
        match o.loadUser(email)
        case Throws => None
        case Returns(user) => Some(user)
  }

  /** The token took the early-return branch: valid, but its type is not "access". */
  predicate WrongType(jwt: string, o: Oracles) {
    && o.validate(jwt) == Returns(true)
    && o.tokenType(jwt).Returns? && o.tokenType(jwt).value.Some?
    && o.tokenType(jwt).value.value != "access"
  }

  function Token(header: Option<string>): Option<string> {
    var jwt := JwtFromHeader(header);
    if jwt.Some? && HasText(jwt.value) then jwt else None
  }

  /** `doFilterInternal` as written. The wrong-type branch calls the chain inside the try;
      when the chain throws there, the catch swallows the exception and control falls
      through to the second call after the try. `chainThrows` says whether the rest of the
      chain throws when invoked. */
  function DoFilterAsWritten(header: Option<string>, o: Oracles, chainThrows: bool): (r: Run)
    ensures r.chainCalls == (if Token(header).Some? && WrongType(Token(header).value, o) && chainThrows then 2 else 1)
    ensures r.escaped == chainThrows
  {
    var jwt := Token(header);
    if jwt.Some? && WrongType(jwt.value, o) then
      if chainThrows then Run(2, None, true) else Run(1, None, false)
    else
      Run(1, if jwt.Some? then Principal(jwt.value, o) else None, chainThrows)
  }

  /** The evidently intended filter: the rest of the chain runs once on every path. */
  function DoFilter(header: Option<string>, o: Oracles, chainThrows: bool): (r: Run)
    ensures r.chainCalls == 1
    ensures r.escaped == chainThrows
  {
    var jwt := Token(header);
    Run(1, if jwt.Some? && !WrongType(jwt.value, o) then Principal(jwt.value, o) else None, chainThrows)
  }

  /** The security context is set exactly when the header carries a non-blank bearer token
      that is valid and of type "access" and whose user loads, and then to that user. */
  lemma AuthenticatedIff(header: Option<string>, o: Oracles, chainThrows: bool)
    ensures var r := DoFilter(header, o, chainThrows);
      && (r.principal.Some? <==>
            && header.Some? && StartsWith(header.value, BearerPrefix) && HasText(header.value[7..])
            && o.validate(header.value[7..]) == Returns(true)
            && o.tokenType(header.value[7..]) == Returns(Some("access"))
            && o.email(header.value[7..]).Returns?
            && o.loadUser(o.email(header.value[7..]).value).Returns?)
      && (r.principal.Some? ==> r.principal == Some(o.loadUser(o.email(header.value[7..]).value).value))
  {
    if header.Some? && StartsWith(header.value, BearerPrefix) {
      assert header.value[0] == 'B';
      assert HasText(header.value);
    }
  }

  /** The two filters agree whenever the rest of the chain does not throw. */
  lemma AsWrittenAgreesWithoutThrow(header: Option<string>, o: Oracles)
    ensures DoFilterAsWritten(header, o, false) == DoFilter(header, o, false)
  {
  }

  /** The input that shows the double call: a valid refresh token and a chain that throws. */
  lemma ChainRunsTwice()
    ensures var o := Oracles(
        (t: string) => Returns(true),
        (t: string) => Returns(Some("refresh")),
        (t: string) => Returns("ann@example.com"),
        (e: string) => Returns(e));
      && DoFilterAsWritten(Some("Bearer x"), o, true).chainCalls == 2
      && DoFilter(Some("Bearer x"), o, true).chainCalls == 1
  {
    var h := "Bearer x";
    assert StartsWith(h, BearerPrefix);
    assert HasText(h) by { assert !IsJavaWhitespace(h[0]); }
    assert h[7..] == "x";
    assert HasText("x") by { assert !IsJavaWhitespace("x"[0]); }
  }

  /** "Bearer " alone yields the empty token, which fails `hasText`: nobody is authenticated
      and no oracle is consulted. */
  lemma BareBearerAuthenticatesNobody(o: Oracles, chainThrows: bool)
    ensures JwtFromHeader(Some("Bearer ")) == Some("")
    ensures Token(Some("Bearer ")) == None
    ensures DoFilter(Some("Bearer "), o, chainThrows) == Run(1, None, chainThrows)
  {
    assert StartsWith("Bearer ", BearerPrefix);
    assert HasText("Bearer ") by { assert !IsJavaWhitespace("Bearer "[0]); }
    assert "Bearer "[7..] == "";
  }

  /** A token of Unicode spaces has no text for `hasText`, unlike for `trim`-based checks:
      "Bearer " followed by an ideographic space authenticates nobody and consults no oracle. */
  lemma UnicodeSpaceTokenAuthenticatesNobody(o: Oracles, chainThrows: bool)
    ensures JwtFromHeader(Some("Bearer \U{3000}")) == Some("\U{3000}")
    ensures !HasText("\U{3000}") && NotBlank("\U{3000}")
    ensures Token(Some("Bearer \U{3000}")) == None
    ensures DoFilter(Some("Bearer \U{3000}"), o, chainThrows) == Run(1, None, chainThrows)
  {
    var h := "Bearer \U{3000}";
    assert StartsWith(h, BearerPrefix);
    assert HasText(h) by { assert !IsJavaWhitespace(h[0]); }
    assert h[7..] == "\U{3000}";
    assert !IsTrimmedAway("\U{3000}"[0]);
  }

  /** The scheme name is matched case-sensitively. */
  lemma LowerCaseSchemeRejected(t: string)
    ensures JwtFromHeader(Some("bearer " + t)) == None
  {
    assert ("bearer " + t)[0] == 'b';
  }
}

=== FILE: names.dfy ===
/** `NameUtils.getUserDisplayName`: first name, then a space and the last name when present, trimmed. */
module NameUtils {
  import opened Wrappers
  import opened Text
  import opened Domain

  /** The untrimmed join the source builds. */
  function JoinNames(first: Option<string>, last: Option<string>): string {
    first.GetOr("") + (if last.Some? then " " + last.value else "")
  }

  /** `getUserDisplayName(User)`. */
  function DisplayName(user: User): (r: string)
    ensures r != [] ==> !IsTrimmedAway(r[0]) && !IsTrimmedAway(r[|r| - 1])
  {
    Trim(JoinNames(user.firstName, user.lastName))
  }

  /** `getUserDisplayName(Event)` and `getUserDisplayName(Slot)` both name the event's host. */
  function EventDisplayName(event: Event): string {
    DisplayName(event.host)
  }

  function SlotDisplayName(slot: Slot): string {
    EventDisplayName(slot.event)
  }

  /** The result for each combination of present names. */
  lemma DisplayNameCases(user: User)
    ensures user.firstName.None? && user.lastName.None? ==> DisplayName(user) == ""
    ensures user.firstName.Some? && user.lastName.None? ==> DisplayName(user) == Trim(user.firstName.value)
    ensures user.firstName.None? && user.lastName.Some? ==> DisplayName(user) == Trim(user.lastName.value)
    ensures user.firstName.Some? && user.lastName.Some? ==>
      DisplayName(user) == Trim(user.firstName.value + " " + user.lastName.value)
  {
    if user.firstName.None? && user.lastName.Some? {
      assert JoinNames(user.firstName, user.lastName) == " " + user.lastName.value;
      TrimDropsLeading(" ", user.lastName.value);
    }
    if user.firstName.Some? && user.lastName.None? {
      assert JoinNames(user.firstName, user.lastName) == user.firstName.value;
    }
    if user.firstName.None? && user.lastName.None? {
      assert JoinNames(user.firstName, user.lastName) == "";
    }
    if user.firstName.Some? && user.lastName.Some? {
      assert JoinNames(user.firstName, user.lastName) == user.firstName.value + " " + user.lastName.value;
    }
  }

  /** Names without edge blanks are joined by exactly one space. */
  lemma DisplayNameOfCleanNames(user: User, first: string, last: string)
    requires user.firstName == Some(first) && user.lastName == Some(last)
    requires first != [] && !IsTrimmedAway(first[0])
    requires last != [] && !IsTrimmedAway(last[|last| - 1])
    ensures DisplayName(user) == first + " " + last
  {
    var j := first + " " + last;
    assert j[0] == first[0] && j[|j| - 1] == last[|last| - 1];
    TrimOfTrimmed(j);
  }

  /** The Event and Slot overloads agree with the User overload applied to the host. */
  lemma OverloadsNameTheHost(slot: Slot)
    ensures SlotDisplayName(slot) == EventDisplayName(slot.event) == DisplayName(slot.event.host)
  {
  }
}

=== FILE: numerals.dfy ===
/** Decimal text of integers as Java's string concatenation and `Long.toString` produce
    it, and the zero-padded fields of a date-time pattern, each with its parser. */
module Numerals {
  import opened Wrappers
  import opened Text

  function DigitChar(d: nat): (c: char)
    requires d < 10
    ensures IsDigit(c)
  {
    ('0' as int + d) as char
  }

  function DigitValue(c: char): (d: nat)
    requires IsDigit(c)
    ensures d < 10 && DigitChar(d) == c
  {
    c as int - '0' as int
  }

  predicate AllDigits(s: string) {
    forall k :: 0 <= k < |s| ==> IsDigit(s[k])
  }

  /** The shortest decimal text of `n`: no leading zero except for 0 itself. */
  function NatToString(n: nat): (r: string)
    ensures |r| > 0 && AllDigits(r)
    ensures |r| > 1 ==> r[0] != '0'
    decreases n
  {
    if n < 10 then [DigitChar(n)] else NatToString(n / 10) + [DigitChar(n % 10)]
  }

  /** The value of a digit string, most significant digit first. */
  function ParseNat(s: string): nat
    requires AllDigits(s)
    decreases |s|
  {
    if s == [] then 0 else ParseNat(s[..|s| - 1]) * 10 + DigitValue(s[|s| - 1])
  }

  lemma {:induction false} ParseNatToString(n: nat)
    ensures ParseNat(NatToString(n)) == n
    decreases n
  {
    if n >= 10 {
      var r := NatToString(n);
      assert r[..|r| - 1] == NatToString(n / 10);
      ParseNatToString(n / 10);
    }
  }

  /** `Long.toString`: a minus sign before the digits of a negative value. */
  function LongToString(i: int): (r: string)
    ensures i >= 0 ==> r == NatToString(i)
    ensures i < 0 ==> r == "-" + NatToString(-i)
  {
    if i < 0 then "-" + NatToString(-i) else NatToString(i)
  }

  /** Reads back the text of `LongToString`. */
  function ParseLong(s: string): Option<int>
  {
    if |s| > 0 && s[0] == '-' && AllDigits(s[1..]) && |s| > 1 then Some(-(ParseNat(s[1..]) as int))
    else if |s| > 0 && AllDigits(s) then Some(ParseNat(s))
    else None
  }

  lemma ParseLongToString(i: int)
    ensures ParseLong(LongToString(i)) == Some(i)
  {
    var r := LongToString(i);
    if i < 0 {
      var t := NatToString(-i);
      assert r == "-" + t;
      assert r[1..] == t;
      ParseNatToString(-i);
      assert ParseLong(r) == Some(-(ParseNat(t) as int));
    } else {
      assert IsDigit(r[0]);
      ParseNatToString(i);
      assert ParseLong(r) == Some(ParseNat(r));
    }
  }

  /** Different values have different texts. */
  lemma LongToStringInjective(i: int, j: int)
    requires LongToString(i) == LongToString(j)
    ensures i == j
  {
    ParseLongToString(i);
    ParseLongToString(j);
  }

  function Pow10(w: nat): (p: nat)
    ensures p > 0
  {
    if w == 0 then 1 else 10 * Pow10(w - 1)
  }

  /** The `w` lowest decimal digits of `n`, zero-padded: a pattern field of width `w`. */
  function Padded(n: nat, w: nat): (r: string)
    ensures |r| == w && AllDigits(r)
  {
    if w == 0 then [] else Padded(n / 10, w - 1) + [DigitChar(n % 10)]
  }

  lemma {:induction false} ParsePadded(n: nat, w: nat)
    requires n < Pow10(w)
    ensures ParseNat(Padded(n, w)) == n
  {
    if w > 0 {
      var r := Padded(n, w);
      assert r[..|r| - 1] == Padded(n / 10, w - 1);
      ParsePadded(n / 10, w - 1);
    }
  }
}

=== FILE: partition.dfy ===
/** The two slot partitioners: the current one (feature/slot/SlotService.generateSlots),
    which emits `[cursor, cursor + d)` while `cursor <= end - d`, and the legacy one
    (service/SlotService.generateSlots), which emits while `cursor < end` and so may
    overrun the event end. Times are minutes. */
module Partition {

  /** A half-open slot interval `[start, end)`. */
  datatype Span = Span(start: int, end: int)

  /** The `i`-th cell of the grid of length-`d` cells starting at `s`. */
  function Cell(s: int, d: int, i: int): Span {
    Span(s + i * d, s + (i + 1) * d)
  }

  /** The first `n` cells of the grid starting at `s`: the closed form both loops are compared with. */
  function Grid(s: int, d: int, n: nat): (g: seq<Span>)
    ensures |g| == n
    ensures forall i :: 0 <= i < n ==> g[i] == Cell(s, d, i)
  {
    seq(n, i => Cell(s, d, i))
  }

  /** Number of slots the current partitioner emits: whole cells that fit, none when `e < s`. */
  function FeatureCount(s: int, e: int, d: int): nat
    requires d > 0
  {
    if e < s then 0 else (e - s) / d
  }

  /** Number of slots the legacy partitioner emits: cells whose start lies before `e`. */
  function LegacyCount(s: int, e: int, d: int): nat
    requires d > 0
  {
    if e <= s then 0 else (e - s + d - 1) / d
  }

  /** The current loop, `while (!start.isAfter(end.minusMinutes(d)))`, as a recursion. */
  function FeatureSpans(start: int, end: int, d: int): seq<Span>
    requires d > 0
    decreases end - start
  {
    if start <= end - d then [Span(start, start + d)] + FeatureSpans(start + d, end, d)
    else []
  }

  /** The legacy loop, `while (start.isBefore(end))`, as a recursion. */
  function LegacySpans(start: int, end: int, d: int): seq<Span>
    requires d > 0
    decreases end - start
  {
    if start < end then [Span(start, start + d)] + LegacySpans(start + d, end, d)
    else []
  }

  /** The legacy loop for any duration, cut off after `fuel` rounds: the rows saved by the
      time it stops, or by round `fuel` if it has not stopped by then. */
  function LegacyRounds(start: int, end: int, d: int, fuel: nat): (r: seq<Span>)
    ensures |r| <= fuel
    decreases fuel
  {
    if fuel == 0 || !(start < end) then []
    else [Span(start, start + d)] + LegacyRounds(start + d, end, d, fuel - 1)
  }

  /** Uniqueness of Euclidean quotient and remainder. */
  lemma DivMod(x: int, d: int, q: int, r: int)
    requires d > 0 && 0 <= r < d && x == d * q + r
    ensures x / d == q && x % d == r
  {
    var q0, r0 := x / d, x % d;
    assert x == d * q0 + r0;
    if q0 > q {
      assert d * q0 >= d * (q + 1) by { MulMono(d, q + 1, q0); }
    } else if q0 < q {
      assert d * q >= d * (q0 + 1) by { MulMono(d, q0 + 1, q); }
    }
  }

  lemma MulMono(d: int, a: int, b: int)
    requires d > 0 && a <= b
    ensures d * a <= d * b
  {
  }

  /** Cell `i + 1` of a grid is cell `i` of the grid one cell later. */
  lemma CellShift(s: int, d: int, i: int)
    ensures Cell(s, d, i + 1) == Cell(s + d, d, i)
  {
    assert (i + 1) * d == i * d + d;
    assert (i + 2) * d == (i + 1) * d + d;
  }

  /** Every cell has length `d` and ends where the next one starts. */
  lemma CellLength(s: int, d: int, i: int)
    ensures Cell(s, d, i).end - Cell(s, d, i).start == d
    ensures Cell(s, d, i).end == Cell(s, d, i + 1).start
  {
    assert (i + 1) * d == i * d + d;
  }

  /** Later cells start and end later. */
  lemma CellMono(s: int, d: int, i: int, j: int)
    requires d > 0 && i <= j
    ensures Cell(s, d, i).start <= Cell(s, d, j).start
    ensures Cell(s, d, i).end <= Cell(s, d, j).start || i == j
  {
    MulMono(d, i, j);
    if i < j {
      MulMono(d, i + 1, j);
    }
    assert i * d == d * i && j * d == d * j && (i + 1) * d == d * (i + 1);
  }

  /** Shifting the grid's origin by one cell drops the first cell. */
  lemma GridStep(s: int, d: int, n: nat)
    requires d > 0
    ensures Grid(s, d, n + 1) == [Cell(s, d, 0)] + Grid(s + d, d, n)
  {
    var a := Grid(s, d, n + 1);
    var b := [Cell(s, d, 0)] + Grid(s + d, d, n);
    forall i | 0 <= i < n + 1
      ensures a[i] == b[i]
    {
      if i > 0 {
        assert b[i] == Cell(s + d, d, i - 1);
        CellShift(s, d, i - 1);
      }
    }
  }

  /** Extending the grid by one cell appends cell `n`. */
  lemma GridSnoc(s: int, d: int, n: nat)
    ensures Grid(s, d, n + 1) == Grid(s, d, n) + [Cell(s, d, n)]
  {
  }

  /** The current count drops by one per emitted cell, and is zero once no cell fits. */
  lemma FeatureCountStep(s: int, e: int, d: int)
    requires d > 0
    ensures s <= e - d ==> FeatureCount(s, e, d) >= 1 && FeatureCount(s + d, e, d) == FeatureCount(s, e, d) - 1
    ensures s > e - d ==> FeatureCount(s, e, d) == 0
  {
    if s <= e - d {
      var q, r := (e - s) / d, (e - s) % d;
      DivMod(e - s, d, q, r);
      DivMod(e - (s + d), d, q - 1, r);
    } else if e >= s {
      DivMod(e - s, d, 0, e - s);
    }
  }

  /** The legacy count drops by one per emitted cell, and is zero once the start reaches the end. */
  lemma LegacyCountStep(s: int, e: int, d: int)
    requires d > 0
    ensures s < e ==> LegacyCount(s, e, d) >= 1 && LegacyCount(s + d, e, d) == LegacyCount(s, e, d) - 1
  {
    if s < e {
      var x := e - s + d - 1;
      var q, r := x / d, x % d;
      DivMod(x, d, q, r);
      if s + d < e {
        DivMod(x - d, d, q - 1, r);
      } else {
        DivMod(x, d, 1, x - d);
      }
    }
  }

  /** The current partitioner emits exactly the cells `[s + i*d, s + (i+1)*d)` for
      `0 <= i < FeatureCount(s, e, d)`. */
  lemma {:induction false} FeatureSpansClosedForm(s: int, e: int, d: int)
    requires d > 0
    ensures FeatureSpans(s, e, d) == Grid(s, d, FeatureCount(s, e, d))
    decreases e - s
  {
    FeatureCountStep(s, e, d);
    if s <= e - d {
      FeatureSpansClosedForm(s + d, e, d);
      GridStep(s, d, FeatureCount(s + d, e, d));
    }
  }

  /** The legacy partitioner emits the cells for `0 <= i < LegacyCount(s, e, d)`. */
  lemma {:induction false} LegacySpansClosedForm(s: int, e: int, d: int)
    requires d > 0
    ensures LegacySpans(s, e, d) == Grid(s, d, LegacyCount(s, e, d))
    decreases e - s
  {
    LegacyCountStep(s, e, d);
    if s < e {
      LegacySpansClosedForm(s + d, e, d);
      GridStep(s, d, LegacyCount(s + d, e, d));
    }
  }

  /** The last current cell ends inside the window, and a further cell would not fit. */
  lemma FeatureCountBounds(s: int, e: int, d: int)
    requires d > 0 && e >= s
    ensures var n := FeatureCount(s, e, d); s + n * d <= e < s + (n + 1) * d
  {
    var n, r := (e - s) / d, (e - s) % d;
    DivMod(e - s, d, n, r);
    assert n * d == d * n && (n + 1) * d == d * n + d;
  }

  /** The last legacy cell starts inside the window, and it reaches the end. */
  lemma LegacyCountBounds(s: int, e: int, d: int)
    requires d > 0 && e > s
    ensures var n := LegacyCount(s, e, d); n >= 1 && s + (n - 1) * d < e <= s + n * d
  {
    var x := e - s + d - 1;
    var n, r := x / d, x % d;
    DivMod(x, d, n, r);
    assert (n - 1) * d == d * n - d && n * d == d * n;
  }

  /** The cells of the current partitioner are contiguous, of length `d`, start at `s`
      and all lie inside `[s, e]`; a cell ending exactly at `e` is included. */
  lemma FeatureSpansShape(s: int, e: int, d: int)
    requires d > 0
    ensures var r := FeatureSpans(s, e, d);
      && |r| == FeatureCount(s, e, d)
      && (forall i :: 0 <= i < |r| ==> r[i].end - r[i].start == d && s <= r[i].start && r[i].end <= e)
      && (forall i :: 0 <= i < |r| - 1 ==> r[i].end == r[i + 1].start)
      && (|r| > 0 ==> r[0].start == s)
      && (s <= e - d ==> |r| > 0)
  {
    FeatureSpansClosedForm(s, e, d);
    FeatureCountStep(s, e, d);
    var r := FeatureSpans(s, e, d);
    var n := FeatureCount(s, e, d);
    if n > 0 {
      FeatureCountBounds(s, e, d);
      CellLength(s, d, n - 1);
      assert r[0] == Cell(s, d, 0);
    }
    forall i | 0 <= i < |r|
      ensures r[i].end - r[i].start == d && s <= r[i].start && r[i].end <= e
    {
      CellLength(s, d, i);
      CellMono(s, d, 0, i);
      CellMono(s, d, i, n - 1);
      CellLength(s, d, n - 1);
    }
    forall i | 0 <= i < |r| - 1 ensures r[i].end == r[i + 1].start {
      CellLength(s, d, i);
    }
  }

  /** No two cells of the current partitioner overlap: earlier cells end before later ones start. */
  lemma FeatureSpansDisjoint(s: int, e: int, d: int)
    requires d > 0
    ensures var r := FeatureSpans(s, e, d);
      forall i, j :: 0 <= i < j < |r| ==> r[i].end <= r[j].start
  {
    FeatureSpansClosedForm(s, e, d);
    var r := FeatureSpans(s, e, d);
    forall i, j | 0 <= i < j < |r|
      ensures r[i].end <= r[j].start
    {
      CellMono(s, d, i, j);
    }
  }

  /** A window shorter than one slot, or a reversed window, gives no slots. */
  lemma FeatureSpansEmpty(s: int, e: int, d: int)
    requires d > 0
    ensures FeatureSpans(s, e, d) == [] <==> e - s < d
  {
  }

  /** When `d` does not divide a non-empty window, the legacy loop emits one cell more than
      the current one, and its last cell straddles the end. */
  lemma LegacyLastCell(s: int, e: int, d: int)
    requires d > 0 && e > s && (e - s) % d != 0
    ensures var k := FeatureCount(s, e, d);
      && LegacyCount(s, e, d) == k + 1
      && Cell(s, d, k).start < e < Cell(s, d, k).end
  {
    var q, r := (e - s) / d, (e - s) % d;
    DivMod(e - s, d, q, r);
    DivMod(e - s + d - 1, d, q + 1, r - 1);
    assert q * d == d * q && (q + 1) * d == d * q + d;
  }

  /** When `d` divides the window, or the window is reversed, both counts agree. */
  lemma CountsAgree(s: int, e: int, d: int)
    requires d > 0 && (e < s || (e - s) % d == 0)
    ensures LegacyCount(s, e, d) == FeatureCount(s, e, d)
  {
    if e > s {
      var q := (e - s) / d;
      DivMod(e - s, d, q, 0);
      DivMod(e - s + d - 1, d, q, d - 1);
    }
  }

  /** When `d` divides the window the two partitioners agree; otherwise the legacy one
      emits exactly one extra cell, and that cell ends after the event end. */
  lemma LegacyVersusFeature(s: int, e: int, d: int)
    requires d > 0
    ensures e < s || (e - s) % d == 0 ==> LegacySpans(s, e, d) == FeatureSpans(s, e, d)
    ensures e > s && (e - s) % d != 0 ==>
      var k := FeatureCount(s, e, d);
      && LegacySpans(s, e, d) == FeatureSpans(s, e, d) + [Cell(s, d, k)]
      && Cell(s, d, k).start < e < Cell(s, d, k).end
  {
    FeatureSpansClosedForm(s, e, d);
    LegacySpansClosedForm(s, e, d);
    if e < s || (e - s) % d == 0 {
      CountsAgree(s, e, d);
    } else if e > s {
      LegacyLastCell(s, e, d);
      GridSnoc(s, d, FeatureCount(s, e, d));
    }
  }

  /** Every legacy cell starts before the event end and has length `d`. */
  lemma LegacySpansShape(s: int, e: int, d: int)
    requires d > 0
    ensures var r := LegacySpans(s, e, d);
      && |r| == LegacyCount(s, e, d)
      && (forall i :: 0 <= i < |r| ==> r[i].end - r[i].start == d && s <= r[i].start < e)
      && (forall i :: 0 <= i < |r| - 1 ==> r[i].end == r[i + 1].start)
  {
    LegacySpansClosedForm(s, e, d);
    var r := LegacySpans(s, e, d);
    var n := LegacyCount(s, e, d);
    if e > s {
      LegacyCountBounds(s, e, d);
    }
    forall i | 0 <= i < |r|
      ensures r[i].end - r[i].start == d && s <= r[i].start < e
    {
      CellLength(s, d, i);
      CellMono(s, d, 0, i);
      CellMono(s, d, i, n - 1);
    }
    forall i | 0 <= i < |r| - 1 ensures r[i].end == r[i + 1].start {
      CellLength(s, d, i);
    }
  }

  /** The example window 10:00-12:00 with 30-minute slots gives four slots. */
  lemma ExampleTwoHoursHalfHours()
    ensures FeatureSpans(600, 720, 30) == [Span(600, 630), Span(630, 660), Span(660, 690), Span(690, 720)]
  {
  }

  /** The example window 09:00-10:00 with 90-minute slots gives none. */
  lemma ExampleTooShort()
    ensures FeatureSpans(540, 600, 90) == []
  {
  }

  /** With a positive duration and enough rounds, the loop stops with the rows the
      recursion gives. */
  lemma {:induction false} LegacyRoundsStop(s: int, e: int, d: int, fuel: nat)
    requires d > 0 && fuel >= LegacyCount(s, e, d)
    ensures LegacyRounds(s, e, d, fuel) == LegacySpans(s, e, d)
    decreases fuel
  {
    LegacyCountStep(s, e, d);
    if s < e {
      LegacyRoundsStop(s + d, e, d, fuel - 1);
    }
  }

  /** With a duration of zero or less the cursor never reaches the end: every bound on
      the rounds is used up, one more row each round, the rows walking backwards from the
      start (or standing still on it). */
  lemma {:induction false} NonPositiveDurationNeverStops(s: int, e: int, d: int, fuel: nat)
    requires d <= 0 && s < e
    ensures LegacyRounds(s, e, d, fuel) == Grid(s, d, fuel)
    decreases fuel
  {
    if fuel > 0 {
      NonPositiveDurationNeverStops(s + d, e, d, fuel - 1);
      var r := LegacyRounds(s, e, d, fuel);
      assert r == [Cell(s, d, 0)] + Grid(s + d, d, fuel - 1);
      forall i | 0 <= i < fuel ensures r[i] == Cell(s, d, i) {
        if i > 0 {
          CellShift(s, d, i - 1);
        }
      }
    }
  }

  /** A zero duration saves the empty interval at the start, round after round. */
  lemma ZeroDurationRepeatsStart(s: int, e: int, fuel: nat)
    requires s < e
    ensures |LegacyRounds(s, e, 0, fuel)| == fuel
    ensures forall i :: 0 <= i < fuel ==> LegacyRounds(s, e, 0, fuel)[i] == Span(s, s)
  {
    NonPositiveDurationNeverStops(s, e, 0, fuel);
  }
}

=== FILE: rate_limit.dfy ===
/** The parts of `RateLimitService` that are the repository's own logic: which client a
    request is charged to (`getClientIp`) and how the bucket cache keys are namespaced.
    The token buckets themselves are library code. */
module RateLimit {
  import opened Wrappers
  import opened Text

  /** Position of the first comma, or `|s|`. */
  function FirstComma(s: string): (k: nat)
    ensures k <= |s|
    ensures k < |s| ==> s[k] == ','
    ensures forall j :: 0 <= j < k ==> s[j] != ','
  {
    if s == [] then 0 else if s[0] == ',' then 0 else 1 + FirstComma(s[1..])
  }

  /** The comma-separated fields of `s`, empty ones included. */
  function Fields(s: string): (r: seq<string>)
    ensures |r| > 0
    decreases |s|
  {
    var k := FirstComma(s);
    if k == |s| then [s] else [s[..k]] + Fields(s[k + 1..])
  }

  function DropTrailingEmpty(fs: seq<string>): (r: seq<string>)
    ensures |r| <= |fs| && r == fs[..|r|]
    ensures r != [] ==> r[|r| - 1] != ""
    ensures forall j :: |r| <= j < |fs| ==> fs[j] == ""
  {
    if fs != [] && fs[|fs| - 1] == "" then DropTrailingEmpty(fs[..|fs| - 1]) else fs
  }

  /** `String.split(",")`: the fields, with trailing empty fields removed, except that
      the empty string splits into one empty field. */
  function JavaSplit(s: string): seq<string> {
    if s == "" then [""] else DropTrailingEmpty(Fields(s))
  }

  predicate AllCommas(s: string) {
    forall k :: 0 <= k < |s| ==> s[k] == ','
  }

  lemma {:induction false} FieldsAllEmpty(s: string)
    ensures AllCommas(s) ==> forall j :: 0 <= j < |Fields(s)| ==> Fields(s)[j] == ""
    ensures !AllCommas(s) ==> exists j :: 0 <= j < |Fields(s)| && Fields(s)[j] != ""
    decreases |s|
  {
    var k := FirstComma(s);
    if k < |s| {
      FieldsAllEmpty(s[k + 1..]);
      var fs := Fields(s);
      assert fs == [s[..k]] + Fields(s[k + 1..]);
      if AllCommas(s) {
        assert k == 0;
        assert AllCommas(s[k + 1..]);
        forall j | 0 <= j < |fs| ensures fs[j] == "" {
          if j > 0 {
            assert fs[j] == Fields(s[k + 1..])[j - 1];
          }
        }
      } else if k == 0 {
        var i :| 0 <= i < |s| && s[i] != ',';
        assert s[k + 1..][i - 1] == s[i];
        var j :| 0 <= j < |Fields(s[k + 1..])| && Fields(s[k + 1..])[j] != "";
        assert fs[j + 1] != "";
      } else {
        assert fs[0] != "";
      }
    } else if s != [] {
      assert Fields(s) == [s];
      assert Fields(s)[0] != "";
      assert s[0] != ',';
    }
  }

  /** The split array is empty exactly for a non-empty string of commas only. */
  lemma SplitEmptyIffCommas(s: string)
    ensures JavaSplit(s) == [] <==> s != "" && AllCommas(s)
  {
    if s != "" {
      FieldsAllEmpty(s);
      var fs := Fields(s);
      var r := DropTrailingEmpty(fs);
      if !AllCommas(s) {
        var j :| 0 <= j < |fs| && fs[j] != "";
        assert |r| > j;
      }
    }
  }

  /** When the split array has an element, its first is the text before the first comma. */
  lemma SplitHead(s: string)
    requires JavaSplit(s) != []
    ensures JavaSplit(s)[0] == s[..FirstComma(s)]
  {
    if s != "" {
      var fs := Fields(s);
      assert fs[0] == s[..FirstComma(s)];
      assert JavaSplit(s)[0] == fs[0];
    }
  }

  datatype IpError = SplitIndexOutOfBounds

  /** `getClientIp`: the first hop of a non-empty `X-Forwarded-For`, trimmed; otherwise the
      peer address. A header made only of commas splits into nothing and indexing fails. */
  function ClientIp(forwardedFor: Option<string>, remoteAddr: string): (r: Result<string, IpError>)
    ensures forwardedFor.None? || forwardedFor == Some("") ==> r == Ok(remoteAddr)
    ensures forwardedFor.Some? && forwardedFor.value != "" ==>
      var h := forwardedFor.value;
      && (AllCommas(h) <==> r == Err(SplitIndexOutOfBounds))
      && (!AllCommas(h) ==> r == Ok(Trim(h[..FirstComma(h)])))
  {
    if forwardedFor.Some? && forwardedFor.value != "" then
      var parts := JavaSplit(forwardedFor.value);
      SplitEmptyIffCommas(forwardedFor.value);
      if |parts| == 0 then Err(SplitIndexOutOfBounds)
      else
        SplitHead(forwardedFor.value);
        Ok(Trim(parts[0]))
    else Ok(remoteAddr)
  }

  lemma TrimKeepsNoComma(f: string)
    requires forall k :: 0 <= k < |f| ==> f[k] != ','
    ensures forall k :: 0 <= k < |Trim(f)| ==> Trim(f)[k] != ','
  {
    var t := Trim(f);
    var i, j := Lead(f), Lead(f) + |t|;
    forall k | 0 <= k < |t| ensures t[k] != ',' {
      assert t[k] == f[i + k];
    }
  }

  /** An address taken from the header holds no comma and has no blank edges. */
  lemma HeaderAddressIsClean(h: string, remoteAddr: string)
    requires h != "" && ClientIp(Some(h), remoteAddr).Ok?
    ensures var ip := ClientIp(Some(h), remoteAddr).value;
      && (forall k :: 0 <= k < |ip| ==> ip[k] != ',')
      && (ip != [] ==> !IsTrimmedAway(ip[0]) && !IsTrimmedAway(ip[|ip| - 1]))
  {
    TrimKeepsNoComma(h[..FirstComma(h)]);
  }

  lemma FirstCommaAfter(a: string, b: string)
    requires forall k :: 0 <= k < |a| ==> a[k] != ','
    ensures FirstComma(a + "," + b) == |a|
  {
    var s := a + "," + b;
    assert s[|a|] == ',';
    assert forall k :: 0 <= k < |a| ==> s[k] == a[k];
  }

  /** The first hop wins: whatever follows the first comma is ignored. */
  lemma FirstHopWins(a: string, b: string, remoteAddr: string)
    requires a != [] && forall k :: 0 <= k < |a| ==> a[k] != ','
    ensures ClientIp(Some(a + "," + b), remoteAddr) == Ok(Trim(a))
  {
    var h := a + "," + b;
    FirstCommaAfter(a, b);
    assert h[..|a|] == a;
    assert h[0] == a[0];
  }

  /** A non-empty header wins even when its first field trims to nothing, as " ,x" does. */
  lemma BlankFirstHop(a: string, b: string, remoteAddr: string)
    requires a != [] && forall k :: 0 <= k < |a| ==> IsTrimmedAway(a[k]) && a[k] != ','
    ensures ClientIp(Some(a + "," + b), remoteAddr) == Ok("")
  {
    FirstHopWins(a, b, remoteAddr);
  }

  /** The five limits, each with its own namespace in the shared bucket cache. */
  datatype Limit = Global | Login | Register | Booking | PasswordReset

  function Prefix(l: Limit): string {
    match l
    case Global => "global:"
    case Login => "login:"
    case Register => "register:"
    case Booking => "email:"
    case PasswordReset => "password-reset:"
  }

  /** The key under which the cache keeps the bucket of `id` (an IP or an e-mail). */
  function BucketKey(l: Limit, id: string): string {
    Prefix(l) + id
  }

  /** Keys of different limits never collide, and one limit's keys tell its clients apart. */
  lemma BucketKeysApart(l1: Limit, id1: string, l2: Limit, id2: string)
    requires BucketKey(l1, id1) == BucketKey(l2, id2)
    ensures l1 == l2 && id1 == id2
  {
    var k1, k2 := BucketKey(l1, id1), BucketKey(l2, id2);
    assert k1[0] == Prefix(l1)[0] && k2[0] == Prefix(l2)[0];
    assert l1 == l2;
    var n := |Prefix(l1)|;
    assert id1 == k1[n..] && id2 == k2[n..];
  }
}

=== FILE: seqs.dfy ===
/** Sequence queries the repository methods are built from: first match, filter, count. */
module Seqs {
  import opened Wrappers

  /** Index of the first element satisfying `p`, as `Optional` lookups return the first row. */
  function FirstIndex<T>(xs: seq<T>, p: T -> bool): (r: Option<nat>)
    ensures r.Some? ==> r.value < |xs| && p(xs[r.value])
    ensures r.Some? ==> forall j :: 0 <= j < r.value ==> !p(xs[j])
    ensures r.None? ==> forall j :: 0 <= j < |xs| ==> !p(xs[j])
  {
    if |xs| == 0 then None
    else if p(xs[0]) then Some(0)
    else match FirstIndex(xs[1..], p)
      case None => None
      case Some(k) => Some(k + 1)
  }

  /** The elements satisfying `p`, in their original order. */
  function Filter<T>(xs: seq<T>, p: T -> bool): (r: seq<T>)
    ensures forall i :: 0 <= i < |r| ==> r[i] in xs && p(r[i])
    ensures forall j :: 0 <= j < |xs| && p(xs[j]) ==> xs[j] in r
    ensures |r| <= |xs|
  {
    if |xs| == 0 then []
    else (if p(xs[0]) then [xs[0]] else []) + Filter(xs[1..], p)
  }

  /** Number of elements satisfying `p`. */
  function Count<T>(xs: seq<T>, p: T -> bool): (n: nat)
    ensures n <= |xs|
    ensures n == 0 <==> forall j :: 0 <= j < |xs| ==> !p(xs[j])
  {
    if |xs| == 0 then 0
    else (if p(xs[0]) then 1 else 0) + Count(xs[1..], p)
  }

  /** Replacing one element changes the count by that element's contribution only. */
  lemma {:induction false} CountUpdate<T>(xs: seq<T>, k: nat, x: T, p: T -> bool)
    requires k < |xs|
    ensures Count(xs[k := x], p) == Count(xs, p) - (if p(xs[k]) then 1 else 0) + (if p(x) then 1 else 0)
  {
    if k > 0 {
      CountUpdate(xs[1..], k - 1, x, p);
      assert xs[k := x][1..] == xs[1..][k - 1 := x];
    } else {
      assert xs[k := x][1..] == xs[1..];
    }
  }

  /** A filter keeps each satisfying element once: its length is the count. */
  lemma {:induction false} FilterLength<T>(xs: seq<T>, p: T -> bool)
    ensures |Filter(xs, p)| == Count(xs, p)
  {
    if |xs| > 0 {
      FilterLength(xs[1..], p);
    }
  }

  /** One element satisfying `p`, and no other, gives a count of one. */
  lemma {:induction false} CountSingle<T>(xs: seq<T>, p: T -> bool, k: nat)
    requires k < |xs| && p(xs[k])
    requires forall j :: 0 <= j < |xs| && j != k ==> !p(xs[j])
    ensures Count(xs, p) == 1
  {
    var rest := xs[1..];
    if k == 0 {
      forall j | 0 <= j < |rest| ensures !p(rest[j]) {
        assert rest[j] == xs[j + 1];
      }
    } else {
      forall j | 0 <= j < |rest| && j != k - 1 ensures !p(rest[j]) {
        assert rest[j] == xs[j + 1];
      }
      CountSingle(rest, p, k - 1);
    }
  }

  /** A count above one has two distinct witnesses. */
  lemma {:induction false} CountTwoWitnesses<T>(xs: seq<T>, p: T -> bool) returns (i: nat, j: nat)
    requires Count(xs, p) > 1
    ensures i < j < |xs| && p(xs[i]) && p(xs[j])
  {
    var rest := xs[1..];
    if p(xs[0]) {
      assert Count(rest, p) != 0;
      var m :| 0 <= m < |rest| && p(rest[m]);
      i, j := 0, m + 1;
    } else {
      var a, b := CountTwoWitnesses(rest, p);
      i, j := a + 1, b + 1;
    }
  }

  /** Count distributes over concatenation. */
  lemma {:induction false} CountAppend<T>(xs: seq<T>, ys: seq<T>, p: T -> bool)
    ensures Count(xs + ys, p) == Count(xs, p) + Count(ys, p)
  {
    if |xs| > 0 {
      CountAppend(xs[1..], ys, p);
      assert (xs + ys)[1..] == xs[1..] + ys;
    } else {
      assert xs + ys == ys;
    }
  }

  /** Filtering keeps every pairwise property of the original order. */
  lemma {:induction false} FilterPairwise<T>(xs: seq<T>, p: T -> bool, rel: (T, T) -> bool)
    requires forall i, j :: 0 <= i < j < |xs| ==> rel(xs[i], xs[j])
    ensures forall i, j :: 0 <= i < j < |Filter(xs, p)| ==> rel(Filter(xs, p)[i], Filter(xs, p)[j])
  {
    if |xs| > 0 {
      var rest := xs[1..];
      PairwiseTail(xs, rel);
      FilterPairwise(rest, p, rel);
      var fr := Filter(rest, p);
      assert Filter(xs, p) == (if p(xs[0]) then [xs[0]] else []) + fr;
      if p(xs[0]) {
        HeadRelatesFiltered(xs, p, rel);
        PairwiseCons(xs[0], fr, rel);
      } else {
        assert Filter(xs, p) == fr;
      }
    }
  }

  lemma PairwiseTail<T>(xs: seq<T>, rel: (T, T) -> bool)
    requires |xs| > 0 && forall i, j :: 0 <= i < j < |xs| ==> rel(xs[i], xs[j])
    ensures forall i, j :: 0 <= i < j < |xs| - 1 ==> rel(xs[1..][i], xs[1..][j])
  {
    forall i, j | 0 <= i < j < |xs| - 1 ensures rel(xs[1..][i], xs[1..][j]) {
      assert xs[1..][i] == xs[i + 1] && xs[1..][j] == xs[j + 1];
    }
  }

  lemma HeadRelatesFiltered<T>(xs: seq<T>, p: T -> bool, rel: (T, T) -> bool)
    requires |xs| > 0 && forall i, j :: 0 <= i < j < |xs| ==> rel(xs[i], xs[j])
    ensures forall j :: 0 <= j < |Filter(xs[1..], p)| ==> rel(xs[0], Filter(xs[1..], p)[j])
  {
    var rest := xs[1..];
    var fr := Filter(rest, p);
    forall j | 0 <= j < |fr| ensures rel(xs[0], fr[j]) {
      var k :| 0 <= k < |rest| && rest[k] == fr[j];
      assert xs[k + 1] == fr[j];
    }
  }

  lemma PairwiseCons<T>(x: T, ys: seq<T>, rel: (T, T) -> bool)
    requires forall i, j :: 0 <= i < j < |ys| ==> rel(ys[i], ys[j])
    requires forall j :: 0 <= j < |ys| ==> rel(x, ys[j])
    ensures forall i, j :: 0 <= i < j < |ys| + 1 ==> rel(([x] + ys)[i], ([x] + ys)[j])
  {
    var r := [x] + ys;
    forall i, j | 0 <= i < j < |r| ensures rel(r[i], r[j]) {
      if i == 0 {
        assert r[j] == ys[j - 1];
      } else {
        assert r[i] == ys[i - 1] && r[j] == ys[j - 1];
      }
    }
  }

  /** The first-match index is the only match when matches are pairwise exclusive. */
  lemma FirstIndexUnique<T>(xs: seq<T>, p: T -> bool, k: nat)
    requires forall i, j :: 0 <= i < j < |xs| ==> !(p(xs[i]) && p(xs[j]))
    requires k < |xs| && p(xs[k])
    ensures FirstIndex(xs, p) == Some(k)
  {
    var r := FirstIndex(xs, p);
    assert r.Some?;
  }

  /** Filtering by a weaker predicate first changes nothing. */
  lemma {:induction false} FilterNarrow<T>(xs: seq<T>, p: T -> bool, q: T -> bool)
    requires forall j :: 0 <= j < |xs| && q(xs[j]) ==> p(xs[j])
    ensures Filter(Filter(xs, p), q) == Filter(xs, q)
  {
    if |xs| > 0 {
      FilterNarrow(xs[1..], p, q);
      var head: seq<T> := if p(xs[0]) then [xs[0]] else [];
      assert Filter(xs, p) == head + Filter(xs[1..], p);
      FilterAppend(head, Filter(xs[1..], p), q);
      if p(xs[0]) {
        assert Filter(head, q) == (if q(xs[0]) then [xs[0]] else []) + Filter(head[1..], q);
        assert head[1..] == [];
      } else {
        assert Filter(head, q) == [];
      }
    }
  }

  /** Nothing passes a filter no element satisfies. */
  lemma {:induction false} FilterNone<T>(xs: seq<T>, p: T -> bool)
    requires forall j :: 0 <= j < |xs| ==> !p(xs[j])
    ensures Filter(xs, p) == []
  {
    if |xs| > 0 {
      FilterNone(xs[1..], p);
    }
  }

  /** Filter distributes over concatenation. */
  lemma {:induction false} FilterAppend<T>(xs: seq<T>, ys: seq<T>, p: T -> bool)
    ensures Filter(xs + ys, p) == Filter(xs, p) + Filter(ys, p)
  {
    if |xs| > 0 {
      var zs := xs + ys;
      var h := if p(xs[0]) then [xs[0]] else [];
      assert zs[0] == xs[0] && zs[1..] == xs[1..] + ys;
      FilterAppend(xs[1..], ys, p);
      assert Filter(zs, p) == h + Filter(zs[1..], p);
      assert Filter(xs, p) == h + Filter(xs[1..], p);
    } else {
      assert xs + ys == ys;
    }
  }

  lemma SeparatorAt<T>(a: seq<T>, b: seq<T>, sep: T)
    requires sep !in a
    ensures (a + [sep] + b)[|a|] == sep
    ensures forall i :: 0 <= i < |a| ==> (a + [sep] + b)[i] != sep
  {
    forall i | 0 <= i < |a| ensures (a + [sep] + b)[i] != sep {
      assert (a + [sep] + b)[i] == a[i];
    }
  }

  /** A separator that occurs in neither left part splits a joined pair uniquely. */
  lemma SplitAtSeparator<T>(a1: seq<T>, b1: seq<T>, a2: seq<T>, b2: seq<T>, sep: T)
    requires sep !in a1 && sep !in a2
    requires a1 + [sep] + b1 == a2 + [sep] + b2
    ensures a1 == a2 && b1 == b2
  {
    var s := a1 + [sep] + b1;
    SeparatorAt(a1, b1, sep);
    SeparatorAt(a2, b2, sep);
    assert |a1| == |a2|;
    assert a1 == s[..|a1|] == a2;
    assert b1 == s[|a1| + 1..] == b2;
  }
}

=== FILE: slot_service.dfy ===
/** feature/slot/SlotService (and the legacy service/SlotService partitioner): slot
    generation, booking, cancellation and the slot queries. Each transactional method is a
    function from the tables to a `Step`. Booking and cancelling are split into the guard
    phase (`PrepareBooking`, `PrepareCancel`: everything up to the mutated slot value, read
    from one snapshot) and the versioned save, so that two requests can be interleaved. */
module SlotService {
  import opened Wrappers
  import opened Domain
  import opened Store
  import opened Partition
  import opened NameUtils

  /** The unbooked row for one partition cell (id and version are assigned on insert). */
  function NewSlot(event: Event, span: Span): Slot {
    Slot(0, 0, event, span.start, span.end, None, None, None)
  }

  function DraftSlots(event: Event, spans: seq<Span>): (r: seq<Slot>)
    ensures |r| == |spans|
    ensures forall i :: 0 <= i < |spans| ==> r[i] == NewSlot(event, spans[i])
  {
    seq(|spans|, i requires 0 <= i < |spans| => NewSlot(event, spans[i]))
  }

  /** `generateSlots` (feature): rejects a non-positive duration, otherwise inserts the
      whole-cell partition of the event window with one `saveAll`, even when it is empty. */
  function GenerateSlots(db: Db, event: Event): (st: Step<seq<Slot>>)
    ensures event.rules.slotDurationMinutes <= 0 ==> st == Fail(db, InvalidSlot(NonPositiveDuration))
    ensures event.rules.slotDurationMinutes > 0 ==>
      var d := event.rules.slotDurationMinutes;
      var r := st.result;
      && r.Ok?
      && |r.value| == FeatureCount(event.eventStart, event.eventEnd, d)
      && (forall i :: 0 <= i < |r.value| ==>
            r.value[i] == Slot(db.nextSlotId + i, 0, event, event.eventStart + i * d, event.eventStart + (i + 1) * d, None, None, None))
      && st.effects == [SavedSlots(r.value)]
      && st.db == db.(slots := db.slots + r.value, nextSlotId := db.nextSlotId + |r.value|)
  {
    var d := event.rules.slotDurationMinutes;
    if d <= 0 then Fail(db, InvalidSlot(NonPositiveDuration))
    else
      FeatureSpansClosedForm(event.eventStart, event.eventEnd, d);
      var (saved, db') := SaveAll(db, DraftSlots(event, FeatureSpans(event.eventStart, event.eventEnd, d)));
      Step(Ok(saved), db', [SavedSlots(saved)])
  }

  /** `generateSlots` (legacy): no duration guard, so the loop only ends for a positive
      duration; it saves each slot on its own, and the last one may end after the event. */
  function LegacyGenerateSlots(db: Db, event: Event): (st: Step<seq<Slot>>)
    requires event.rules.slotDurationMinutes > 0
    ensures
      var d := event.rules.slotDurationMinutes;
      var r := st.result;
      && r.Ok?
      && |r.value| == LegacyCount(event.eventStart, event.eventEnd, d)
      && (forall i :: 0 <= i < |r.value| ==>
            r.value[i] == Slot(db.nextSlotId + i, 0, event, event.eventStart + i * d, event.eventStart + (i + 1) * d, None, None, None))
      && st.effects == EachSaved(r.value)
      && st.db == db.(slots := db.slots + r.value, nextSlotId := db.nextSlotId + |r.value|)
  {
    var d := event.rules.slotDurationMinutes;
    LegacySpansClosedForm(event.eventStart, event.eventEnd, d);
    var (saved, db') := SaveAll(db, DraftSlots(event, LegacySpans(event.eventStart, event.eventEnd, d)));
    Step(Ok(saved), db', EachSaved(saved))
  }

  /** One `save` per slot, in order. */
  function EachSaved(slots: seq<Slot>): (r: seq<Effect>)
    ensures |r| == |slots|
    ensures forall i :: 0 <= i < |slots| ==> r[i] == SavedSlot(slots[i])
  {
    seq(|slots|, i requires 0 <= i < |slots| => SavedSlot(slots[i]))
  }

  /** A booking request: the slot is named by its event and start time. The attendee name
      and e-mail are taken to be present; a null one is not modelled. */
  datatype BookingRequest = BookingRequest(eventId: int, startTime: int, attendeeName: string, attendeeEmail: string)

  /** A cancellation request, authorised only by the attendee e-mail. */
  datatype CancelRequest = CancelRequest(eventId: int, startTime: int, attendeeEmail: string)

  /** `slot.getStartTime().atZone(zone).isBefore(ZonedDateTime.now(zone))`. */
  predicate IsPast(slot: Slot, clock: Clock) {
    slot.startTime < clock.zoned(slot.event.timeZone)
  }

  /** The capacity guard: only a configured capacity can be exceeded. */
  predicate AtCapacity(db: Db, slot: Slot) {
    slot.event.rules.maxCapacity.Some? && CountBooked(db, slot.event.id) >= slot.event.rules.maxCapacity.value
  }

  /** The guards of `bookSlot`, in source order, and the booked slot value they lead to. */
  function PrepareBooking(db: Db, req: BookingRequest, clock: Clock): (r: Result<Slot, Error>)
    ensures var found := FindByEventIdAndStartTime(db, req.eventId, req.startTime);
      && (found.None? ==> r == Err(SlotNotFound))
      && (found.Some? && !IsAvailable(found.value) ==> r == Err(SlotAlreadyBooked))
      && (found.Some? && IsAvailable(found.value) && IsPast(found.value, clock) ==> r == Err(InvalidSlot(PastSlot)))
      && (found.Some? && IsAvailable(found.value) && !IsPast(found.value, clock) && AtCapacity(db, found.value) ==>
            r == Err(MaxCapacityExceeded))
      && (r.Ok? <==> found.Some? && IsAvailable(found.value) && !IsPast(found.value, clock) && !AtCapacity(db, found.value))
      && (r.Ok? ==> r.value == found.value.(bookedByName := Some(req.attendeeName),
                                            bookedByEmail := Some(req.attendeeEmail),
                                            bookedAt := Some(clock.local)))
  {
    match FindByEventIdAndStartTime(db, req.eventId, req.startTime)
    case None => Err(SlotNotFound)
    case Some(slot) =>
      if !IsAvailable(slot) then Err(SlotAlreadyBooked)
      else if IsPast(slot, clock) then Err(InvalidSlot(PastSlot))
      else if AtCapacity(db, slot) then Err(MaxCapacityExceeded)
      else Ok(slot.(bookedByName := Some(req.attendeeName),
                    bookedByEmail := Some(req.attendeeEmail),
                    bookedAt := Some(clock.local)))
  }

  /** Some effect is a publication. */
  predicate Notifies(effects: seq<Effect>) {
    exists i :: 0 <= i < |effects| && effects[i].Published?
  }

  /** The `SlotBookedEvent` payload built from the saved slot. */
  function BookingNotice(saved: Slot): Notice {
    SlotBooked(saved.bookedByEmail, saved.event.host.email, saved.bookedByName, saved.event.eventName,
               saved.startTime, saved.endTime, saved.event.timeZone, SlotDisplayName(saved), saved.id)
  }

  /** The tail of `bookSlot` once its guards pass. `save` of the managed row issues no
      statement, the notice is published, and the versioned update runs only when the
      transaction commits. The listeners are not bound to the transaction, so a conflict
      at commit fails the call after its notice has gone out. `SavedSlot` stands for a
      write that commits. */
  function FinishBooking(db: Db, slot: Slot): (st: Step<Slot>)
    ensures st.result.Err? <==> SaveVersioned(db, slot).Err?
    ensures st.result.Err? ==> st == Step(Err(OptimisticLock), db, [Published(BookingNotice(slot))])
    ensures st.result.Ok? ==>
      && st.result.value == slot.(version := slot.version + 1)
      && st.db == SaveVersioned(db, slot).value.1
      && st.effects == [SavedSlot(st.result.value), Published(BookingNotice(slot))]
  {
    match SaveVersioned(db, slot)
    case Err(_) => Step(Err(OptimisticLock), db, [Published(BookingNotice(slot))])
    case Ok((saved, db')) => Step(Ok(saved), db', [SavedSlot(saved), Published(BookingNotice(saved))])
  }

  /** `bookSlot`: the guards, then one versioned save, then one publication. */
  function BookSlot(db: Db, req: BookingRequest, clock: Clock): (st: Step<Slot>)
    ensures PrepareBooking(db, req, clock).Err? ==> st == Fail(db, PrepareBooking(db, req, clock).error)
    ensures st.result.Err? ==> st.db == db
    ensures st.result.Err? && PrepareBooking(db, req, clock).Ok? ==>
      && st.result.error == OptimisticLock
      && st.effects == [Published(BookingNotice(PrepareBooking(db, req, clock).value))]
    ensures st.result.Ok? ==>
      var found := FindByEventIdAndStartTime(db, req.eventId, req.startTime).value;
      var s := st.result.value;
      && PrepareBooking(db, req, clock).Ok?
      && s == found.(version := found.version + 1, bookedByName := Some(req.attendeeName),
                     bookedByEmail := Some(req.attendeeEmail), bookedAt := Some(clock.local))
      && !IsAvailable(s) && IsBooked(s)
      && st.effects == [SavedSlot(s), Published(SlotBooked(
           Some(req.attendeeEmail), found.event.host.email, Some(req.attendeeName), found.event.eventName,
           found.startTime, found.endTime, found.event.timeZone, DisplayName(found.event.host), found.id))]
  {
    match PrepareBooking(db, req, clock)
    case Err(e) => Fail(db, e)
    case Ok(slot) => FinishBooking(db, slot)
  }

  /** The tail of `bookSlot` as intended: the notice goes out only once the update has
      committed, as a listener bound to the commit would see it. */
  function FinishBookingOnCommit(db: Db, slot: Slot): (st: Step<Slot>)
    ensures st.result.Err? ==> st == Fail(db, OptimisticLock)
    ensures st.result.Ok? ==> st.effects == [SavedSlot(st.result.value), Published(BookingNotice(slot))]
    ensures Notifies(st.effects) <==> st.result.Ok?
  {
    match SaveVersioned(db, slot)
    case Err(_) => Fail(db, OptimisticLock)
    case Ok((saved, db')) =>
      var st := Step(Ok(saved), db', [SavedSlot(saved), Published(BookingNotice(saved))]);
      assert st.effects[1].Published?;
      st
  }

  /** `bookSlot` with the notice bound to the commit. */
  function BookSlotOnCommit(db: Db, req: BookingRequest, clock: Clock): (st: Step<Slot>)
    ensures st.result.Err? ==> st.db == db && st.effects == []
    ensures Notifies(st.effects) <==> st.result.Ok?
  {
    match PrepareBooking(db, req, clock)
    case Err(e) => Fail(db, e)
    case Ok(slot) => FinishBookingOnCommit(db, slot)
  }

  /** The guards of `cancelBooking`, in source order, and the cleared slot value. A booked
      e-mail that is null while the name is set would throw a null dereference. */
  function PrepareCancel(db: Db, req: CancelRequest, clock: Clock): (r: Result<Slot, Error>)
    ensures var found := FindByEventIdAndStartTime(db, req.eventId, req.startTime);
      && (found.None? ==> r == Err(SlotNotFound))
      && (found.Some? && !found.value.event.rules.allowsCancellations ==> r == Err(InvalidSlot(CancellationsDisallowed)))
      && (found.Some? && found.value.event.rules.allowsCancellations && IsPast(found.value, clock) ==>
            r == Err(InvalidSlot(PastSlot)))
      && (found.Some? && found.value.event.rules.allowsCancellations && !IsPast(found.value, clock) && IsAvailable(found.value) ==>
            r == Err(InvalidSlot(NotBooked)))
      && ((found.Some? && found.value.event.rules.allowsCancellations && !IsPast(found.value, clock) && IsBooked(found.value)
           && found.value.bookedByEmail != Some(req.attendeeEmail)) ==> r == Err(UnauthorizedAccess))
      && (r.Ok? <==> found.Some? && found.value.event.rules.allowsCancellations && !IsPast(found.value, clock)
                     && found.value.bookedByEmail == Some(req.attendeeEmail))
      && (r.Ok? ==> r.value == found.value.(bookedByName := None, bookedByEmail := None))
  {
    match FindByEventIdAndStartTime(db, req.eventId, req.startTime)
    case None => Err(SlotNotFound)
    case Some(slot) =>
      if !slot.event.rules.allowsCancellations then Err(InvalidSlot(CancellationsDisallowed))
      else if IsPast(slot, clock) then Err(InvalidSlot(PastSlot))
      else if IsAvailable(slot) then Err(InvalidSlot(NotBooked))
      else if slot.bookedByEmail.None? then Err(NullReference)
      else if slot.bookedByEmail.value != req.attendeeEmail then Err(UnauthorizedAccess)
      else Ok(slot.(bookedByName := None, bookedByEmail := None))
  }

  /** The `SlotCancelledEvent` payload: the slot after saving, with the attendee captured before clearing. */
  function CancelNotice(saved: Slot, formerName: Option<string>, formerEmail: Option<string>): Notice {
    SlotCancelled(saved.id, saved.startTime, saved.endTime, formerName, formerEmail,
                  saved.event.eventName, SlotDisplayName(saved), saved.event.host.email)
  }

  /** The tail of `cancelBooking` once its guards pass, with the attendee read before
      the fields were cleared; as for a booking, a conflict at commit fails the call after
      its notice has gone out. */
  function FinishCancel(db: Db, slot: Slot, formerName: Option<string>, formerEmail: Option<string>): (st: Step<Slot>)
    ensures st.result.Err? <==> SaveVersioned(db, slot).Err?
    ensures st.result.Err? ==> st == Step(Err(OptimisticLock), db, [Published(CancelNotice(slot, formerName, formerEmail))])
    ensures st.result.Ok? ==>
      && st.result.value == slot.(version := slot.version + 1)
      && st.db == SaveVersioned(db, slot).value.1
      && st.effects == [SavedSlot(st.result.value), Published(CancelNotice(slot, formerName, formerEmail))]
  {
    match SaveVersioned(db, slot)
    case Err(_) => Step(Err(OptimisticLock), db, [Published(CancelNotice(slot, formerName, formerEmail))])
    case Ok((saved, db')) => Step(Ok(saved), db', [SavedSlot(saved), Published(CancelNotice(saved, formerName, formerEmail))])
  }

  /** `cancelBooking`: the guards, then one versioned save, then one publication. */
  function CancelBooking(db: Db, req: CancelRequest, clock: Clock): (st: Step<Slot>)
    ensures PrepareCancel(db, req, clock).Err? ==> st == Fail(db, PrepareCancel(db, req, clock).error)
    ensures st.result.Err? ==> st.db == db
    ensures st.result.Err? && PrepareCancel(db, req, clock).Ok? ==>
      var found := FindByEventIdAndStartTime(db, req.eventId, req.startTime).value;
      && st.result.error == OptimisticLock
      && st.effects == [Published(CancelNotice(PrepareCancel(db, req, clock).value, found.bookedByName, Some(req.attendeeEmail)))]
    ensures st.result.Ok? ==>
      var found := FindByEventIdAndStartTime(db, req.eventId, req.startTime).value;
      var s := st.result.value;
      && PrepareCancel(db, req, clock).Ok?
      && s == found.(version := found.version + 1, bookedByName := None, bookedByEmail := None)
      && IsAvailable(s) && s.bookedAt == found.bookedAt
      && st.effects == [SavedSlot(s), Published(SlotCancelled(
           found.id, found.startTime, found.endTime, found.bookedByName, Some(req.attendeeEmail),
           found.event.eventName, DisplayName(found.event.host), found.event.host.email))]
  {
    match PrepareCancel(db, req, clock)
    case Err(e) => Fail(db, e)
    case Ok(slot) =>
      var found := FindByEventIdAndStartTime(db, req.eventId, req.startTime).value;
      FinishCancel(db, slot, found.bookedByName, found.bookedByEmail)
  }

  /** The tail of `cancelBooking` as intended: the notice goes out only after the commit. */
  function FinishCancelOnCommit(db: Db, slot: Slot, formerName: Option<string>, formerEmail: Option<string>): (st: Step<Slot>)
    ensures st.result.Err? ==> st == Fail(db, OptimisticLock)
    ensures st.result.Ok? ==> st.effects == [SavedSlot(st.result.value), Published(CancelNotice(slot, formerName, formerEmail))]
    ensures Notifies(st.effects) <==> st.result.Ok?
  {
    match SaveVersioned(db, slot)
    case Err(_) => Fail(db, OptimisticLock)
    case Ok((saved, db')) =>
      var st := Step(Ok(saved), db', [SavedSlot(saved), Published(CancelNotice(saved, formerName, formerEmail))]);
      assert st.effects[1].Published?;
      st
  }

  /** `cancelBooking` with the notice bound to the commit. */
  function CancelBookingOnCommit(db: Db, req: CancelRequest, clock: Clock): (st: Step<Slot>)
    ensures st.result.Err? ==> st.db == db && st.effects == []
    ensures Notifies(st.effects) <==> st.result.Ok?
  {
    match PrepareCancel(db, req, clock)
    case Err(e) => Fail(db, e)
    case Ok(slot) =>
      var found := FindByEventIdAndStartTime(db, req.eventId, req.startTime).value;
      FinishCancelOnCommit(db, slot, found.bookedByName, found.bookedByEmail)
  }

  /** `getAvailableSlotsByShareableId`: the public event's unbooked slots. */
  function GetAvailableSlotsByShareableId(db: Db, shareableId: string): (r: Result<seq<Slot>, Error>)
    ensures var e := FindEventByShareableId(db, shareableId);
      && (e.None? ==> r == Err(EventNotFound))
      && (e.Some? && !e.value.rules.isPublic ==> r == Err(UnauthorizedAccess))
      && (r.Ok? <==> e.Some? && e.value.rules.isPublic)
      && (r.Ok? ==> forall i :: 0 <= i < |r.value| ==>
            r.value[i] in db.slots && r.value[i].event.id == e.value.id && r.value[i].bookedByEmail.None? && r.value[i].bookedByName.None?)
      && (r.Ok? ==> forall j :: 0 <= j < |db.slots| && db.slots[j].event.id == e.value.id && IsAvailable(db.slots[j]) ==>
            db.slots[j] in r.value)
  {
    match FindEventByShareableId(db, shareableId)
    case None => Err(EventNotFound)
    case Some(event) =>
      if !event.rules.isPublic then Err(UnauthorizedAccess)
      else Ok(AvailableSlotsOf(db, event.id))
  }

  /** `getSlotById`. */
  function GetSlotById(db: Db, slotId: int): (r: Result<Slot, Error>)
    ensures r.Ok? ==> r.value in db.slots && r.value.id == slotId
    ensures r.Err? <==> forall j :: 0 <= j < |db.slots| ==> db.slots[j].id != slotId
    ensures r.Err? ==> r.error == SlotNotFound
  {
    match FindSlotById(db, slotId)
    case None => Err(SlotNotFound)
    case Some(s) => Ok(s)
  }

  /** `getSlots`: every slot of the event. */
  function GetSlots(db: Db, eventId: int): (r: seq<Slot>)
    ensures forall i :: 0 <= i < |r| ==> r[i] in db.slots && r[i].event.id == eventId
    ensures forall j :: 0 <= j < |db.slots| && db.slots[j].event.id == eventId ==> db.slots[j] in r
  {
    SlotsOf(db, eventId)
  }

  /** `getBookedSlots`: the slots booked under the user's e-mail. */
  function GetBookedSlots(db: Db, user: User): (r: seq<Slot>)
    ensures forall i :: 0 <= i < |r| ==> r[i] in db.slots && r[i].bookedByEmail == Some(user.email)
    ensures forall j :: 0 <= j < |db.slots| && db.slots[j].bookedByEmail == Some(user.email) ==> db.slots[j] in r
  {
    SlotsBookedBy(db, user.email)
  }
}

=== FILE: slug.dfy ===
/** The shareable-id slug of an event name: lower-case it, replace every run of
    characters outside `[a-z0-9]` by one '-', then drop one leading and one trailing '-'.
    A reference definition (`Join(Words(..))`, the alphanumeric words joined by single
    dashes) characterises it. */
module Slugs {
  import opened Text

  /** The character class `[a-z0-9]`. */
  predicate IsWordChar(c: char) {
    IsLower(c) || IsDigit(c)
  }

  /** No character of `s` is in `[a-z0-9]`. */
  predicate NoWordChar(s: string) {
    forall k :: 0 <= k < |s| ==> !IsWordChar(s[k])
  }

  /** Every character of `s` is in `[a-z0-9]`. */
  predicate AllWordChars(s: string) {
    forall k :: 0 <= k < |s| ==> IsWordChar(s[k])
  }

  /** Drops the leading run of characters outside `[a-z0-9]`. */
  function SkipRun(s: string): (r: string)
    ensures |r| <= |s|
    ensures r == [] || IsWordChar(r[0])
  {
    if s == [] || IsWordChar(s[0]) then s else SkipRun(s[1..])
  }

  /** What `SkipRun` drops is a prefix with no `[a-z0-9]` character. */
  lemma {:induction false} SkipRunSuffix(s: string)
    ensures SkipRun(s) == s[|s| - |SkipRun(s)|..]
    ensures NoWordChar(s[..|s| - |SkipRun(s)|])
    decreases |s|
  {
    if s != [] && !IsWordChar(s[0]) {
      SkipRunSuffix(s[1..]);
      var n := |s| - |SkipRun(s)|;
      assert s[1..][..n - 1] == s[1..n];
      assert forall k :: 1 <= k < n ==> s[..n][k] == s[1..n][k - 1];
    }
  }

  /** The leading run of `[a-z0-9]` characters. */
  function TakeRun(s: string): (r: string)
    ensures |r| <= |s| && r == s[..|r|] && AllWordChars(r)
    ensures |r| == |s| || !IsWordChar(s[|r|])
  {
    if s == [] || !IsWordChar(s[0]) then [] else [s[0]] + TakeRun(s[1..])
  }

  /** `replaceAll("[^a-z0-9]+", "-")`. */
  function ReplaceRuns(s: string): (r: string)
    decreases |s|
  {
    if s == [] then []
    else if IsWordChar(s[0]) then [s[0]] + ReplaceRuns(s[1..])
    else "-" + ReplaceRuns(SkipRun(s[1..]))
  }

  /** `replaceAll("^-|-$", "")`: at most one dash goes from each end. */
  function StripEdges(s: string): (r: string)
    ensures |r| <= |s|
  {
    var t := if |s| > 0 && s[0] == '-' then s[1..] else s;
    if |t| > 0 && t[|t| - 1] == '-' then t[..|t| - 1] else t
  }

  /** The slug part of `generateShareableId`. */
  function Slug(name: string): string {
    StripEdges(ReplaceRuns(Lower(name)))
  }

  /** The maximal `[a-z0-9]` runs of `s`, in order. */
  function Words(s: string): (ws: seq<string>)
    ensures forall i :: 0 <= i < |ws| ==> |ws[i]| > 0 && AllWordChars(ws[i])
    decreases |s|
  {
    var t := SkipRun(s);
    if t == [] then [] else
      var w := TakeRun(t);
      assert |w| > 0 by { assert IsWordChar(t[0]); }
      var rest := Words(t[|w|..]);
      assert forall i :: 1 <= i < |rest| + 1 ==> ([w] + rest)[i] == rest[i - 1];
      [w] + rest
  }

  /** The words joined with single dashes. */
  function Join(ws: seq<string>): string {
    if |ws| == 0 then ""
    else if |ws| == 1 then ws[0]
    else ws[0] + "-" + Join(ws[1..])
  }

  /** The shape of a slug: only `[a-z0-9-]`, no "--", no dash at either end. */
  predicate IsSlug(s: string) {
    && (forall k :: 0 <= k < |s| ==> IsWordChar(s[k]) || s[k] == '-')
    && (forall k :: 0 <= k < |s| - 1 ==> !(s[k] == '-' && s[k + 1] == '-'))
    && (|s| > 0 ==> s[0] != '-' && s[|s| - 1] != '-')
  }

  lemma {:induction false} ReplaceRunsOfWord(w: string, u: string)
    requires AllWordChars(w)
    ensures ReplaceRuns(w + u) == w + ReplaceRuns(u)
    decreases |w|
  {
    if w != [] {
      assert (w + u)[0] == w[0] && (w + u)[1..] == w[1..] + u;
      assert IsWordChar(w[0]);
      assert ReplaceRuns(w + u) == [w[0]] + ReplaceRuns(w[1..] + u);
      ReplaceRunsOfWord(w[1..], u);
      assert [w[0]] + w[1..] == w;
    } else {
      assert w + u == u;
    }
  }

  lemma SkipRunOfWordStart(s: string)
    requires s == [] || IsWordChar(s[0])
    ensures SkipRun(s) == s
  {
  }

  lemma WordsOfWordStart(s: string)
    requires s != [] && IsWordChar(s[0])
    ensures Words(s) == [TakeRun(s)] + Words(s[|TakeRun(s)|..])
  {
    SkipRunOfWordStart(s);
  }

  lemma WordsOfGap(u: string)
    requires u != [] && !IsWordChar(u[0])
    ensures Words(u) == Words(SkipRun(u[1..]))
    ensures ReplaceRuns(u) == "-" + ReplaceRuns(SkipRun(u[1..]))
  {
    var v := SkipRun(u[1..]);
    assert SkipRun(u) == v;
    SkipRunOfWordStart(v);
  }

  lemma JoinCons(w: string, ws: seq<string>)
    requires |ws| > 0
    ensures Join([w] + ws) == w + "-" + Join(ws)
  {
    assert ([w] + ws)[1..] == ws;
  }

  /** One word, then the text after it. */
  lemma WordStep(s: string)
    requires s != [] && IsWordChar(s[0])
    ensures var w := TakeRun(s);
      && |w| > 0 && s == w + s[|w|..]
      && ReplaceRuns(s) == w + ReplaceRuns(s[|w|..])
      && Words(s) == [w] + Words(s[|w|..])
  {
    var w := TakeRun(s);
    WordsOfWordStart(s);
    assert s == w + s[|w|..];
    ReplaceRunsOfWord(w, s[|w|..]);
  }

  /** A word, a gap, and joined words with an optional final dash. */
  lemma GlueWord(w: string, j: string, r: string)
    requires r == j || r == j + "-"
    ensures w + ("-" + r) == w + "-" + j || w + ("-" + r) == w + "-" + j + "-"
  {
    if r == j {
      assert w + ("-" + j) == w + "-" + j;
    } else {
      assert w + ("-" + (j + "-")) == w + "-" + j + "-";
    }
  }

  /** From a word boundary, the replacement is the joined words, followed by one dash
      when the text ends in a run of other characters. */
  lemma {:induction false} ReplaceRunsFromWord(s: string)
    requires s == [] || IsWordChar(s[0])
    ensures s == [] ==> ReplaceRuns(s) == []
    ensures s != [] ==> |Words(s)| > 0 && (ReplaceRuns(s) == Join(Words(s)) || ReplaceRuns(s) == Join(Words(s)) + "-")
    decreases |s|
  {
    if s != [] {
      var w := TakeRun(s);
      var u := s[|w|..];
      WordStep(s);
      if u == [] {
        assert Words(u) == [];
      } else {
        var v := SkipRun(u[1..]);
        WordsOfGap(u);
        if v == [] {
          assert Words(v) == [];
        } else {
          ReplaceRunsFromWord(v);
          JoinCons(w, Words(v));
          GlueWord(w, Join(Words(v)), ReplaceRuns(v));
        }
      }
    }
  }

  lemma {:induction false} JoinShape(ws: seq<string>)
    requires forall i :: 0 <= i < |ws| ==> |ws[i]| > 0 && AllWordChars(ws[i])
    ensures IsSlug(Join(ws))
    ensures |ws| > 0 ==> |Join(ws)| > 0 && IsWordChar(Join(ws)[0]) && IsWordChar(Join(ws)[|Join(ws)| - 1])
  {
    if |ws| > 1 {
      JoinShape(ws[1..]);
      var w, rest := ws[0], Join(ws[1..]);
      var s := w + "-" + rest;
      assert Join(ws) == s;
      forall k | 0 <= k < |s| - 1 ensures !(s[k] == '-' && s[k + 1] == '-') {
        if k < |w| - 1 {
          assert s[k] == w[k];
        } else if k == |w| - 1 {
          assert s[k] == w[k];
        } else if k == |w| {
          assert s[k + 1] == rest[0];
        } else {
          assert s[k] == rest[k - |w| - 1] && s[k + 1] == rest[k - |w|];
        }
      }
      forall k | 0 <= k < |s| ensures IsWordChar(s[k]) || s[k] == '-' {
        if k < |w| {
          assert s[k] == w[k];
        } else if k > |w| {
          assert s[k] == rest[k - |w| - 1];
        }
      }
      assert s[|s| - 1] == rest[|rest| - 1];
    }
  }

  lemma StripEdgesOfWordEdged(j: string)
    requires |j| > 0 && j[0] != '-' && j[|j| - 1] != '-'
    ensures StripEdges(j) == j && StripEdges(j + "-") == j
    ensures StripEdges("-" + j) == j && StripEdges("-" + j + "-") == j
  {
    assert ("-" + j)[1..] == j;
    assert ("-" + j + "-")[1..] == j + "-";
    assert (j + "-")[..|j|] == j;
  }

  /** The slug is the alphanumeric words of the lower-cased name, joined by single dashes. */
  lemma SlugIsJoinedWords(name: string)
    ensures Slug(name) == Join(Words(Lower(name)))
  {
    var x := Lower(name);
    JoinShape(Words(x));
    if x == [] {
      assert Words(x) == [];
    } else if IsWordChar(x[0]) {
      ReplaceRunsFromWord(x);
      StripEdgesOfWordEdged(Join(Words(x)));
    } else {
      var v := SkipRun(x[1..]);
      WordsOfGap(x);
      if v == [] {
        assert Words(v) == [];
      } else {
        ReplaceRunsFromWord(v);
        StripEdgesOfWordEdged(Join(Words(x)));
      }
    }
  }

  /** The declared shape: lower case, only `[a-z0-9-]`, runs collapsed to one dash, no
      dash at either end. */
  lemma SlugShape(name: string)
    ensures IsSlug(Slug(name))
  {
    SlugIsJoinedWords(name);
    JoinShape(Words(Lower(name)));
  }

  /** A name with no letter or digit gives the empty slug. */
  lemma SymbolsOnlyGiveEmptySlug(name: string)
    requires NoWordChar(Lower(name))
    ensures Slug(name) == ""
  {
    SlugIsJoinedWords(name);
    SkipRunOfNoWord(Lower(name));
  }

  lemma {:induction false} SkipRunOfNoWord(s: string)
    requires NoWordChar(s)
    ensures SkipRun(s) == []
    decreases |s|
  {
    if s != [] {
      assert NoWordChar(s[1..]) by {
        assert forall k :: 0 <= k < |s| - 1 ==> s[1..][k] == s[k + 1];
      }
      SkipRunOfNoWord(s[1..]);
    }
  }

  lemma {:induction false} WordsOfJoin(ws: seq<string>)
    requires forall i :: 0 <= i < |ws| ==> |ws[i]| > 0 && AllWordChars(ws[i])
    ensures Words(Join(ws)) == ws
  {
    if |ws| == 0 {
      assert Words([]) == [];
    } else if |ws| == 1 {
      WordsOfSingle(ws[0]);
    } else {
      var w, rest := ws[0], Join(ws[1..]);
      JoinShape(ws[1..]);
      WordsOfJoin(ws[1..]);
      WordsOfDashed(w, rest);
      assert ws == [w] + ws[1..];
    }
  }

  lemma WordsOfSingle(w: string)
    requires |w| > 0 && AllWordChars(w)
    ensures Words(w) == [w]
  {
    assert w + [] == w;
    TakeRunOfWord(w, []);
    WordsOfWordStart(w);
    assert w[|w|..] == [];
    assert Words([]) == [];
  }

  /** A word, a dash, and text that starts with a word. */
  lemma WordsOfDashed(w: string, rest: string)
    requires |w| > 0 && AllWordChars(w)
    requires rest != [] && IsWordChar(rest[0])
    ensures Words(w + "-" + rest) == [w] + Words(rest)
  {
    var gap := "-" + rest;
    var s := w + gap;
    assert w + "-" + rest == s;
    TakeRunOfWord(w, gap);
    WordsOfWordStart(s);
    assert s[|w|..] == gap;
    WordsOfGap(gap);
    assert gap[1..] == rest;
    SkipRunOfWordStart(rest);
  }

  lemma {:induction false} TakeRunOfWord(w: string, u: string)
    requires AllWordChars(w) && (u == [] || !IsWordChar(u[0]))
    ensures TakeRun(w + u) == w
    decreases |w|
  {
    if w == [] {
      assert w + u == u;
    } else {
      assert (w + u)[1..] == w[1..] + u;
      TakeRunOfWord(w[1..], u);
    }
  }

  lemma IsSlugChars(s: string)
    requires IsSlug(s)
    ensures Lower(s) == s
  {
  }

  /** Slugging is idempotent. */
  lemma SlugIdempotent(name: string)
    ensures Slug(Slug(name)) == Slug(name)
  {
    var s := Slug(name);
    SlugIsJoinedWords(name);
    SlugShape(name);
    IsSlugChars(s);
    SlugIsJoinedWords(s);
    WordsOfJoin(Words(Lower(name)));
  }

  /** A word ended by one character outside the class. */
  lemma WordThenGap(w: string, c: char, rest: string)
    requires |w| > 0 && AllWordChars(w) && !IsWordChar(c)
    ensures Words(w + [c] + rest) == [w] + Words(SkipRun(rest))
  {
    var gap := [c] + rest;
    var s := w + gap;
    assert w + [c] + rest == s;
    TakeRunOfWord(w, gap);
    WordsOfWordStart(s);
    assert s[|w|..] == gap;
    WordsOfGap(gap);
    assert gap[1..] == rest;
  }

  /** Two words, each ended by one character outside the class. */
  lemma TwoWords(w1: string, c1: char, w2: string, c2: char)
    requires |w1| > 0 && AllWordChars(w1) && !IsWordChar(c1)
    requires |w2| > 0 && AllWordChars(w2) && !IsWordChar(c2)
    ensures Words(w1 + [c1] + w2 + [c2]) == [w1, w2]
  {
    var tail := w2 + [c2];
    assert w1 + [c1] + w2 + [c2] == w1 + [c1] + tail;
    WordThenGap(w1, c1, tail);
    SkipRunOfWordStart(tail);
    assert tail == w2 + [c2] + [];
    WordThenGap(w2, c2, []);
    assert Words(SkipRun([])) == [];
  }

  lemma ExampleWords()
    ensures Words("team sync!") == ["team", "sync"]
  {
    TwoWords("team", ' ', "sync", '!');
    assert "team sync!" == "team" + [' '] + "sync" + ['!'];
  }

  lemma ExampleLower()
    ensures Lower("Team Sync!") == "team sync!"
  {
  }

  /** A name that lower-cases to two words, each ended by one other character. */
  lemma SlugOfTwoWords(name: string, w1: string, c1: char, w2: string, c2: char)
    requires |w1| > 0 && AllWordChars(w1) && !IsWordChar(c1)
    requires |w2| > 0 && AllWordChars(w2) && !IsWordChar(c2)
    requires Lower(name) == w1 + [c1] + w2 + [c2]
    ensures Slug(name) == w1 + "-" + w2
  {
    SlugIsJoinedWords(name);
    TwoWords(w1, c1, w2, c2);
    assert [w1, w2][1..] == [w2];
  }

  /** A name that lower-cases to "team sync!", such as "Team Sync!" (`ExampleLower`),
      becomes "team-sync". */
  lemma ExampleSlug(name: string)
    requires Lower(name) == "team sync!"
    ensures Slug(name) == "team-sync"
  {
    assert "team sync!" == "team" + [' '] + "sync" + ['!'];
    SlugOfTwoWords(name, "team", ' ', "sync", '!');
  }

  /** The slug sees the name only through its lower-case form. */
  lemma SlugIgnoresCase(n1: string, n2: string)
    requires Lower(n1) == Lower(n2)
    ensures Slug(n1) == Slug(n2)
  {
  }
}

=== FILE: store.dfy ===
/** The persistence layer as a value: the event and slot tables, in insertion order, with
    the identity counters. Query functions follow the derived-query names of the slot and
    event repositories; `SaveVersioned` is the `@Version` compare-and-swap. */
module Store {
  import opened Wrappers
  import opened Domain
  import opened Seqs

  datatype Db = Db(events: seq<Event>, slots: seq<Slot>, nextEventId: int, nextSlotId: int)

  /** The outcome of one transactional service call: its result, the tables afterwards and
      the effects it performed. A call that throws rolls back, so it leaves the tables as
      they were and performs no effect. */
  datatype Step<T> = Step(result: Result<T, Error>, db: Db, effects: seq<Effect>)

  function Fail<T>(db: Db, e: Error): Step<T> {
    Step(Err(e), db, [])
  }

  /** Two slot rows are apart: different ids, and not the same (event, start time) pair. */
  predicate SlotsApart(a: Slot, b: Slot) {
    a.id != b.id && !(a.event.id == b.event.id && a.startTime == b.startTime)
  }

  /** Two event rows are apart: different ids and different shareable ids (unique column). */
  predicate EventsApart(a: Event, b: Event) {
    a.id != b.id && a.shareableId != b.shareableId
  }

  /** The table invariant every operation of the core preserves. */
  ghost predicate Valid(db: Db) {
    && (forall i, j :: 0 <= i < j < |db.slots| ==> SlotsApart(db.slots[i], db.slots[j]))
    && (forall i :: 0 <= i < |db.slots| ==>
          db.slots[i].id < db.nextSlotId && db.slots[i].event.id < db.nextEventId && Paired(db.slots[i]))
    && (forall i, j :: 0 <= i < j < |db.events| ==> EventsApart(db.events[i], db.events[j]))
    && (forall i :: 0 <= i < |db.events| ==> db.events[i].id < db.nextEventId)
  }

  function AtKey(eventId: int, startTime: int): Slot -> bool {
    (s: Slot) => s.event.id == eventId && s.startTime == startTime
  }

  function OfEvent(eventId: int): Slot -> bool {
    (s: Slot) => s.event.id == eventId
  }

  function BookedOf(eventId: int): Slot -> bool {
    (s: Slot) => s.event.id == eventId && IsBooked(s)
  }

  function AvailableOf(eventId: int): Slot -> bool {
    (s: Slot) => s.event.id == eventId && IsAvailable(s)
  }

  /** `findByEventIdAndStartTime`: the slot of that event starting at that time, if any. */
  function FindByEventIdAndStartTime(db: Db, eventId: int, startTime: int): (r: Option<Slot>)
    ensures r.Some? ==> r.value in db.slots && r.value.event.id == eventId && r.value.startTime == startTime
    ensures r.None? ==> forall j :: 0 <= j < |db.slots| ==>
      !(db.slots[j].event.id == eventId && db.slots[j].startTime == startTime)
  {
    match FirstIndex(db.slots, AtKey(eventId, startTime))
    case None => None
    case Some(k) => Some(db.slots[k])
  }

  /** In a valid store the (event, start time) lookup is determined: any matching row is the result. */
  lemma FindByKeyUnique(db: Db, k: nat)
    requires Valid(db) && k < |db.slots|
    ensures FindByEventIdAndStartTime(db, db.slots[k].event.id, db.slots[k].startTime) == Some(db.slots[k])
  {
    var s := db.slots[k];
    FirstIndexUnique(db.slots, AtKey(s.event.id, s.startTime), k);
  }

  /** `findById` on slots. */
  function FindSlotById(db: Db, id: int): (r: Option<Slot>)
    ensures r.Some? ==> r.value in db.slots && r.value.id == id
    ensures r.None? ==> forall j :: 0 <= j < |db.slots| ==> db.slots[j].id != id
  {
    match FirstIndex(db.slots, (s: Slot) => s.id == id)
    case None => None
    case Some(k) => Some(db.slots[k])
  }

  /** `findByEventId` (and the event's slot collection): the event's slots in table order. */
  function SlotsOf(db: Db, eventId: int): (r: seq<Slot>)
    ensures forall i :: 0 <= i < |r| ==> r[i] in db.slots && r[i].event.id == eventId
    ensures forall j :: 0 <= j < |db.slots| && db.slots[j].event.id == eventId ==> db.slots[j] in r
  {
    Filter(db.slots, OfEvent(eventId))
  }

  /** `findByEventAndBookedByEmailIsNullAndBookedByNameIsNull`. */
  function AvailableSlotsOf(db: Db, eventId: int): (r: seq<Slot>)
    ensures forall i :: 0 <= i < |r| ==> r[i] in db.slots && r[i].event.id == eventId && IsAvailable(r[i])
    ensures forall j :: 0 <= j < |db.slots| && db.slots[j].event.id == eventId && IsAvailable(db.slots[j]) ==>
      db.slots[j] in r
  {
    Filter(db.slots, AvailableOf(eventId))
  }

  /** `findByBookedByEmail`. */
  function SlotsBookedBy(db: Db, email: string): (r: seq<Slot>)
    ensures forall i :: 0 <= i < |r| ==> r[i] in db.slots && r[i].bookedByEmail == Some(email)
    ensures forall j :: 0 <= j < |db.slots| && db.slots[j].bookedByEmail == Some(email) ==> db.slots[j] in r
  {
    Filter(db.slots, (s: Slot) => s.bookedByEmail == Some(email))
  }

  /** `countByEventAndBookedByEmailIsNotNullAndBookedByNameIsNotNull`. */
  function CountBooked(db: Db, eventId: int): (n: nat)
    ensures n == |Filter(db.slots, BookedOf(eventId))|
    ensures n <= |db.slots|
    ensures n == 0 <==> forall j :: 0 <= j < |db.slots| ==> !(db.slots[j].event.id == eventId && IsBooked(db.slots[j]))
  {
    FilterLength(db.slots, BookedOf(eventId));
    Count(db.slots, BookedOf(eventId))
  }

  /** `save` of a slot that carries a version, with the update it issues at commit: it
      succeeds only when the stored version still equals the one read, and then bumps it. */
  function SaveVersioned(db: Db, slot: Slot): (r: Result<(Slot, Db), Error>)
    ensures r.Err? ==> r.error == OptimisticLock
    ensures r.Err? <==> FindSlotById(db, slot.id).None? || FindSlotById(db, slot.id).value.version != slot.version
    ensures r.Ok? ==> r.value.0 == slot.(version := slot.version + 1)
    ensures r.Ok? ==> exists k :: 0 <= k < |db.slots| && db.slots[k].id == slot.id && db.slots[k].version == slot.version
                                && r.value.1 == db.(slots := db.slots[k := r.value.0])
  {
    match FirstIndex(db.slots, (s: Slot) => s.id == slot.id)
    case None => Err(OptimisticLock)
    case Some(k) =>
      if db.slots[k].version != slot.version then
        Err(OptimisticLock)
      else
        var saved := slot.(version := slot.version + 1);
        Ok((saved, db.(slots := db.slots[k := saved])))
  }

  /** A versioned save of a slot just read from a valid store succeeds. */
  lemma SaveOfFreshReadSucceeds(db: Db, k: nat, slot: Slot)
    requires Valid(db) && k < |db.slots|
    requires slot.id == db.slots[k].id && slot.version == db.slots[k].version
    ensures SaveVersioned(db, slot) == Ok((slot.(version := slot.version + 1), db.(slots := db.slots[k := slot.(version := slot.version + 1)])))
  {
    var p := (s: Slot) => s.id == slot.id;
    FirstIndexUnique(db.slots, p, k);
  }

  /** A versioned save that keeps the row's event and start time and leaves its booked
      fields paired keeps the store valid. */
  lemma SaveVersionedKeepsValid(db: Db, slot: Slot)
    requires Valid(db) && Paired(slot)
    requires forall j :: 0 <= j < |db.slots| && db.slots[j].id == slot.id ==>
      db.slots[j].event.id == slot.event.id && db.slots[j].startTime == slot.startTime
    requires SaveVersioned(db, slot).Ok?
    ensures Valid(SaveVersioned(db, slot).value.1)
  {
    var db' := SaveVersioned(db, slot).value.1;
    var saved := slot.(version := slot.version + 1);
    var k :| 0 <= k < |db.slots| && db.slots[k].id == slot.id && db.slots[k].version == slot.version
             && db' == db.(slots := db.slots[k := saved]);
    ReplaceKeepsValid(db, k, saved);
  }

  /** Replacing one row by a paired row with the same id, event and start time keeps the store valid. */
  lemma ReplaceKeepsValid(db: Db, k: nat, row: Slot)
    requires Valid(db) && k < |db.slots| && Paired(row)
    requires row.id == db.slots[k].id && row.event.id == db.slots[k].event.id && row.startTime == db.slots[k].startTime
    ensures Valid(db.(slots := db.slots[k := row]))
  {
    var slots := db.slots[k := row];
    forall i, j | 0 <= i < j < |slots| ensures SlotsApart(slots[i], slots[j]) {
      assert SlotsApart(db.slots[i], db.slots[j]);
    }
    forall i | 0 <= i < |slots| ensures slots[i].id < db.nextSlotId && slots[i].event.id < db.nextEventId && Paired(slots[i]) {
      if i != k {
        assert slots[i] == db.slots[i];
      }
    }
  }

  /** `saveAll` of new rows: ids are assigned in order from the identity counter, versions start at 0. */
  function SaveAll(db: Db, drafts: seq<Slot>): (r: (seq<Slot>, Db))
    ensures |r.0| == |drafts|
    ensures forall i :: 0 <= i < |drafts| ==> r.0[i] == drafts[i].(id := db.nextSlotId + i, version := 0)
    ensures r.1 == db.(slots := db.slots + r.0, nextSlotId := db.nextSlotId + |drafts|)
  {
    var saved := seq(|drafts|, i requires 0 <= i < |drafts| => drafts[i].(id := db.nextSlotId + i, version := 0));
    (saved, db.(slots := db.slots + saved, nextSlotId := db.nextSlotId + |drafts|))
  }

  /** Inserting rows none of which is booked leaves every event's booked count as it was. */
  lemma SaveAllUnbookedKeepsCount(db: Db, drafts: seq<Slot>, eventId: int)
    requires forall i :: 0 <= i < |drafts| ==> !IsBooked(drafts[i])
    ensures CountBooked(SaveAll(db, drafts).1, eventId) == CountBooked(db, eventId)
  {
    var (saved, db') := SaveAll(db, drafts);
    CountAppend(db.slots, saved, BookedOf(eventId));
    assert forall i :: 0 <= i < |saved| ==> !BookedOf(eventId)(saved[i]);
  }

  /** Inserting the rows of one new event keeps the store valid when that event owns no
      rows yet, its id is already allocated, its rows are paired and their start times differ. */
  lemma SaveAllKeepsValid(db: Db, drafts: seq<Slot>, eventId: int)
    requires Valid(db) && eventId < db.nextEventId
    requires forall j :: 0 <= j < |db.slots| ==> db.slots[j].event.id != eventId
    requires forall i :: 0 <= i < |drafts| ==> drafts[i].event.id == eventId && Paired(drafts[i])
    requires forall i, j :: 0 <= i < j < |drafts| ==> drafts[i].startTime != drafts[j].startTime
    ensures Valid(SaveAll(db, drafts).1)
  {
    var (saved, db') := SaveAll(db, drafts);
    var n := |db.slots|;
    forall i, j | 0 <= i < j < |db'.slots| ensures SlotsApart(db'.slots[i], db'.slots[j]) {
      if j >= n && i < n {
        assert db'.slots[j] == saved[j - n];
        assert db'.slots[i] == db.slots[i];
      } else if i >= n {
        assert db'.slots[i] == saved[i - n] && db'.slots[j] == saved[j - n];
      }
    }
    forall i | 0 <= i < |db'.slots|
      ensures db'.slots[i].id < db'.nextSlotId && db'.slots[i].event.id < db'.nextEventId && Paired(db'.slots[i])
    {
      if i >= n {
        assert db'.slots[i] == saved[i - n];
      }
    }
  }

  /** `findById` on events. */
  function FindEventById(db: Db, id: int): (r: Option<Event>)
    ensures r.Some? ==> r.value in db.events && r.value.id == id
    ensures r.None? ==> forall j :: 0 <= j < |db.events| ==> db.events[j].id != id
  {
    match FirstIndex(db.events, (e: Event) => e.id == id)
    case None => None
    case Some(k) => Some(db.events[k])
  }

  /** `findByShareableId`. */
  function FindEventByShareableId(db: Db, shareableId: string): (r: Option<Event>)
    ensures r.Some? ==> r.value in db.events && r.value.shareableId == shareableId
    ensures r.None? ==> forall j :: 0 <= j < |db.events| ==> db.events[j].shareableId != shareableId
  {
    match FirstIndex(db.events, (e: Event) => e.shareableId == shareableId)
    case None => None
    case Some(k) => Some(db.events[k])
  }

  /** `save` of a new event: it receives the next identity; a shareable id already in the
      table violates the unique column. */
  function SaveEvent(db: Db, event: Event): (r: Result<(Event, Db), Error>)
    ensures r.Err? <==> exists j :: 0 <= j < |db.events| && db.events[j].shareableId == event.shareableId
    ensures r.Err? ==> r.error == DuplicateShareableId
    ensures r.Ok? ==> r.value.0 == event.(id := db.nextEventId)
    ensures r.Ok? ==> r.value.1 == db.(events := db.events + [r.value.0], nextEventId := db.nextEventId + 1)
  {
    if FindEventByShareableId(db, event.shareableId).Some? then Err(DuplicateShareableId)
    else
      var saved := event.(id := db.nextEventId);
      Ok((saved, db.(events := db.events + [saved], nextEventId := db.nextEventId + 1)))
  }

  lemma SaveEventKeepsValid(db: Db, event: Event)
    requires Valid(db) && SaveEvent(db, event).Ok?
    ensures Valid(SaveEvent(db, event).value.1)
    ensures forall j :: 0 <= j < |db.slots| ==> db.slots[j].event.id != SaveEvent(db, event).value.0.id
  {
    var (saved, db') := SaveEvent(db, event).value;
    forall i, j | 0 <= i < j < |db'.events| ensures EventsApart(db'.events[i], db'.events[j]) {
      if j == |db.events| {
        assert db'.events[j] == saved;
        assert db'.events[i] == db.events[i];
      }
    }
  }

  /** `delete` of an event: the row goes, and with it (cascade, orphan removal) its slots. */
  function DeleteEvent(db: Db, id: int): (r: Db)
    ensures forall i :: 0 <= i < |r.events| ==> r.events[i] in db.events && r.events[i].id != id
    ensures forall j :: 0 <= j < |db.events| && db.events[j].id != id ==> db.events[j] in r.events
    ensures forall i :: 0 <= i < |r.slots| ==> r.slots[i] in db.slots && r.slots[i].event.id != id
    ensures forall j :: 0 <= j < |db.slots| && db.slots[j].event.id != id ==> db.slots[j] in r.slots
    ensures r.nextEventId == db.nextEventId && r.nextSlotId == db.nextSlotId
  {
    db.(events := Filter(db.events, (e: Event) => e.id != id),
        slots := Filter(db.slots, (s: Slot) => s.event.id != id))
  }

  lemma DeleteEventKeepsValid(db: Db, id: int)
    requires Valid(db)
    ensures Valid(DeleteEvent(db, id))
  {
    FilterPairwise(db.events, (e: Event) => e.id != id, EventsApart);
    FilterPairwise(db.slots, (s: Slot) => s.event.id != id, SlotsApart);
  }
}

=== FILE: text.dfy ===
/** The string primitives of the Java library that the core relies on: `String.trim`,
    `StringUtils.hasText` (with `Character.isWhitespace`), the `@NotBlank` test,
    `startsWith`, and ASCII case. */
module Text {

  /** `String.trim` strips every leading and trailing character whose code is at most U+0020. */
  predicate IsTrimmedAway(c: char) {
    c <= ' '
  }

  /** `Character.isWhitespace`: HT, LF, VT, FF, CR, the four separators U+001C..U+001F, and
      the Unicode space, line and paragraph separators except the non-breaking ones
      (U+00A0, U+2007, U+202F). */
  predicate IsJavaWhitespace(c: char) {
    || c == ' ' || ('\t' <= c <= '\r') || (28 <= c as int <= 31)
    || c as int == 0x1680 || (0x2000 <= c as int <= 0x2006) || (0x2008 <= c as int <= 0x200A)
    || c as int == 0x2028 || c as int == 0x2029 || c as int == 0x205F || c as int == 0x3000
  }

  /** The number of leading characters `trim` strips. */
  function Lead(s: string): (n: nat)
    ensures n <= |s|
    ensures forall k :: 0 <= k < n ==> IsTrimmedAway(s[k])
    ensures n < |s| ==> !IsTrimmedAway(s[n])
  {
    if |s| > 0 && IsTrimmedAway(s[0]) then
      var m := Lead(s[1..]);
      assert forall k :: 1 <= k < m + 1 ==> s[k] == s[1..][k - 1];
      m + 1
    else 0
  }

  /** The end of the part `trim` keeps: everything from it on is stripped. */
  function Tail(s: string): (n: nat)
    ensures n <= |s|
    ensures forall k :: n <= k < |s| ==> IsTrimmedAway(s[k])
    ensures n > 0 ==> !IsTrimmedAway(s[n - 1])
  {
    if |s| > 0 && IsTrimmedAway(s[|s| - 1]) then
      var m := Tail(s[..|s| - 1]);
      assert forall k :: m <= k < |s| - 1 ==> s[k] == s[..|s| - 1][k];
      m
    else |s|
  }

  /** `String.trim`: the longest infix of `s` that neither starts nor ends with a character <= U+0020. */
  function Trim(s: string): (r: string)
    ensures Lead(s) + |r| <= |s| && r == s[Lead(s)..Lead(s) + |r|]
    ensures forall k :: Lead(s) + |r| <= k < |s| ==> IsTrimmedAway(s[k])
    ensures r != [] ==> !IsTrimmedAway(r[0]) && !IsTrimmedAway(r[|r| - 1])
    ensures r == [] <==> forall k :: 0 <= k < |s| ==> IsTrimmedAway(s[k])
  {
    var i := Lead(s);
    var u := s[i..];
    var r := u[..Tail(u)];
    assert r == s[i..i + |r|];
    assert forall k :: i + |r| <= k < |s| ==> s[k] == u[k - i];
    r
  }

  /** Trimming an already trimmed string changes nothing. */
  lemma TrimIdempotent(s: string)
    ensures Trim(Trim(s)) == Trim(s)
  {
    TrimOfTrimmed(Trim(s));
  }

  /** A string without edge characters <= U+0020 is its own trim. */
  lemma TrimOfTrimmed(s: string)
    requires s == [] || (!IsTrimmedAway(s[0]) && !IsTrimmedAway(s[|s| - 1]))
    ensures Trim(s) == s
  {
    if s != [] {
      assert Lead(s) == 0;
      assert s[0..] == s;
      assert Tail(s) == |s|;
    }
  }

  /** Leading characters <= U+0020 do not change the trim. */
  lemma TrimDropsLeading(w: string, s: string)
    requires forall k :: 0 <= k < |w| ==> IsTrimmedAway(w[k])
    ensures Trim(w + s) == Trim(s)
  {
    LeadOfPrefix(w, s);
    assert (w + s)[|w| + Lead(s)..] == s[Lead(s)..];
  }

  lemma {:induction false} LeadOfPrefix(w: string, s: string)
    requires forall k :: 0 <= k < |w| ==> IsTrimmedAway(w[k])
    ensures Lead(w + s) == |w| + Lead(s)
  {
    var t, n := w + s, |w| + Lead(s);
    assert forall k :: |w| <= k < |t| ==> t[k] == s[k - |w|];
    LeadUnique(t, n);
  }

  /** `Lead` is the first position that is not stripped. */
  lemma LeadUnique(s: string, n: nat)
    requires n <= |s| && (forall k :: 0 <= k < n ==> IsTrimmedAway(s[k])) && (n < |s| ==> !IsTrimmedAway(s[n]))
    ensures Lead(s) == n
  {
  }

  /** `StringUtils.hasText`: some character is not whitespace. */
  predicate HasText(s: string) {
    exists k :: 0 <= k < |s| && !IsJavaWhitespace(s[k])
  }

  /** `@NotBlank` on a non-null string: its trim is non-empty. */
  predicate NotBlank(s: string) {
    exists k :: 0 <= k < |s| && !IsTrimmedAway(s[k])
  }

  lemma NotBlankIsNonEmptyTrim(s: string)
    ensures NotBlank(s) <==> Trim(s) != []
  {
  }

  /** A character above U+FFFF, which a Java string stores as a surrogate pair. */
  predicate IsSupplementary(c: char) {
    c as int > 0xFFFF
  }

  /** `String.length`, which `@Size` reads: UTF-16 code units, two for a supplementary
      character. */
  function Utf16Length(s: string): (n: nat)
    ensures |s| <= n <= 2 * |s|
  {
    if s == [] then 0 else (if IsSupplementary(s[0]) then 2 else 1) + Utf16Length(s[1..])
  }

  /** The UTF-16 length is the character count exactly when no character is supplementary. */
  lemma {:induction false} Utf16LengthIsCharCount(s: string)
    ensures Utf16Length(s) == |s| <==> forall k :: 0 <= k < |s| ==> !IsSupplementary(s[k])
  {
    if s != [] {
      var t := s[1..];
      Utf16LengthIsCharCount(t);
      assert forall k :: 1 <= k < |s| ==> s[k] == t[k - 1];
      if forall k :: 0 <= k < |t| ==> !IsSupplementary(t[k]) {
        assert forall k :: 1 <= k < |s| ==> !IsSupplementary(s[k]) by {
          forall k | 1 <= k < |s| ensures !IsSupplementary(s[k]) {
            assert s[k] == t[k - 1];
          }
        }
      }
    }
  }

  predicate StartsWith(s: string, prefix: string) {
    |prefix| <= |s| && s[..|prefix|] == prefix
  }

  predicate IsDigit(c: char) { '0' <= c <= '9' }
  predicate IsLower(c: char) { 'a' <= c <= 'z' }
  predicate IsUpper(c: char) { 'A' <= c <= 'Z' }

  /** `Character.toLowerCase` restricted to ASCII: upper-case letters map to lower case. */
  function LowerChar(c: char): (r: char)
    ensures !IsUpper(r)
    ensures !IsUpper(c) ==> r == c
    ensures IsUpper(c) ==> IsLower(r)
  {
    if IsUpper(c) then (c as int + 32) as char else c
  }

  /** `String.toLowerCase` on ASCII text. */
  function Lower(s: string): (r: string)
    ensures |r| == |s|
    ensures forall k :: 0 <= k < |s| ==> r[k] == LowerChar(s[k])
  {
    seq(|s|, k requires 0 <= k < |s| => LowerChar(s[k]))
  }
}

=== FILE: tokens.dfy ===
/** `VerificationTokenService`: the e-mail verification token of an account, issued with a
    24-hour lifetime and consumed by the first successful verification. The clock and the
    random UUID come in as parameters. */
module VerificationTokens {
  import opened Wrappers
  import opened Seqs

  /** The verification columns of a user row. */
  datatype Account = Account(userId: int, isVerified: bool, token: Option<string>, expiresAt: Option<int>)

  datatype TokenError = InvalidToken | NonUniqueToken | AccountAlreadyVerified | TokenAlreadyExpired | NullExpiry

  /** The result of a call together with the user table after it. */
  datatype Outcome<T> = Outcome(result: Result<T, TokenError>, accounts: seq<Account>)

  /** `plusHours(24)`, in minutes. */
  const TokenLifetime: int := 24 * 60

  function HoldsToken(token: string): Account -> bool {
    (a: Account) => a.token == Some(token)
  }

  /** No two rows hold the same token. */
  predicate TokensApart(accounts: seq<Account>) {
    forall i, j :: 0 <= i < j < |accounts| && accounts[i].token.Some? ==> accounts[i].token != accounts[j].token
  }

  /** `generateVerificationToken`: stores `uuid` with an expiry one lifetime after `now`,
      replacing any earlier token, and returns the token it stored. */
  function Generate(accounts: seq<Account>, k: nat, uuid: string, now: int): (o: Outcome<string>)
    requires k < |accounts|
    ensures o.result == Ok(uuid)
    ensures |o.accounts| == |accounts|
    ensures o.accounts[k] == accounts[k].(token := Some(uuid), expiresAt := Some(now + TokenLifetime))
    ensures forall j :: 0 <= j < |accounts| && j != k ==> o.accounts[j] == accounts[j]
  {
    var a := accounts[k];
    Outcome(Ok(uuid), accounts[k := a.(token := Some(uuid), expiresAt := Some(now + TokenLifetime))])
  }

  /** `verifyVerificationToken`: the `Optional` lookup fails when no row holds `token` and
      throws when more than one does; then the guards in order; on success the row is
      verified and both token columns are cleared together. */
  function Verify(accounts: seq<Account>, token: string, now: int): (o: Outcome<bool>)
    ensures o.result.Err? ==> o.accounts == accounts
    ensures o.result == Err(InvalidToken) <==> forall j :: 0 <= j < |accounts| ==> accounts[j].token != Some(token)
    ensures o.result == Err(NonUniqueToken) <==> Count(accounts, HoldsToken(token)) > 1
    ensures match FirstIndex(accounts, HoldsToken(token))
      case None => true
      case Some(k) =>
        var a := accounts[k];
        Count(accounts, HoldsToken(token)) == 1 ==>
        && (a.isVerified ==> o.result == Err(AccountAlreadyVerified))
        && (!a.isVerified && a.expiresAt.None? ==> o.result == Err(NullExpiry))
        && (!a.isVerified && a.expiresAt.Some? && a.expiresAt.value < now ==> o.result == Err(TokenAlreadyExpired))
        && (o.result.Ok? <==> !a.isVerified && a.expiresAt.Some? && now <= a.expiresAt.value)
        && (o.result.Ok? ==>
              && o.result.value
              && o.accounts == accounts[k := a.(isVerified := true, token := None, expiresAt := None)])
  {
    if Count(accounts, HoldsToken(token)) > 1 then Outcome(Err(NonUniqueToken), accounts)
    else match FirstIndex(accounts, HoldsToken(token))
    case None => Outcome(Err(InvalidToken), accounts)
    case Some(k) =>
      var a := accounts[k];
      if a.isVerified then Outcome(Err(AccountAlreadyVerified), accounts)
      else if a.expiresAt.None? then Outcome(Err(NullExpiry), accounts)
      else if a.expiresAt.value < now then Outcome(Err(TokenAlreadyExpired), accounts)
      else Outcome(Ok(true), accounts[k := a.(isVerified := true, token := None, expiresAt := None)])
  }

  /** With tokens apart the lookup never meets two rows. */
  lemma TokensApartNeverShared(accounts: seq<Account>, token: string, now: int)
    requires TokensApart(accounts)
    ensures Verify(accounts, token, now).result != Err(NonUniqueToken)
  {
    if Count(accounts, HoldsToken(token)) > 1 {
      var i, j := CountTwoWitnesses(accounts, HoldsToken(token));
      assert false;
    }
  }

  lemma IssuedIsFound(accounts: seq<Account>, k: nat, uuid: string, now: int)
    requires k < |accounts|
    requires forall j :: 0 <= j < |accounts| && j != k ==> accounts[j].token != Some(uuid)
    ensures FirstIndex(Generate(accounts, k, uuid, now).accounts, HoldsToken(uuid)) == Some(k)
    ensures Count(Generate(accounts, k, uuid, now).accounts, HoldsToken(uuid)) == 1
  {
    var issued := Generate(accounts, k, uuid, now).accounts;
    assert HoldsToken(uuid)(issued[k]);
    forall j | 0 <= j < |issued| && j != k ensures !HoldsToken(uuid)(issued[j]) {
      assert issued[j] == accounts[j];
    }
    CountSingle(issued, HoldsToken(uuid), k);
  }

  /** A freshly issued token verifies an unverified account at any time up to and including
      its expiry, when no other row holds the same UUID. */
  lemma GenerateThenVerify(accounts: seq<Account>, k: nat, uuid: string, now: int, later: int)
    requires k < |accounts| && !accounts[k].isVerified
    requires forall j :: 0 <= j < |accounts| && j != k ==> accounts[j].token != Some(uuid)
    requires later <= now + TokenLifetime
    ensures var issued := Generate(accounts, k, uuid, now).accounts;
      var o := Verify(issued, uuid, later);
      && o.result == Ok(true)
      && o.accounts[k] == accounts[k].(isVerified := true, token := None, expiresAt := None)
  {
    var issued := Generate(accounts, k, uuid, now).accounts;
    IssuedIsFound(accounts, k, uuid, now);
  }

  /** One minute past its expiry the token is refused and nothing changes. */
  lemma ExpiredTokenRefused(accounts: seq<Account>, k: nat, uuid: string, now: int)
    requires k < |accounts| && !accounts[k].isVerified
    requires forall j :: 0 <= j < |accounts| && j != k ==> accounts[j].token != Some(uuid)
    ensures var issued := Generate(accounts, k, uuid, now).accounts;
      Verify(issued, uuid, now + TokenLifetime + 1) == Outcome(Err(TokenAlreadyExpired), issued)
  {
    var issued := Generate(accounts, k, uuid, now).accounts;
    IssuedIsFound(accounts, k, uuid, now);
  }

  /** A token that verified once cannot verify again: it was cleared, so the lookup fails. */
  lemma VerifyOnlyOnce(accounts: seq<Account>, token: string, now: int, later: int)
    requires TokensApart(accounts)
    requires Verify(accounts, token, now).result.Ok?
    ensures Verify(Verify(accounts, token, now).accounts, token, later) == Outcome(Err(InvalidToken), Verify(accounts, token, now).accounts)
  {
    var after := Verify(accounts, token, now).accounts;
    var k := FirstIndex(accounts, HoldsToken(token)).value;
    forall j | 0 <= j < |after| ensures !HoldsToken(token)(after[j]) {
      if j < k {
        assert accounts[j].token != accounts[k].token;
      } else if j > k {
        assert accounts[k].token != accounts[j].token;
      }
    }
  }

  /** Issuing a new token retires the old one: it no longer finds the account. */
  lemma RegenerateRetiresOldToken(accounts: seq<Account>, k: nat, prior: string, uuid: string, now: int, later: int)
    requires TokensApart(accounts) && k < |accounts| && accounts[k].token == Some(prior) && uuid != prior
    ensures Verify(Generate(accounts, k, uuid, now).accounts, prior, later).result == Err(InvalidToken)
  {
    var issued := Generate(accounts, k, uuid, now).accounts;
    forall j | 0 <= j < |issued| ensures !HoldsToken(prior)(issued[j]) {
      if j < k {
        assert accounts[j].token != accounts[k].token;
      } else if j > k {
        assert accounts[k].token != accounts[j].token;
      }
    }
  }
}

=== FILE: validation.dfy ===
/** The declared input constraints of the request objects, as bean validation reads them:
    `@NotNull`, `@NotBlank`, `@Min`, `@Size(min)` in UTF-16 units and the two `@Pattern`s with
    their ASCII character classes.
    A null field is `None`; every constraint except `@NotNull`/`@NotBlank` accepts null. */
module Validation {
  import opened Wrappers
  import opened Text
  import opened Domain
  import opened Store
  import opened EventEntity
  import opened EventService
  import opened Partition

  // ---- AvailabilityRulesDTO ----

  datatype RulesDto = RulesDto(
    slotDurationMinutes: Option<int>,
    maxSlotsPerUser: Option<int>,
    allowsCancellations: Option<bool>,
    isPublic: Option<bool>)

  /** The builder defaults. */
  const DefaultRulesDto: RulesDto := RulesDto(Some(30), Some(1), Some(true), Some(true))

  /** `@NotNull` on all four fields, `@Min(5)` on the duration, `@Min(1)` on the per-user limit. */
  predicate ValidRulesDto(d: RulesDto) {
    && d.slotDurationMinutes.Some? && d.slotDurationMinutes.value >= 5
    && d.maxSlotsPerUser.Some? && d.maxSlotsPerUser.value >= 1
    && d.allowsCancellations.Some? && d.isPublic.Some?
  }

  /** The values the service reads from a validated DTO. */
  function ToRulesRequest(d: RulesDto): (r: RulesRequest)
    requires ValidRulesDto(d)
    ensures r.slotDurationMinutes >= 5 && r.maxSlotsPerUser >= 1
  {
    RulesRequest(d.slotDurationMinutes.value, d.maxSlotsPerUser.value, d.allowsCancellations.value, d.isPublic.value)
  }

  lemma DefaultRulesDtoValid()
    ensures ValidRulesDto(DefaultRulesDto)
    ensures ToRulesRequest(DefaultRulesDto) == RulesRequest(30, 1, true, true)
  {
  }

  /** A validated DTO never trips the slot generator's duration guard, so creation can fail
      after its window guards only on a shareable-id collision; and since the DTO has no
      capacity field, a created event is never capped. */
  lemma ValidDtoCreation(db: Db, variant: Variant, req: EventRequest, dto: RulesDto, host: User, clock: Clock)
    requires ValidRulesDto(dto) && req.rules == ToRulesRequest(dto)
    ensures var st := CreateEvent(db, variant, req, host, clock);
      && st.result != Err(InvalidSlot(NonPositiveDuration))
      && (st.result.Ok? ==> st.result.value.rules.maxCapacity.None?)
  {
  }

  /** Legacy `createEvent` as evidently intended: with `@Valid` on the nested rules, the
      controller refuses a duration below 5 before the service runs, so the slot loop
      always ends, after one row per cell that starts before the event end. */
  function CreateLegacyEventValidated(db: Db, req: EventRequest, host: User, clock: Clock): (st: Step<Event>)
    ensures req.rules.slotDurationMinutes < 5 ==> st == Fail(db, InvalidRequest)
    ensures req.rules.slotDurationMinutes >= 5 ==> st == CreateEvent(db, Legacy, req, host, clock)
    ensures st.result.Ok? ==>
      && req.rules.slotDurationMinutes >= 5
      && |st.db.slots| == |db.slots| + LegacyCount(req.eventStart, req.eventEnd, req.rules.slotDurationMinutes)
  {
    if req.rules.slotDurationMinutes < 5 then Fail(db, InvalidRequest)
    else CreateEvent(db, Legacy, req, host, clock)
  }

  // ---- Text patterns ----

  predicate IsUsernameChar(c: char) {
    IsLower(c) || IsUpper(c) || IsDigit(c) || c == '_'
  }

  /** `^[a-zA-Z0-9_]+$`. */
  predicate MatchesUsernamePattern(s: string) {
    |s| > 0 && forall k :: 0 <= k < |s| ==> IsUsernameChar(s[k])
  }

  predicate IsSpecial(c: char) {
    c == '@' || c == '$' || c == '!' || c == '%' || c == '*' || c == '?' || c == '&'
  }

  /** The characters `.` does not match: the line terminators of `java.util.regex`. */
  predicate IsLineTerminator(c: char) {
    c == '\n' || c == '\r' || c as int == 0x85 || c as int == 0x2028 || c as int == 0x2029
  }

  /** Length of the longest prefix `.*` can match. */
  function LineLength(s: string): (n: nat)
    ensures n <= |s|
    ensures forall k :: 0 <= k < n ==> !IsLineTerminator(s[k])
    ensures n < |s| ==> IsLineTerminator(s[n])
  {
    if s == [] || IsLineTerminator(s[0]) then 0 else 1 + LineLength(s[1..])
  }

  /** `(?=.*[class])` at the start of the input. */
  predicate Lookahead(s: string, cls: char -> bool) {
    exists k :: 0 <= k < LineLength(s) && cls(s[k])
  }

  /** `^(?=.*[a-z])(?=.*[A-Z])(?=.*\d)(?=.*[@$!%*?&])[A-Za-z\d@$!%*?&].*$` under `matches`:
      four lookaheads, one character of the class, then `.*` that must reach the end. */
  predicate MatchesPasswordPattern(s: string) {
    && Lookahead(s, IsLower) && Lookahead(s, IsUpper) && Lookahead(s, IsDigit) && Lookahead(s, IsSpecial)
    && |s| > 0 && (IsLower(s[0]) || IsUpper(s[0]) || IsDigit(s[0]) || IsSpecial(s[0]))
    && LineLength(s[1..]) == |s| - 1
  }

  /** The policy in plain words: a permitted first character, no line terminator anywhere,
      and at least one lower-case letter, upper-case letter, digit and special character. */
  predicate PasswordPolicy(s: string) {
    && |s| > 0 && (IsLower(s[0]) || IsUpper(s[0]) || IsDigit(s[0]) || IsSpecial(s[0]))
    && (forall k :: 0 <= k < |s| ==> !IsLineTerminator(s[k]))
    && (exists k :: 0 <= k < |s| && IsLower(s[k]))
    && (exists k :: 0 <= k < |s| && IsUpper(s[k]))
    && (exists k :: 0 <= k < |s| && IsDigit(s[k]))
    && (exists k :: 0 <= k < |s| && IsSpecial(s[k]))
  }

  lemma {:induction false} LineLengthFull(s: string)
    ensures LineLength(s) == |s| <==> forall k :: 0 <= k < |s| ==> !IsLineTerminator(s[k])
  {
    if LineLength(s) < |s| {
      assert IsLineTerminator(s[LineLength(s)]);
    }
  }

  /** The pattern accepts exactly the strings of the policy. */
  lemma PatternIsPolicy(s: string)
    ensures MatchesPasswordPattern(s) <==> PasswordPolicy(s)
  {
    if |s| > 0 {
      var first := IsLower(s[0]) || IsUpper(s[0]) || IsDigit(s[0]) || IsSpecial(s[0]);
      LineLengthFull(s[1..]);
      LineLengthFull(s);
      if first && LineLength(s[1..]) == |s| - 1 {
        assert !IsLineTerminator(s[0]);
        forall k | 0 <= k < |s| ensures !IsLineTerminator(s[k]) {
          if k > 0 {
            assert s[k] == s[1..][k - 1];
          }
        }
        assert LineLength(s) == |s|;
      }
      if PasswordPolicy(s) {
        assert LineLength(s) == |s|;
        forall k | 0 <= k < |s| - 1 ensures !IsLineTerminator(s[1..][k]) {
          assert s[1..][k] == s[k + 1];
        }
      }
    }
  }

  /** One left-to-right scan deciding the policy. */
  method CheckPassword(s: string) returns (ok: bool)
    ensures ok == PasswordPolicy(s)
  {
    if |s| == 0 || !(IsLower(s[0]) || IsUpper(s[0]) || IsDigit(s[0]) || IsSpecial(s[0])) {
      return false;
    }
    var lower, upper, digit, special := false, false, false, false;
    var i := 0;
    while i < |s|
      invariant 0 <= i <= |s|
      invariant forall k :: 0 <= k < i ==> !IsLineTerminator(s[k])
      invariant lower == exists k :: 0 <= k < i && IsLower(s[k])
      invariant upper == exists k :: 0 <= k < i && IsUpper(s[k])
      invariant digit == exists k :: 0 <= k < i && IsDigit(s[k])
      invariant special == exists k :: 0 <= k < i && IsSpecial(s[k])
    {
      var c := s[i];
      if IsLineTerminator(c) {
        return false;
      }
      lower := lower || IsLower(c);
      upper := upper || IsUpper(c);
      digit := digit || IsDigit(c);
      special := special || IsSpecial(c);
      i := i + 1;
    }
    ok := lower && upper && digit && special;
  }

  /** `@NotBlank`, `@Size(min = 8)` and the pattern, on a password field; `@Size` counts
      UTF-16 code units. */
  predicate ValidPassword(p: Option<string>) {
    p.Some? && NotBlank(p.value) && Utf16Length(p.value) >= 8 && MatchesPasswordPattern(p.value)
  }

  // ---- RegisterRequest ----

  datatype RegisterRequest = RegisterRequest(
    email: Option<string>,
    displayName: Option<string>,
    password: Option<string>,
    firstName: Option<string>,
    lastName: Option<string>,
    timeZone: Option<string>)

  predicate PresentAndNotBlank(s: Option<string>) {
    s.Some? && NotBlank(s.value)
  }

  /** Every declared constraint except `@Email`'s address syntax. */
  predicate ValidRegisterRequest(r: RegisterRequest) {
    && PresentAndNotBlank(r.email)
    && PresentAndNotBlank(r.displayName) && MatchesUsernamePattern(r.displayName.value)
    && ValidPassword(r.password)
    && PresentAndNotBlank(r.firstName) && PresentAndNotBlank(r.lastName) && PresentAndNotBlank(r.timeZone)
  }

  /** The patterns already imply `@NotBlank`: a name of word characters and a password whose
      first character is in the class both have a character above U+0020. */
  lemma PatternsImplyNotBlank(s: string)
    ensures MatchesUsernamePattern(s) ==> NotBlank(s)
    ensures MatchesPasswordPattern(s) ==> NotBlank(s)
  {
    if |s| > 0 {
      assert IsUsernameChar(s[0]) ==> !IsTrimmedAway(s[0]);
    }
  }

  /** The length bound is inclusive: eight characters suffice, seven do not. */
  lemma PasswordLengthBoundary()
    ensures ValidPassword(Some("Abcdef1!"))
    ensures !ValidPassword(Some("Abcde1!"))
  {
    var p := "Abcdef1!";
    assert IsUpper(p[0]) && IsLower(p[1]) && IsDigit(p[6]) && IsSpecial(p[7]);
    assert PasswordPolicy(p);
    PatternIsPolicy(p);
    PatternsImplyNotBlank(p);
    Utf16LengthIsCharCount(p);
    Utf16LengthIsCharCount("Abcde1!");
  }

  /** `@Size` counts UTF-16 units: six characters, two of them outside the Basic
      Multilingual Plane, make a password of length eight. */
  lemma SupplementaryPasswordLength()
    ensures var p := "Aa1!\U{1F600}\U{1F600}";
      |p| == 6 && Utf16Length(p) == 8 && ValidPassword(Some(p))
  {
    var p := "Aa1!\U{1F600}\U{1F600}";
    assert IsLower(p[1]) && IsUpper(p[0]) && IsDigit(p[2]) && IsSpecial(p[3]);
    assert PasswordPolicy(p);
    PatternIsPolicy(p);
    PatternsImplyNotBlank(p);
    assert IsSupplementary(p[4]) && IsSupplementary(p[5]);
    assert p[4..][1..] == [p[5]];
  }

  /** Only the first character is restricted to the class: a later space is accepted. */
  lemma PasswordLaterSpaceAccepted()
    ensures MatchesPasswordPattern("Ab cdef1!")
  {
    var p := "Ab cdef1!";
    assert IsUpper(p[0]) && IsLower(p[1]) && IsDigit(p[7]) && IsSpecial(p[8]);
    assert PasswordPolicy(p);
    PatternIsPolicy(p);
  }

  /** A leading space is refused. */
  lemma PasswordLeadingSpaceRefused()
    ensures !MatchesPasswordPattern(" Abcdef1!")
  {
    assert " Abcdef1!"[0] == ' ';
  }

  /** A line terminator anywhere is refused, even a final one. */
  lemma PasswordLineTerminatorRefused()
    ensures !MatchesPasswordPattern("Abcdef1!\n")
  {
    var r := "Abcdef1!\n";
    assert IsLineTerminator(r[8]);
    PatternIsPolicy(r);
  }

  // ---- PasswordResetConfirmRequest ----

  datatype PasswordResetConfirmRequest = PasswordResetConfirmRequest(password: Option<string>, confirmPassword: Option<string>)

  /** The new password carries the registration policy; the confirmation is only non-blank. */
  predicate ValidResetRequest(r: PasswordResetConfirmRequest) {
    ValidPassword(r.password) && PresentAndNotBlank(r.confirmPassword)
  }

  /** The request object does not tie the two fields together: a valid one may carry a
      confirmation that differs from the password, which the service must reject itself. */
  lemma ResetMayMismatch()
    ensures var r := PasswordResetConfirmRequest(Some("Abcdef1!"), Some("x"));
      ValidResetRequest(r) && r.password != r.confirmPassword
  {
    PasswordLengthBoundary();
    assert !IsTrimmedAway("x"[0]);
  }
}

=== FILE: wrappers.dfy ===
/** Failure-compatible result types shared by every module: `Option` stands for
    a Java reference that may be null, `Result` for a call that may throw. */
module Wrappers {

  datatype Option<+T> = None | Some(value: T) {
    function GetOr(default: T): T {
      match this
      case Some(v) => v
      case None => default
    }
  }

  datatype Result<+T, +E> = Ok(value: T) | Err(error: E) {
    predicate IsFailure() {
      Err?
    }

    function PropagateFailure<U>(): Result<U, E>
      requires Err?
    {
      Err(error)
    }

    function Extract(): T
      requires Ok?
    {
      value
    }
  }
}
